=== FILE: README.md ===
# nearme: a Dafny model of the directory's cloud code

This project models the server-side rules of *nearme*, a local-business directory
built on Parse Server. Business owners publish **listings** (`Place`). An
administrator sells **packages** (`Package`). A purchase is recorded as an
**entitlement** (`UserPackage`): a paid listing, or a promotion that makes a listing
featured. The rules modelled are these:

- how listings are created, edited, liked and deleted, and what each of those costs;
- how a card payment, confirmed through the payment gateway's webhook, pays an
  entitlement and applies it to its listing;
- how reviews keep each listing's rating aggregates;
- how the hourly job expires listings and ends promotions;
- how the public search and the home page choose and order listings;
- how blog posts, user accounts and the dashboard's install gate behave.

The store is a set of immutable maps, `Records.Store`. Every cloud function and
trigger is a pure function from a request and a store to a result and a new store.
When a failure can follow a write that has already been made, the function returns a
`Reply(store, result)`, so that write stays visible. `createPlace`, for example,
records the entitlement before it can fail on a missing parameter.

The first seven modules, from `Common` to `Records`, hold what several source files
share. Each of the others follows one source file, except `Discovery`, which holds
the search functions of two:

| module | models |
|---|---|
| `Common` | ids, `Option`/`Result`, the failures cloud code throws, the caller, JavaScript truthiness, `Math.round`, and NaN from 0/0 |
| `Clock` | millisecond time; start of the UTC day and of a local day |
| `Canonical` | the search key: lower-case, NFD, combining marks removed |
| `Currency` | the zero-decimal currency table of `utils/index.js` |
| `Paging` | skip/limit windows and 1-based pages |
| `Shuffle` | the random-key shuffle of the home page and the featured rows |
| `Records` | the entities and the settings record |
| `PackageRules` | `cloud/package.js` |
| `Entitlements` | `cloud/user-package.js`, including the payment intent |
| `Listings` | the listing functions and triggers of `cloud/place.js` |
| `Ratings` | `cloud/review.js` |
| `PaymentWebhook` | `controllers/stripe.js` |
| `ExpirySweep` | `jobs/expire-places.js` |
| `Discovery` | `getPlaces` in `cloud/place.js` and `getHomePageData` in `cloud/util.js` |
| `Posts` | `cloud/post.js` |
| `Users` | `cloud/user.js` |
| `Install` | `middlewares/install.js` |

**Modelling choices**

- Everything the code cannot decide by itself is a parameter:
  - the clock (`now`) and the server's time-zone offset;
  - the random draws of a shuffle;
  - the query engine's ordering and geo filtering (`run`), constrained by
    `Discovery.HonoursFilters`;
  - whether a webhook signature verifies;
  - the files an image upload stores;
  - the profile a social login returns.
- Queries that cloud code runs without the master key or a session are anonymous,
  so the `beforeFind` triggers narrow them. This matters in two places:
  - the duplicate-review check of `review.js` sees only Published reviews;
  - the review cascade when a listing is deleted removes only Published reviews.
- Queries that run with the master key bypass `beforeFind`. As a result, an
  Inactive package can still be bought by id.
- Each main operation models the code's behaviour as written. Where that behaviour
  is evidently unintended, a corrected sibling is defined and proved beside it (see
  Findings).
- The install gate is modelled as a function of the lookup and the URL. The router
  mounts it only on `GET /` (controllers/index.js:10); `/install`
  (controllers/index.js:6) and `/dashboard` (server.js:282) are served without it.
- Some behaviour is odd but has no Findings row. Each case is stated by the named
  lemma or contract:
  - An edit approves a listing whenever automatic approval is on, even when paid
    listings are enabled (the ensures of `Listings.UpdatePlace`).
  - A listing bought in `createPlace` expires at the start of a local day, but one
    paid through the webhook expires at the start of a UTC day
    (`Clock.LocalAndUtcDaysDiffer`).
  - Latitude or longitude 0 counts as missing, because JavaScript treats 0 as falsy
    (the ensures of `Discovery.GeoFor` and `Discovery.GetHomePageData`).
  - Editing the rating of a published review leaves the listing's aggregates stale
    (`Ratings.RatingEditLeavesAggregates`).
  - A user created by an administrator with the customer type joins the Admin role
    but cannot log in to the dashboard (`Users.CreatedUserLogsInIffStaffType`).
  - A post that goes back to Pending and is activated again is announced again
    (`Posts.ReapprovalAnnouncesAgain`).

## Model

| member | source | states |
|---|---|---|
| Common.JsRound | cloud/review.js:109-119 | `Math.round` gives the integer within half a unit of its argument, with halves rounded up |
| Common.RoundDiv | cloud/review.js:144 | the rounded quotient of the average is finite exactly when the count is non-zero, and NaN exactly for 0/0 |
| Common.RoundDivMatchesIntegerRounding | cloud/review.js:109-119 | for a positive count, the JavaScript average agrees with exact integer rounding (2t+c) div 2c |
| Common.Filter | cloud/place.js:386-390 | an equality-filtered query returns exactly the rows that satisfy the filter, and no more rows than it was given |
| Clock.AddDays | cloud/place.js:153-155 | adding n days keeps the time of day and moves the start of the day, UTC or local in any zone, by exactly n days |
| Clock.ShiftByDays | cloud/place.js:153-155 | shifting a time by whole days shifts its UTC start of day by the same amount |
| Clock.StartOfUtcDay | controllers/stripe.js:64-66 | `startOf('day')` in UTC is a midnight at or before t, less than a day earlier |
| Clock.StartOfUtcDayIsUnique | controllers/stripe.js:64-66 | any UTC midnight within the day before t is that start of day |
| Clock.StartOfUtcDayIdempotent | controllers/stripe.js:64-66 | the start of the day of a midnight is that midnight |
| Clock.StartOfLocalDay | cloud/place.js:153-155 | a local start of day is a local midnight at or before t, less than a day earlier |
| Clock.LocalAndUtcDaysDiffer | cloud/place.js:153-155 | with a one-hour zone offset, createPlace and the webhook put the same instant on different day boundaries |
| Canonical.Lower | cloud/post.js:37-39 | `toLowerCase` keeps the length, leaves no upper-case letter, and changes exactly the upper-case letters |
| Canonical.LowerIdempotent | cloud/post.js:37-39 | lower-casing a lower-cased string changes nothing |
| Canonical.LowerAppend | cloud/user.js:252-254 | lower-casing a concatenation lower-cases each part |
| Canonical.DecomposeAll | cloud/place.js:622-623 | `normalize('NFD')` replaces each character by its decomposition, so it never shortens a text |
| Canonical.DecomposeAllKeepsPlainText | cloud/place.js:622-623 | a text none of whose characters has a decomposition comes back unchanged |
| Canonical.DecomposeAllAppend | cloud/place.js:622-623 | decomposition works character by character: it distributes over concatenation |
| Canonical.StripMarks | cloud/place.js:622-626 | removing combining marks leaves no mark and adds no character, and a text without marks comes back unchanged |
| Canonical.StripMarksAppend | cloud/place.js:624 | the mark removal works character by character: it distributes over concatenation |
| Canonical.Canonicalize | cloud/place.js:622-626 | a search key holds no combining mark and no upper-case letter |
| Canonical.CanonicalIsSettled | cloud/package.js:41-46 | every character of a search key is lower-case, not a mark and its own decomposition |
| Canonical.CanonicalHasNoMarks | cloud/place.js:622-626 | a listing's search key never contains a combining mark |
| Canonical.CanonicalizeIdempotent | cloud/package.js:41-46 | computing the search key of a search key changes nothing, so a stored key is its own query |
| Canonical.AccentedQueryMatchesPlainKey | cloud/place.js:365-378 | "Café", typed either precomposed or decomposed, gives the same key as "cafe" |
| Currency.IsZeroDecimalCurrency | utils/index.js:20-26 | a zero-decimal code is three upper-case ASCII letters, "JPY", "KRW" and "VND" among them; the lookup is exact and case-sensitive |
| Currency.ZeroDecimalCodesAreUpperCase | utils/index.js:20-26 | every zero-decimal currency code is three upper-case ASCII letters |
| Paging.Window | cloud/user.js:37-38 | a skip/limit window holds the rows from the skip onward, in order, up to the limit |
| Paging.FirstPagesArePrefix | cloud/user-package.js:77-80 | consecutive 1-based pages tile the rows without gap or overlap |
| Shuffle.SortByKey | cloud/util.js:105-107 | sorting by the random key orders the keys and keeps the multiset of values |
| Shuffle.InsertAddsOne | cloud/util.js:105-107 | inserting into the sorted list adds exactly the inserted value |
| Shuffle.Shuffle | cloud/util.js:105-107 | the shuffle is a permutation of its input |
| Shuffle.ShuffleRunsAgreeAsMultisets | cloud/place.js:476-478 | any two shuffles of the same rows hold the same rows |
| PackageRules.FinalPriceIsSalePriceElsePrice | cloud/package.js:35-39 | the final price is the sale price whenever one is set, 0 included, and otherwise the list price |
| PackageRules.SavePackage | cloud/package.js:10-48 | only administrators and the master key save packages; the final price is recomputed on every save, and the key only when the name changes; nothing else changes |
| PackageRules.FindPackages | cloud/package.js:1-8 | restricted readers see exactly the active, undeleted packages; others see all of them |
| Entitlements.SaveEntitlement | cloud/user-package.js:12-54 | only the master key creates entitlements; a new one is unpaid with usage 0 when it costs something, and otherwise paid with usage 1; the limit flag is recomputed whenever usage is written; nothing else changes |
| Entitlements.NewEntitlement | cloud/user-package.js:28-36 | a new entitlement is paid exactly when the package is free, and its limit flag agrees with its usage |
| Entitlements.Consume | cloud/place.js:66-85 | a listing can be funded only from a paid entitlement whose limit flag is down; this adds one use and recomputes the flag |
| Entitlements.ConsumesExactlyUpToLimit | cloud/place.js:66-85 | from a consistent paid entitlement, exactly limit − usage further listings succeed, and the next one is refused |
| Entitlements.UnlimitedNeverRunsOut | cloud/user-package.js:39-52 | with no listing limit, every further listing succeeds |
| Entitlements.FreePackageWithLimitThree | cloud/user-package.js:33-36 | a free package with limit 3 funds three listings in all, counting its own, before it is refused |
| Entitlements.OvershootClearsLimitFlag | cloud/user-package.js:39-52 | once usage passes the limit, the flag comes down again and the entitlement can be spent |
| Entitlements.ConsumeCorrected | cloud/user-package.js:39-52 | with the flag computed as usage ≥ limit, every success adds one use and sets the flag accordingly |
| Entitlements.CorrectedLimitIsSticky | cloud/user-package.js:39-52 | the corrected flag agrees with the original up to the limit, never comes down again, and allows spending only below the limit |
| Entitlements.ChargeAmount | cloud/user-package.js:166-172 | a zero-decimal currency is charged the price itself; any other currency is charged a whole number of cents within half a cent of the price |
| Entitlements.WholeCentsAreChargedExactly | cloud/user-package.js:166-172 | a price of whole cents is charged exactly |
| Entitlements.LowerCaseCodeIsChargedInHundredths | cloud/user-package.js:166-172 | a currency code holding any lower-case letter is never looked up as zero-decimal, so the price is charged in hundredths |
| Entitlements.YenConfiguredInLowerCaseIsChargedHundredfold | cloud/user-package.js:166-182 | a price of 1000 is charged 1000 with the code "JPY" but 100000 with "jpy", although both send the same currency "jpy" to the gateway |
| Entitlements.CreatePaymentIntent | cloud/user-package.js:144-194 | a payment intent needs a session and an unpaid entitlement ("Cannot paid" otherwise); the intent carries the amount, the lower-cased currency and the metadata that identify the entitlement, the listing and the user |
| Entitlements.Matching | cloud/user-package.js:63-90 | the listed entitlements are exactly the undeleted ones that pass the status, user and search-text filters |
| Entitlements.GetUserPackages | cloud/user-package.js:56-96 | only administrators and the master key list entitlements; paging applies only when both limit and page are set, and then returns page p of the matches; a negative page with a limit makes the skip negative and throws |
| Entitlements.SearchTextListsNothing | cloud/user-package.js:65-67 | entitlements carry no search key, so any non-empty search text lists nothing |
| Entitlements.CreateUserPackage | cloud/user-package.js:196-213 | a logged-in user buys any stored package by id, which records exactly one new entitlement; anything else changes nothing |
| Listings.SavePlace | cloud/place.js:601-631 | anonymous saves are refused; a new listing gets status Pending unless one is given, and average 0; the key is recomputed on every save; a cleared expiry is unset; nothing else changes |
| Listings.SavePlaceIsStable | cloud/place.js:601-631 | saving a saved listing again changes nothing |
| Listings.Fund | cloud/place.js:30-90 | with paid listings enabled, a package id buys a new entitlement (refused for a repeated purchase when that is disabled), an entitlement id spends one use, and anything else is "Package not found"; a failure writes nothing |
| Listings.CreationStatus | cloud/place.js:126-145 | a new listing is Approved exactly when automatic approval is on without paid listings, or its paid package approves automatically |
| Listings.CreationExpiry | cloud/place.js:151-158 | a paid package with a duration sets the expiry to the local start of the day that many days ahead; otherwise no expiry is set |
| Listings.CreatePlace | cloud/place.js:10-169 | a listing is created exactly when the caller is logged in, funding succeeds, title, categories and location are given and the location is a valid geo point; a location off the globe throws after the funding is written; the listing belongs to the caller, starts with no ratings or likes, and records its entitlement |
| Listings.FailedCreationKeepsFunding | cloud/place.js:60-109 | when a parameter is missing or the location is off the globe, the entitlement is still written even though no listing is created |
| Listings.AnyoneCanSpendAnEntitlement | cloud/place.js:36-40 | any user can spend a use of another user's entitlement by passing its id |
| Listings.FundOwned | cloud/place.js:36-40 | the corrected funding only ever spends the caller's own entitlement |
| Listings.FundOwnedSparesOthers | cloud/place.js:36-40 | the corrected funding leaves every other user's entitlement untouched |
| Listings.UpdatePlace | cloud/place.js:171-233 | only the owner edits; a missing field or a location off the globe throws and writes nothing; an edit sets title, key, categories and location, and resets the status to PendingApproval, or to Approved when automatic approval is on |
| Listings.DeletePlace | cloud/place.js:235-253 | only the owner deletes; deleting removes the listing and its Published reviews, and nothing else |
| Listings.LikePlace | cloud/place.js:552-599 | a like toggles the caller's membership of the likers and reports whether it added it; other likers are untouched, and the like count stays consistent |
| Listings.SaveProcessedIsIdentity | cloud/place.js:601-631 | the save trigger leaves a listing whose key is already correct unchanged |
| Listings.LikeTwiceRestores | cloud/place.js:570-580 | liking twice restores the store |
| Ratings.FindReviews | cloud/review.js:3-9 | restricted readers see exactly the published reviews; others see all of them |
| Ratings.SaveReview | cloud/review.js:11-78 | an edit needs a session or the master key; a new review needs a session (the master key alone throws while granting write access), reviews switched on, and (unless several per user are allowed) no published review of the author on the listing; the rating must be 1 to 5; a new review is published exactly when automatic publishing is on |
| Ratings.GuardedAverage | cloud/review.js:109-119 | the guarded average is always finite, and 0 when the count or the total is 0 |
| Ratings.GuardedAverageOfPositiveCount | cloud/review.js:109-119 | with reviews present, the guarded average is the rounded mean |
| Ratings.WithAggregates | cloud/review.js:96-119 | storing new totals keeps the average consistent with them |
| Ratings.AfterSaveReview | cloud/review.js:80-129 | a review that becomes published adds its rating to its listing; one that stops being published removes it; nothing else changes |
| Ratings.PutReview | cloud/review.js:11-129 | saving a review stores it and touches only its own listing |
| Ratings.MasterKeyAloneCannotCreateReview | cloud/review.js:17-24 | a new review saved with the master key and no session throws, and nothing is stored |
| Ratings.PutReviewKeepsAverage | cloud/review.js:80-129 | saving a review keeps each listing's average consistent with its totals |
| Ratings.DeleteReview | cloud/review.js:131-150 | deleting a published review subtracts it and recomputes the average with JavaScript division; other deletions leave the listings alone |
| Ratings.DeletingLastReviewStoresNaN | cloud/review.js:144 | deleting a listing's only review stores NaN as its average |
| Ratings.DeleteReviewGuarded | cloud/review.js:131-150 | the corrected deletion keeps every average consistent and finite |
| Ratings.GuardedDeleteAgreesWhileReviewsRemain | cloud/review.js:131-150 | the corrected deletion agrees with the original while reviews and rating remain |
| Ratings.TallyUpdate | cloud/review.js:96-107 | replacing one review changes a tally by exactly that review's difference |
| Ratings.PutReviewKeepsTally | cloud/review.js:80-129 | as long as a review keeps its listing and rating, saving it keeps the aggregates equal to the count and sum of the published reviews |
| Ratings.DeleteReviewKeepsTally | cloud/review.js:131-150 | deleting a review keeps the aggregates equal to the count and sum of the published reviews |
| Ratings.RatingEditLeavesAggregates | cloud/review.js:89-90 | changing the rating of a published review leaves the aggregates stale |
| Ratings.PendingReviewDoesNotBlockSecond | cloud/review.js:56-68 | an author whose first review is still pending can write a second one |
| Ratings.SaveReviewChecked | cloud/review.js:56-68 | the corrected check refuses a second review whatever the status of the first |
| Ratings.CheckedSaveKeepsOneReviewPerAuthor | cloud/review.js:56-68 | the corrected check keeps at most one review per author and listing |
| PaymentWebhook.PaidPlace | controllers/stripe.js:54-77 | a payment approves, features and dates the listing as its package says, at the UTC start of day; nothing else changes |
| PaymentWebhook.PaidEntitlement | controllers/stripe.js:79-83 | a payment marks the entitlement paid, stores the first charge, adds one use and recomputes the flag |
| PaymentWebhook.HandleWebhook | controllers/stripe.js:7-91 | only a configured signing secret lets a delivery act: a bad signature gets 400; an unsigned delivery is never answered and writes nothing, because the raw body carries no event type; a verified succeeded payment for a known entitlement and listing is acknowledged and writes exactly those two; other verified events get no answer |
| PaymentWebhook.ActOn | controllers/stripe.js:35-91 | an event is acknowledged exactly when it is a succeeded payment naming a stored entitlement and listing, and then pays both; any other event writes nothing and only a non-payment event goes unanswered |
| PaymentWebhook.HandleWebhookParsed | controllers/stripe.js:12-35 | the corrected handler reads the event from the parsed body without a secret, so an unsigned succeeded payment is acted on; with a secret it is the handler as written |
| PaymentWebhook.UnsignedPaymentIsIgnored | controllers/stripe.js:28-33 | without a secret, a succeeded payment for a known entitlement and listing is ignored as written, but pays the entitlement in the corrected handler |
| PaymentWebhook.WebhookTouchesOnlyItsRecords | controllers/stripe.js:37-83 | a delivery changes only the listing and the entitlement it names |
| PaymentWebhook.RepeatedDeliveryCountsTwice | controllers/stripe.js:79-83 | delivering the same payment twice counts two uses |
| PaymentWebhook.RepeatedDeliveryReopensEntitlement | controllers/stripe.js:79-83 | with limit 1, the second delivery lowers the limit flag again and the entitlement becomes spendable |
| PaymentWebhook.HandleWebhookAcknowledged | controllers/stripe.js:35-91 | the corrected handler answers every delivery, acknowledging every accepted event, and still ignores the types it does not handle |
| PaymentWebhook.OtherEventsGetNoResponse | controllers/stripe.js:35-91 | as written, a verified refund event is never answered |
| ExpirySweep.ExpireDue | jobs/expire-places.js:19-30 | sweep A marks Expired exactly the listings that are not yet expired, whose expiry has passed and whose save does not fail; each save rewrites the search key from the title |
| ExpirySweep.UnfeatureDue | jobs/expire-places.js:36-52 | sweep B unfeatures exactly the approved, featured listings whose featured period has passed and whose save does not fail; each save rewrites the search key |
| ExpirySweep.Resaved | cloud/place.js:601-631 | a listing saved by the job with the master key gets its search key recomputed from its title, and nothing else |
| ExpirySweep.RunExpiryJob | jobs/expire-places.js:5-58 | with no super administrator the job does nothing; a failed lookup skips sweep A but still runs sweep B; each sweep saves listing by listing, so a failed save leaves only that listing as it was |
| ExpirySweep.RunChangesOnlySelectedFields | jobs/expire-places.js:19-52 | a run changes only status, featured flag and search key, and only on the listings it selects and saves; the status changes exactly on the expired ones, the flag exactly on the unfeatured ones, and their key becomes that of the title |
| ExpirySweep.FailureIsConfinedToItsListing | jobs/expire-places.js:28-30 | a listing whose save fails does not change the outcome for any other listing |
| ExpirySweep.ExpiredListingKeepsFeatured | jobs/expire-places.js:36-52 | a listing that expires in the same run stays featured |
| ExpirySweep.RunIsIdempotent | jobs/expire-places.js:5-58 | running the job twice at the same time, with the same failing saves, is the same as running it once |
| ExpirySweep.UnfeatureKeepsExpiry | jobs/expire-places.js:36-52 | sweep B never changes whether a listing is due to expire |
| ExpirySweep.RunLeavesNothingDue | jobs/expire-places.js:19-52 | after a run, neither sweep selects any listing except those whose save failed |
| Discovery.SearchRadius | cloud/place.js:349-361 | the requested distance is used only below the configured radius |
| Discovery.RadiusIsCapped | cloud/place.js:349-361 | the radius never exceeds the configured one |
| Discovery.GeoFor | cloud/place.js:422-452 | two bounds give a box, and one bound throws; otherwise a point with a radius in km or mi gives a circle; with no radius, the listings are sorted by distance; a corner or centre outside ±90° latitude or ±180° longitude throws |
| Discovery.OrderFor | cloud/place.js:456-464 | an asc or desc sort with no field throws; a distance sort leaves the order to the engine; otherwise an asc/desc field is used, else newest first |
| Discovery.BaseQuery | cloud/place.js:339-470 | the filters of a search: one bound, a point off the globe, or a sort without a field throws; statuses default to Approved, the tag goes through the search key, the order follows the parameters, and there is no paging yet |
| Discovery.GetPlaces | cloud/place.js:335-514 | one bound, a point off the globe, a sort direction without a field, or (for rows) a negative skip, that is page times page size, throws; otherwise a search returns the count, or the page optionally preceded by the featured rows (for page 0 and non-featured searches); with a position filter the featured rows keep their order, otherwise they are shuffled |
| Discovery.FeaturedRowsComeFirst | cloud/place.js:480-512 | every returned listing is undeleted with an allowed status; the prepended rows are featured, and the page rows are featured exactly in a featured search |
| Discovery.OmittedPageGetsNoFeaturedRows | cloud/place.js:480 | a search without a page gets the first page without the featured rows |
| Discovery.GetPlacesDefaultedPage | cloud/place.js:480 | the corrected search treats an omitted page as page 0 and prepends the featured rows, and throws exactly when the search does |
| Discovery.NegativeSkipThrows | cloud/place.js:339-340 | a negative page with a non-negative or absent limit, or a negative limit on a positive page, makes the row request throw when the skip is set (cloud/place.js:507) |
| Discovery.RadiusGeo | cloud/util.js:46-67 | the home page's circle has the configured radius in km or mi, distance-sorted because `sorted` is left out, or covers everywhere |
| Discovery.GetHomePageData | cloud/util.js:1-117 | the home page needs latitude, longitude and unit ("Missing params"), and a centre on the globe (otherwise it throws); it returns the featured and recent lists, shuffled, of queries whose radius searches are distance-sorted, and the nearby list in the engine's order |
| Discovery.HomeListsHoldApprovedListings | cloud/util.js:39-95 | every home list holds only approved, undeleted listings, and the featured one only featured listings |
| Posts.FindPosts | cloud/post.js:4-10 | restricted readers see exactly the active posts; others see every post |
| Posts.SavePost | cloud/post.js:12-78 | only administrators and the master key write posts; the key is recomputed only when the title changes; a new image brings a thumbnail, and clearing it clears the thumbnail |
| Posts.SavePostIsStable | cloud/post.js:12-78 | saving a post again with nothing changed keeps it |
| Posts.PostKeyIgnoresCase | cloud/post.js:37-39 | titles that differ only in case give the same key |
| Posts.AfterSavePost | cloud/post.js:80-99 | a notification of type "All" with the post's title, body and image is created exactly when a push-enabled post is active and either new or previously Pending |
| Posts.AnnouncedAtMostOnce | cloud/post.js:86-88 | a post that never returns to Pending is announced at most once |
| Posts.ReapprovalAnnouncesAgain | cloud/post.js:86-88 | each return to Pending followed by a new activation sends another notification |
| Users.BeforeSaveUser | cloud/user.js:182-277 | a new user's type defaults to customer; social sign-up takes the profile's name; every other save rebuilds the key from name, user name and e-mail |
| Users.SearchKeyHoldsEachPart | cloud/user.js:252-254 | the lower-cased name, user name or e-mail of a password user is found inside its key |
| Users.Matching | cloud/user.js:17-27 | the listed users are exactly those that pass the filters |
| Users.GetUsers | cloud/user.js:3-46 | only administrators list users; a missing limit, or a page below 1 with a positive limit, throws; a missing page gives the first page; otherwise the result is page p of the matches with the total count |
| Users.OmittedPageIsFirstPage | cloud/user.js:37-38 | a request without a page returns what the same request for page 1 returns |
| Users.ExcludedUsersAreNeverListed | cloud/user.js:25-27 | an excluded id is never listed |
| Users.CreateUser | cloud/user.js:65-109 | only administrators create users; sign-up refuses an empty user name or password with code -1, and a taken user name (202) or e-mail (203); the new user's type defaults to admin, and the user joins the Admin role |
| Users.DestroyUser | cloud/user.js:156-180 | only administrators delete; "User not found" for an unknown id, "Cannot delete this user" for oneself; otherwise exactly that user is removed |
| Users.DestroyNeverRemovesCaller | cloud/user.js:174 | a successful deletion keeps the caller's account and removes exactly one user |
| Users.FirstWithLogin | cloud/user.js:283-290 | the first user whose user name or e-mail equals the login, or none when no user has it; with no login, the first user lacking a user name or an e-mail |
| Users.CanLogin | cloud/user.js:279-300 | the dashboard accepts exactly logins that find a super_admin or admin, a missing login included; otherwise it answers 5000 (not found) or 5001 (not authorized) |
| Users.MissingLoginFindsUserWithoutEmail | cloud/user.js:281-290 | a request with no login is accepted when the first user without an e-mail is staff |
| Users.CreatedUserLogsInIffStaffType | cloud/user.js:88 | a created user can log in unless it was given the customer type |
| Install.Gate | middlewares/install.js:1-33 | the gate function: with no super administrator, the root goes to the installer; once one exists, every other URL goes to the root; a failed lookup answers with its message. It guards only `GET /` (controllers/index.js:10) |
| Install.NoRedirectChain | middlewares/install.js:11-27 | the target of a redirect of the gate function is passed by it |
| Install.ServedPages | middlewares/install.js:11-27 | once set up, the gate function passes only the root; before that, it passes every URL but the root |

## Left out

- Image processing and file storage (resizing of listing, post and user photos). The stored files are parameters, or are not modelled.
- Slugs (`limax`), because the library is not part of this model.
- ACLs set by the triggers, because the model grants access by the explicit checks alone.
- Sending e-mail and push notifications, and the AppEvent of a like. Only the stored Notification of a post is modelled.
- The payment gateway SDK: signature verification is a boolean of the delivery, and the created intent is the request the code sends.
- Geo computations and sorting are the query engine's, given as `run` and constrained by `HonoursFilters`.
- The store's default query limit of 100 rows.
- ExpirySweep.RunExpiryJob: models both sweeps over every matching listing, not only the first 100 rows that `find()` returns.
- Discovery.GetPlaces: the featured query also runs without a limit and does not model the 100-row cap.
- Discovery.GetPlaces: page and limit are integers, so a fractional or non-numeric page or limit is not modelled. A negative limit on page 0 reaches the engine unchanged, and what the engine does with it is the engine's.
- Daylight-saving time: the local day uses one fixed zone offset.
- Case folding and decomposition beyond Latin-1: `Canonical` covers ASCII and Latin-1 letters only.
- Concurrency between triggers, and the fire-and-forget saves of `afterSave`/`afterDelete`, which are modelled as done in order.
- `getRandomPlaces`, `isPlaceStarred`, `isPlaceLiked`, the statistics and tracking functions, and `roundNumber`/`formatCurrency`, because they are not part of the core.
- The category and slide lists of the home page, which are plain queries.
- `getUser` and `updateUser` of `cloud/user.js`, which are plain admin-gated reads and writes.
- Users.GetUsers: the sort by `orderBy`/`orderByField` is the query engine's; the users are given already in query order.
- Ratings.AfterSaveReview: the recompute of the search key when the listing is saved is left out; the key is stable under saves (`Listings.SaveProcessedIsIdentity`).
- Ratings.SaveReview: the rating is modelled as always present (an integer), so a review without a rating is not modelled.
- Users.CreateUser: compares user names and e-mails exactly, without the store's case-insensitive matching. E-mail format validation is left out.
- Users.DestroyUser: the id is modelled as always given; a request without an id is not modelled.
- Users.GetUsers: a negative limit is not modelled (the limit is a natural number).
- Entitlements.GetUserPackages: a negative limit is not modelled (the limit is a natural number); a negative page is.
- Entitlements.ChargeAmount: prices are exact reals, not IEEE doubles. In the code, a product `finalPrice * 100` that lands just under a half cent rounds down (1.005 is charged 100), where the model charges 101. Whole-cent prices are charged exactly in both (`Entitlements.WholeCentsAreChargedExactly`).
- Coordinates are exact reals: a latitude or longitude that is not a number, which `Parse.GeoPoint` also refuses, is not modelled; only the range check is.
- PaymentWebhook.HandleWebhook: a webhook body sent form-encoded, which the urlencoded parser of server.js:175-178 would turn into fields, is not modelled; every delivery is a raw body.
- ExpirySweep.RunChangesOnlySelectedFields: the slug that the save trigger also rewrites is not modelled (slugs are left out), and every listing is modelled with a title.
- ExpirySweep.RunExpiryJob: which saves fail is a parameter; the reasons a save fails are not modelled.
- Users.BeforeSaveUser: the photo upload is left out, and so are crashes when a provider's profile has no name.

## Findings

| source | as written | input that shows it | evidently intended | confidence | as-written member | corrected member |
|---|---|---|---|---|---|---|
| cloud/user-package.js:39-52 | the limit flag is set only when `limit - usage === 0` | limit 1, usage 2 (after a repeated payment delivery): flag false, and the entitlement can be spent again | flag set when usage ≥ limit | not executed | Entitlements.OvershootClearsLimitFlag | Entitlements.ConsumeCorrected |
| cloud/review.js:144 | the average after a deletion is `Math.round(total / count)` with no guard | deleting the only review of a listing: 0/0 stores NaN | average 0 when no reviews remain, as on creation | not executed | Ratings.DeletingLastReviewStoresNaN | Ratings.DeleteReviewGuarded |
| controllers/stripe.js:35-91 | the response is sent only inside the `payment_intent.succeeded` branch | a verified `charge.refunded` event: the request is never answered | acknowledge every verified event | not executed | PaymentWebhook.OtherEventsGetNoResponse | PaymentWebhook.HandleWebhookAcknowledged |
| controllers/stripe.js:28-33 | without a signing secret, the event type is read from `req.body.type`, but the route parses the body raw, so there is no type | no signing secret and a JSON `payment_intent.succeeded` delivery for a known entitlement and listing: nothing is paid and the request is never answered | act on the event read from the parsed body | not executed | PaymentWebhook.UnsignedPaymentIsIgnored | PaymentWebhook.HandleWebhookParsed |
| cloud/place.js:480 | featured rows are prepended when `params.page === 0`, although the page defaults to 0 only in a local variable | a first-page search with no `page` parameter gets no featured rows | test the defaulted page | not executed | Discovery.OmittedPageGetsNoFeaturedRows | Discovery.GetPlacesDefaultedPage |
| cloud/place.js:36-40 | an entitlement is fetched by id with the master key and no owner check | user B passes user A's paid entitlement id to `createPlace`: A's use is spent on B's listing | only the caller's own entitlements may be spent | not executed | Listings.AnyoneCanSpendAnEntitlement | Listings.FundOwned |
| cloud/review.js:56-68 | the duplicate check runs without a session, so it sees only Published reviews | an author's first review is pending, and a second new review is accepted | one review per author and listing, whatever its status | not executed | Ratings.PendingReviewDoesNotBlockSecond | Ratings.SaveReviewChecked |

=== FILE: canonical.dfy ===
/** The canonical search key: lower-case, canonical decomposition (NFD), then every
    combining mark U+0300..U+036F removed.
    Listing titles (cloud/place.js), the tag query of the listing search (cloud/place.js)
    and package names (cloud/package.js) all go through it, so an accented query and an
    unaccented title meet at the same key. Lower-casing and canonical decomposition are
    modelled on ASCII and Latin-1, the letters the decomposition table covers. */
module Canonical {
  import opened Common

  /** A combining diacritical mark, U+0300 to U+036F. */
  predicate IsMark(c: char) {
    '\U{300}' <= c <= '\U{36F}'
  }

  /** Upper-case letters of ASCII and Latin-1 (U+00D7, the multiplication sign, is not a letter). */
  predicate IsUpper(c: char) {
    ('A' <= c <= 'Z') || ('\U{C0}' <= c <= '\U{DE}' && c != '\U{D7}')
  }

  function LowerChar(c: char): char {
    if IsUpper(c) then (c as int + 32) as char else c
  }

  /** `toLowerCase`: no upper-case letter is left, and exactly the upper-case
      letters change. */
  function Lower(s: string): (r: string)
    ensures |r| == |s|
    ensures forall i :: 0 <= i < |r| ==> !IsUpper(r[i])
    ensures forall i :: 0 <= i < |s| ==> (r[i] == s[i] <==> !IsUpper(s[i]))
  {
    seq(|s|, i requires 0 <= i < |s| => LowerChar(s[i]))
  }

  /** Lower-casing a lower-cased string changes nothing. */
  lemma LowerIdempotent(s: string)
    ensures Lower(Lower(s)) == Lower(s)
  {
    var l := Lower(s);
    forall i | 0 <= i < |l| ensures Lower(l)[i] == l[i] {
      assert !IsUpper(l[i]);
    }
  }

  /** Lower-casing works character by character, so it distributes over concatenation. */
  lemma LowerAppend(x: string, y: string)
    ensures Lower(x + y) == Lower(x) + Lower(y)
  {
    var l := Lower(x + y);
    var r := Lower(x) + Lower(y);
    assert |l| == |r|;
    forall i | 0 <= i < |l| ensures l[i] == r[i] {
      if i < |x| {
        assert (x + y)[i] == x[i];
      } else {
        assert (x + y)[i] == y[i - |x|];
      }
    }
  }

  /** The canonical decomposition of a lower-case Latin-1 letter: its base letter
      and the combining mark it carries. */
  function Accent(c: char): Option<(char, char)> {
    match c
    case '\U{E0}' => Some(('a', '\U{300}'))
    case '\U{E1}' => Some(('a', '\U{301}'))
    case '\U{E2}' => Some(('a', '\U{302}'))
    case '\U{E3}' => Some(('a', '\U{303}'))
    case '\U{E4}' => Some(('a', '\U{308}'))
    case '\U{E5}' => Some(('a', '\U{30A}'))
    case '\U{E7}' => Some(('c', '\U{327}'))
    case '\U{E8}' => Some(('e', '\U{300}'))
    case '\U{E9}' => Some(('e', '\U{301}'))
    case '\U{EA}' => Some(('e', '\U{302}'))
    case '\U{EB}' => Some(('e', '\U{308}'))
    case '\U{EC}' => Some(('i', '\U{300}'))
    case '\U{ED}' => Some(('i', '\U{301}'))
    case '\U{EE}' => Some(('i', '\U{302}'))
    case '\U{EF}' => Some(('i', '\U{308}'))
    case '\U{F1}' => Some(('n', '\U{303}'))
    case '\U{F2}' => Some(('o', '\U{300}'))
    case '\U{F3}' => Some(('o', '\U{301}'))
    case '\U{F4}' => Some(('o', '\U{302}'))
    case '\U{F5}' => Some(('o', '\U{303}'))
    case '\U{F6}' => Some(('o', '\U{308}'))
    case '\U{F9}' => Some(('u', '\U{300}'))
    case '\U{FA}' => Some(('u', '\U{301}'))
    case '\U{FB}' => Some(('u', '\U{302}'))
    case '\U{FC}' => Some(('u', '\U{308}'))
    case '\U{FD}' => Some(('y', '\U{301}'))
    case '\U{FF}' => Some(('y', '\U{308}'))
    case _ => None
  }

  /** Every entry of the table is an ASCII lower-case base letter followed by a mark. */
  lemma AccentShape(c: char)
    ensures Accent(c).Some? ==> 'a' <= Accent(c).value.0 <= 'z' && IsMark(Accent(c).value.1)
  {
  }

  /** NFD of one character: accented Latin-1 letters, of either case, split into
      base letter and mark; every other character is its own decomposition. */
  function Decompose(c: char): seq<char> {
    if IsUpper(c) && c >= '\U{C0}' then
      match Accent(LowerChar(c))
      case Some((base, mark)) => [(base as int - 32) as char, mark]
      case None => [c]
    else
      match Accent(c)
      case Some((base, mark)) => [base, mark]
      case None => [c]
  }

  /** `normalize('NFD')`: each character replaced by its decomposition, so the
      string never shrinks. */
  function DecomposeAll(s: string): (r: string)
    ensures |r| >= |s|
  {
    if s == [] then [] else Decompose(s[0]) + DecomposeAll(s[1..])
  }

  /** A text none of whose characters has a decomposition entry comes back unchanged. */
  lemma {:induction false} DecomposeAllKeepsPlainText(s: string)
    requires forall i :: 0 <= i < |s| ==> Decompose(s[i]) == [s[i]]
    ensures DecomposeAll(s) == s
  {
    if s != [] {
      DecomposeAllKeepsPlainText(s[1..]);
    }
  }

  /** Decomposition works character by character, so it distributes over concatenation. */
  lemma {:induction false} DecomposeAllAppend(a: string, b: string)
    ensures DecomposeAll(a + b) == DecomposeAll(a) + DecomposeAll(b)
  {
    if a == [] {
      assert a + b == b;
    } else {
      assert (a + b)[0] == a[0];
      assert (a + b)[1..] == a[1..] + b;
      DecomposeAllAppend(a[1..], b);
    }
  }

  /** Removal of the combining marks: the characters of `s` that are not marks,
      in their order. */
  function StripMarks(s: string): (r: string)
    ensures |r| <= |s|
    ensures forall i :: 0 <= i < |r| ==> !IsMark(r[i])
    ensures forall c :: c in r ==> c in s
    ensures (forall i :: 0 <= i < |s| ==> !IsMark(s[i])) ==> r == s
  {
    if s == [] then [] else (if IsMark(s[0]) then [] else [s[0]]) + StripMarks(s[1..])
  }

  /** The search key of a text: lower-cased, decomposed, marks removed. No
      character of the key is a mark or an upper-case letter. */
  function Canonicalize(s: string): (r: string)
    ensures forall i :: 0 <= i < |r| ==> !IsMark(r[i]) && !IsUpper(r[i])
  {
    var k := StripMarks(DecomposeAll(Lower(s)));
    KeyIsLowerCase(s, k);
    k
  }

  /** The canonical key never contains a combining mark, whatever the input. */
  lemma CanonicalHasNoMarks(s: string)
    ensures forall i :: 0 <= i < |Canonicalize(s)| ==> !IsMark(Canonicalize(s)[i])
  {
  }

  /** Stripping distributes over concatenation and removes nothing but marks. */
  lemma {:induction false} StripMarksAppend(a: string, b: string)
    ensures StripMarks(a + b) == StripMarks(a) + StripMarks(b)
  {
    if a == [] {
      assert a + b == b;
    } else {
      assert (a + b)[0] == a[0];
      assert (a + b)[1..] == a[1..] + b;
      StripMarksAppend(a[1..], b);
    }
  }

  /** A character that canonicalization leaves alone. */
  predicate Settled(c: char) {
    !IsMark(c) && LowerChar(c) == c && Decompose(c) == [c]
  }

  lemma LowerCharIsLower(c: char)
    ensures !IsUpper(LowerChar(c))
    ensures LowerChar(LowerChar(c)) == LowerChar(c)
  {
  }

  /** The marks aside, decomposing an already lower-case character yields settled characters. */
  lemma DecomposeLowerSettles(x: char)
    requires LowerChar(x) == x
    ensures forall d :: d in Decompose(x) && !IsMark(d) ==> Settled(d)
  {
    AccentShape(x);
    match Accent(x)
    case Some((base, mark)) =>
      assert Decompose(x) == [base, mark];
      assert Accent(base).None?;
    case None =>
      assert Decompose(x) == [x];
  }

  lemma {:induction false} DecomposeAllSettles(u: string)
    requires forall i :: 0 <= i < |u| ==> LowerChar(u[i]) == u[i]
    ensures forall d :: d in DecomposeAll(u) && !IsMark(d) ==> Settled(d)
  {
    if u != [] {
      DecomposeLowerSettles(u[0]);
      DecomposeAllSettles(u[1..]);
    }
  }

  /** Every character of the key, lower-cased, decomposed and stripped, is settled. */
  lemma KeyIsSettled(s: string)
    ensures forall d :: d in StripMarks(DecomposeAll(Lower(s))) ==> Settled(d)
  {
    LowerIsFixed(s);
    DecomposeAllSettles(Lower(s));
  }

  lemma KeyIsLowerCase(s: string, k: string)
    requires k == StripMarks(DecomposeAll(Lower(s)))
    ensures forall i :: 0 <= i < |k| ==> !IsUpper(k[i])
  {
    KeyIsSettled(s);
    forall i | 0 <= i < |k|
      ensures !IsUpper(k[i])
    {
      assert Settled(k[i]);
      LowerCharIsLower(k[i]);
    }
  }

  /** A key holds settled characters only, so computing it again changes nothing. */
  lemma CanonicalIsSettled(s: string)
    ensures forall i :: 0 <= i < |Canonicalize(s)| ==> Settled(Canonicalize(s)[i])
  {
    KeyIsSettled(s);
  }

  /** Every character of a lower-cased text is its own lower-case form. */
  lemma LowerIsFixed(s: string)
    ensures forall i :: 0 <= i < |Lower(s)| ==> LowerChar(Lower(s)[i]) == Lower(s)[i]
  {
    var u := Lower(s);
    forall i | 0 <= i < |u|
      ensures LowerChar(u[i]) == u[i]
    {
      LowerCharIsLower(s[i]);
    }
  }

  /** A text of settled characters passes each stage of the key unchanged. */
  lemma SettledIsFixed(t: string)
    requires forall i :: 0 <= i < |t| ==> Settled(t[i])
    ensures Canonicalize(t) == t
  {
    forall i | 0 <= i < |t|
      ensures !IsUpper(t[i]) && Decompose(t[i]) == [t[i]] && !IsMark(t[i])
    {
      LowerCharIsLower(t[i]);
    }
    assert Lower(t) == t;
    DecomposeAllKeepsPlainText(t);
    CanonicalStages(t);
  }

  /** Canonicalizing a canonical key changes nothing, so stored keys and
      canonicalized queries live in the same space. */
  lemma CanonicalizeIdempotent(s: string)
    ensures Canonicalize(Canonicalize(s)) == Canonicalize(s)
  {
    CanonicalIsSettled(s);
    SettledIsFixed(Canonicalize(s));
  }

  /** A search for "Café" uses the key "cafe", which is the key of the title "cafe";
      the precomposed and the decomposed spelling meet at the same key. */
  lemma AccentedQueryMatchesPlainKey()
    ensures Canonicalize("Caf\U{E9}") == "cafe"
    ensures Canonicalize("cafe\U{301}") == "cafe"
    ensures Canonicalize("cafe") == "cafe"
  {
    KeyOfPrecomposedCafe();
    KeyOfDecomposedCafe();
    KeyOfPlainCafe();
  }

  lemma KeyOfPrecomposedCafe()
    ensures Canonicalize("Caf\U{E9}") == "cafe"
  {
    LowerOfCafe();
    DecomposeOfPrecomposedCafe();
    StripOfCafe();
    CanonicalStages("Caf\U{E9}");
  }

  lemma KeyOfDecomposedCafe()
    ensures Canonicalize("cafe\U{301}") == "cafe"
  {
    LowerOfCafe();
    DecomposeOfDecomposedCafe();
    StripOfCafe();
    CanonicalStages("cafe\U{301}");
  }

  lemma KeyOfPlainCafe()
    ensures Canonicalize("cafe") == "cafe"
  {
    SettledIsFixed("cafe");
  }

  lemma CanonicalStages(s: string)
    ensures Canonicalize(s) == StripMarks(DecomposeAll(Lower(s)))
  {
  }

  lemma LowerOfCafe()
    ensures Lower("Caf\U{E9}") == "caf\U{E9}"
    ensures Lower("cafe\U{301}") == "cafe\U{301}"
  {
  }

  /** Outside Latin-1's letters a character is its own decomposition. */
  lemma DecomposeOutsideLatin1(c: char)
    requires c < '\U{C0}' || '\U{FF}' < c
    ensures Decompose(c) == [c]
  {
  }

  lemma DecomposeOfPrecomposedCafe()
    ensures DecomposeAll("caf\U{E9}") == "cafe\U{301}"
  {
    assert Decompose('\U{E9}') == "e\U{301}";
    assert DecomposeAll("\U{E9}") == "e\U{301}";
    DecomposeOutsideLatin1('f');
    assert DecomposeAll("f\U{E9}") == "fe\U{301}";
    DecomposeOutsideLatin1('a');
    assert DecomposeAll("af\U{E9}") == "afe\U{301}";
    DecomposeOutsideLatin1('c');
  }

  lemma DecomposeOfDecomposedCafe()
    ensures DecomposeAll("cafe\U{301}") == "cafe\U{301}"
  {
    DecomposeOutsideLatin1('\U{301}');
    assert DecomposeAll("\U{301}") == "\U{301}";
    DecomposeOutsideLatin1('e');
    assert DecomposeAll("e\U{301}") == "e\U{301}";
    DecomposeOutsideLatin1('f');
    assert DecomposeAll("fe\U{301}") == "fe\U{301}";
    DecomposeOutsideLatin1('a');
    assert DecomposeAll("afe\U{301}") == "afe\U{301}";
    DecomposeOutsideLatin1('c');
  }

  lemma StripOfCafe()
    ensures StripMarks("cafe\U{301}") == "cafe"
  {
    assert StripMarks("\U{301}") == "";
    assert StripMarks("e\U{301}") == "e";
    assert StripMarks("fe\U{301}") == "fe";
    assert StripMarks("afe\U{301}") == "afe";
  }
}

=== FILE: clock.dfy ===
/** Instants and calendar days. Times are integer milliseconds since the epoch.
    Listing creation truncates to the start of the server's LOCAL day
    (cloud/place.js), the payment webhook to the start of the UTC day
    (controllers/stripe.js). The server's zone is modelled as a fixed offset from
    UTC. */
module Clock {

  const DayMs: int := 86_400_000

  /** Adding n days, in a zone without daylight-saving changes: the
      same time of day, n calendar days later, in UTC and in any fixed-offset zone. */
  function AddDays(t: int, n: int): (r: int)
    ensures StartOfUtcDay(r) == StartOfUtcDay(t) + n * DayMs
    ensures r - StartOfUtcDay(r) == t - StartOfUtcDay(t)
    ensures forall offset: int {:trigger StartOfLocalDay(r, offset)} ::
              StartOfLocalDay(r, offset) == StartOfLocalDay(t, offset) + n * DayMs
  {
    ShiftByDays(t, n);
    forall offset: int ensures StartOfLocalDay(t + n * DayMs, offset) == StartOfLocalDay(t, offset) + n * DayMs {
      ShiftByDays(t + offset, n);
    }
    t + n * DayMs
  }

  /** Moving an instant by whole days moves its UTC day by as many days. */
  lemma ShiftByDays(t: int, n: int)
    ensures StartOfUtcDay(t + n * DayMs) == StartOfUtcDay(t) + n * DayMs
  {
    var d := StartOfUtcDay(t) + n * DayMs;
    assert d % DayMs == 0 by {
      assert StartOfUtcDay(t) == (t / DayMs) * DayMs;
      assert d == (t / DayMs + n) * DayMs;
    }
    StartOfUtcDayIsUnique(t + n * DayMs, d);
  }

  /** `startOf('day')` in UTC: the latest midnight at or before `t`. */
  function StartOfUtcDay(t: int): (d: int)
    ensures d <= t < d + DayMs
    ensures d % DayMs == 0
  {
    t - t % DayMs
  }

  /** `startOf('day')` in a zone `offset` milliseconds ahead of UTC: the latest
      local midnight at or before `t`. */
  function StartOfLocalDay(t: int, offset: int): (d: int)
    ensures d <= t < d + DayMs
    ensures (d + offset) % DayMs == 0
  {
    StartOfUtcDay(t + offset) - offset
  }

  /** The two conditions of `StartOfUtcDay`'s contract single out its result. */
  lemma {:induction false} StartOfUtcDayIsUnique(t: int, d: int)
    requires d % DayMs == 0 && d <= t < d + DayMs
    ensures d == StartOfUtcDay(t)
  {
    var e := StartOfUtcDay(t);
    assert (d - e) % DayMs == 0 by { ModDifference(d, e); }
    assert -DayMs < d - e < DayMs;
    ZeroOnlyMultipleInOpenDay(d - e);
  }

  lemma ModDifference(a: int, b: int)
    requires a % DayMs == 0 && b % DayMs == 0
    ensures (a - b) % DayMs == 0
  {
    assert a == (a / DayMs) * DayMs;
    assert b == (b / DayMs) * DayMs;
    assert a - b == (a / DayMs - b / DayMs) * DayMs;
  }

  lemma ZeroOnlyMultipleInOpenDay(x: int)
    requires x % DayMs == 0 && -DayMs < x < DayMs
    ensures x == 0
  {
    var q := x / DayMs;
    assert x == q * DayMs;
  }

  /** Truncating twice is truncating once. */
  lemma StartOfUtcDayIdempotent(t: int)
    ensures StartOfUtcDay(StartOfUtcDay(t)) == StartOfUtcDay(t)
  {
    var d := StartOfUtcDay(t);
    StartOfUtcDayIsUnique(d, d);
  }

  /** The two truncations are different days: in a zone one hour east of UTC the
      local day containing the epoch starts an hour before the UTC one. */
  lemma LocalAndUtcDaysDiffer()
    ensures StartOfUtcDay(0) == 0
    ensures StartOfLocalDay(0, 3_600_000) == -3_600_000
  {
  }
}

=== FILE: common.dfy ===
/** Vocabulary shared by every part of the model: identifiers, optional values, the
    failures cloud functions throw, the caller of a request, and the bits of
    JavaScript number semantics the rules depend on. */
module Common {

  /** Object ids of the Parse store. */
  type Id = string

  datatype Option<+T> = None | Some(value: T) {
    function GetOr(default: T): T {
      if Some? then value else default
    }
  }

  /** What a cloud function throws: a bare string, a `Parse.Error` carrying a numeric
      code, or a JavaScript runtime error such as reading a field of `undefined`. */
  datatype Failure =
    | Thrown(message: string)
    | Coded(code: int, message: string)
    | Crash

  datatype Result<+T> = Ok(value: T) | Err(failure: Failure) {
    predicate IsFailure() { Err? }
    function PropagateFailure<U>(): Result<U>
      requires Err?
    {
      Err(failure)
    }
    function Extract(): T
      requires Ok?
    {
      value
    }
  }

  const NotAuthorized: Failure := Thrown("Not Authorized")

  /** `Parse.Query.get` and `Parse.Object.fetch` on a missing id reject with code 101. */
  const ObjectNotFound: Failure := Coded(101, "Object not found")

  /** The `type` field of a user. */
  datatype UserType = Customer | Admin | SuperAdmin

  /** A logged-in user as cloud code sees it: id, `type`, and membership of the
      Admin role (role membership is stored apart from `type`). */
  datatype Account = Account(id: Id, kind: Option<UserType>, isAdmin: bool)

  /** The caller of a cloud function or trigger: the session user, if any, and
      whether the request carries the master key. */
  datatype Caller = Caller(user: Option<Account>, master: bool) {

    /** Neither a session nor the master key. */
    predicate Anonymous() {
      user.None? && !master
    }

    /** The readers whose queries the `beforeFind` triggers narrow: anonymous
        requests and customers. */
    predicate Restricted() {
      Anonymous() || (user.Some? && user.value.kind == Some(Customer))
    }

    /** The Admin-role lookup `Utils.isAdmin(user)` succeeds. */
    predicate IsAdmin() {
      user.Some? && user.value.isAdmin
    }
  }

  /** JavaScript truthiness of optional numbers and strings: absent, 0 and "" are false. */
  predicate TruthyInt(o: Option<int>) {
    o.Some? && o.value != 0
  }

  predicate TruthyReal(o: Option<real>) {
    o.Some? && o.value != 0.0
  }

  predicate TruthyString(o: Option<string>) {
    o.Some? && o.value != ""
  }

  /** `Math.round`: the nearest integer, halves rounded up. */
  function JsRound(x: real): (n: int)
    ensures n as real - 0.5 <= x < n as real + 0.5
  {
    (x + 0.5).Floor
  }

  /** A JavaScript number as far as the rating average needs it: `Math.round(a / b)`
      of integers is an integer, `NaN` for 0/0, or an infinity. */
  datatype Num = Finite(n: int) | NaN | Infinite(positive: bool)

  /** `Math.round(total / count)` with JavaScript division. */
  function RoundDiv(total: int, count: int): (r: Num)
    ensures count != 0 <==> r.Finite?
    ensures r == NaN <==> count == 0 && total == 0
  {
    if count != 0 then Finite(JsRound(total as real / count as real))
    else if total == 0 then NaN
    else Infinite(total > 0)
  }

  /** The nearest integer of `total / count` for a positive count, with integer
      arithmetic only: it is the independent reference for `RoundDiv`. */
  lemma RoundDivMatchesIntegerRounding(total: int, count: int)
    requires count > 0
    ensures RoundDiv(total, count) == Finite((2 * total + count) / (2 * count))
  {
    var q := (2 * total + count) / (2 * count);
    var y := total as real / count as real + 0.5;
    // q is the unique integer with q <= y < q + 1, which is what JsRound returns.
    DivisionBounds(2 * total + count, 2 * count);
    assert 2 * count * q <= 2 * total + count < 2 * count * (q + 1);
    BoundsCarryOver(total, count, q);
    assert y.Floor == q;
  }

  /** Euclidean division brackets the dividend between two multiples of the divisor. */
  lemma DivisionBounds(a: int, d: int)
    requires d > 0
    ensures d * (a / d) <= a < d * (a / d + 1)
  {
    var q := a / d;
    var r := a % d;
    assert a == d * q + r && 0 <= r < d;
    assert d * (q + 1) == d * q + d;
  }

  /** The integer bracket of 2t + c between multiples of 2c is a bracket of t / c + 1/2. */
  lemma BoundsCarryOver(total: int, count: int, q: int)
    requires count > 0
    requires 2 * count * q <= 2 * total + count < 2 * count * (q + 1)
    ensures q as real <= total as real / count as real + 0.5 < q as real + 1.0
  {
    var k := (2 * count) as real;
    var y := total as real / count as real + 0.5;
    ScaledQuotient(total, count);
    CastProduct(2 * count, q);
    CastProduct(2 * count, q + 1);
    var lo := (q as real) * k;
    var hi := (q as real + 1.0) * k;
    assert lo == (2 * count * q) as real;
    assert hi == (2 * count * (q + 1)) as real;
    assert lo <= y * k;
    assert y * k < hi;
    CancelPositiveFactor(q as real, y, k);
    CancelPositiveFactorStrict(y, q as real + 1.0, k);
  }

  /** Converting a product to a real is the product of the conversions. */
  lemma CastProduct(a: int, b: int)
    ensures (a * b) as real == (b as real) * (a as real)
  {
  }

  lemma ScaledQuotient(total: int, count: int)
    requires count > 0
    ensures (total as real / count as real + 0.5) * (2 * count) as real == (2 * total + count) as real
  {
    var c := count as real;
    var x := total as real / c;
    assert x * c == total as real;
    calc {
      (x + 0.5) * (2 * count) as real;
      (x + 0.5) * (2.0 * c);
      2.0 * (x * c) + c;
    }
  }

  /** A positive factor on both sides of `<=` can be cancelled. */
  lemma CancelPositiveFactor(a: real, b: real, k: real)
    requires k > 0.0 && a * k <= b * k
    ensures a <= b
  {
  }

  /** A positive factor on both sides of `<` can be cancelled. */
  lemma CancelPositiveFactorStrict(a: real, b: real, k: real)
    requires k > 0.0 && a * k < b * k
    ensures a < b
  {
  }

  /** The elements of `s` that `keep` accepts, in their order: what a store query
      with an equality filter returns. */
  function Filter<T(!new)>(s: seq<T>, keep: T -> bool): (r: seq<T>)
    ensures |r| <= |s|
    ensures forall x :: x in r <==> x in s && keep(x)
  {
    if s == [] then []
    else (if keep(s[0]) then [s[0]] else []) + Filter(s[1..], keep)
  }

  /** A filter that rejects nothing returns its input. */
  lemma {:induction false} FilterKeepingAll<T(!new)>(s: seq<T>, keep: T -> bool)
    requires forall i :: 0 <= i < |s| ==> keep(s[i])
    ensures Filter(s, keep) == s
  {
    if s != [] {
      FilterKeepingAll(s[1..], keep);
    }
  }

  /** A filter that accepts nothing returns nothing. */
  lemma {:induction false} FilterKeepingNone<T(!new)>(s: seq<T>, keep: T -> bool)
    requires forall i :: 0 <= i < |s| ==> !keep(s[i])
    ensures Filter(s, keep) == []
  {
    if s != [] {
      FilterKeepingNone(s[1..], keep);
    }
  }

  /** Filters that agree on every element give the same rows. */
  lemma {:induction false} FilterAgrees<T(!new)>(s: seq<T>, keep: T -> bool, other: T -> bool)
    requires forall i :: 0 <= i < |s| ==> keep(s[i]) == other(s[i])
    ensures Filter(s, keep) == Filter(s, other)
  {
    if s != [] {
      FilterAgrees(s[1..], keep, other);
    }
  }
}

=== FILE: currency.dfy ===
/** The currencies whose Stripe amounts are given in whole units rather than in
    hundredths (utils/index.js). */
module Currency {

  const ZeroDecimalCurrencies: seq<string> := [
    "BIF", "DJF", "JPY", "KRW", "PYG", "VND", "XAF",
    "XPF", "CLP", "GNF", "KMF", "MGA", "RWF", "VUV", "XOF"
  ]

  /** `Utils.isZeroDecimalCurrency`: exact, case-sensitive membership of the list. */
  function IsZeroDecimalCurrency(code: string): (b: bool)
    ensures b ==> |code| == 3 && forall i :: 0 <= i < 3 ==> IsUpperAscii(code[i])
    ensures code == "JPY" || code == "KRW" || code == "VND" ==> b
  {
    code in ZeroDecimalCurrencies
  }

  predicate IsUpperAscii(c: char) {
    'A' <= c <= 'Z'
  }

  /** Every zero-decimal code is three upper-case ASCII letters. */
  lemma ZeroDecimalCodesAreUpperCase(code: string)
    ensures IsZeroDecimalCurrency(code) ==> |code| == 3 && forall i :: 0 <= i < 3 ==> IsUpperAscii(code[i])
  {
  }

  /** So a code written with any lower-case letter is never zero-decimal: the
      match is case-sensitive. */
  lemma LowerCaseCodeIsNotZeroDecimal(code: string, i: int)
    requires 0 <= i < |code| && 'a' <= code[i] <= 'z'
    ensures !IsZeroDecimalCurrency(code)
  {
    ZeroDecimalCodesAreUpperCase(code);
  }
}

=== FILE: discovery.dfy ===
/** The listing search (`getPlaces`, cloud/place.js) and the home page
    (`getHomePageData`, cloud/util.js). Both build store queries from request
    parameters and the configured search radius. The model states what query is
    built; the store engine that runs it (geo tests, ordering, the default page
    size) is a parameter, and so is the random draw behind the shuffles. */
module Discovery {
  import opened Common
  import opened Records
  import Canonical
  import Shuffle

  // ----- The query a request builds -----

  /** The location constraint: a box, a radius in kilometres or miles (optionally
      sorted by distance), nearest first, or none. */
  datatype Geo =
    | Anywhere
    | InBox(southwest: Point, northeast: Point)
    | WithinKm(center: Point, km: real, sorted: bool)
    | WithinMi(center: Point, miles: real, sorted: bool)
    | Near(center: Point)

  /** An explicit sort; `NoSort` leaves the order to the engine (distance for a
      sorted geo constraint). */
  datatype Order = NoSort | Ascending(field: string) | Descending(field: string)

  datatype CategoryFilter = AnyCategory | InCategories(ids: seq<Id>) | InCategory(id: Id)

  /** A listing query. Every query also excludes deleted listings. */
  datatype PlaceQuery = PlaceQuery(
    tagKey: Option<string>,
    statuses: seq<PlaceStatus>,
    ratingMin: Option<real>,
    ratingMax: Option<real>,
    categories: CategoryFilter,
    geo: Geo,
    order: Order,
    featured: Option<bool>,
    owner: Option<Id>,
    category: Option<Id>,
    skip: nat,
    limit: Option<int>)

  /** The attribute filters of a query, as the engine applies them to one listing. */
  predicate AttributesMatch(q: PlaceQuery, p: Place) {
    && !p.deleted
    && p.status in q.statuses
    && (q.featured.None? || p.isFeatured == q.featured.value)
    && (q.owner.None? || p.owner == q.owner.value)
  }

  /** An engine that honours the attribute filters. */
  ghost predicate HonoursFilters(run: PlaceQuery -> seq<Place>) {
    forall q, p :: p in run(q) ==> AttributesMatch(q, p)
  }

  // ----- getPlaces -----

  /** The `cat` parameter: a list of category ids, a single id, or absent. */
  datatype CatParam = NoCat | CatList(ids: seq<Id>) | CatText(id: string)

  /** The request parameters `getPlaces` reads; absent ones are `None`. The page
      and the page size are any integers the request sends. */
  datatype SearchParams = SearchParams(
    page: Option<int>,
    limit: Option<int>,
    status: Option<seq<PlaceStatus>>,
    maxDistance: Option<real>,
    tag: Option<string>,
    ratingMin: Option<real>,
    ratingMax: Option<real>,
    cat: CatParam,
    bounds: seq<Point>,
    latitude: Option<real>,
    longitude: Option<real>,
    unit: Option<string>,
    nearby: Option<string>,
    sortBy: Option<string>,
    sortByField: Option<string>,
    count: bool,
    featured: Option<string>,
    user: Option<Id>,
    category: Option<Id>)

  /** The configured search radius in metres, or 0 without places settings. */
  function ConfiguredRadius(config: Option<AppConfig>): real {
    if PlacesSettings(config).Some? then PlacesSettings(config).value.searchRadius else 0.0
  }

  /** The radius of a search: the configured one, replaced by a non-zero
      `maxDistance` that does not exceed it. The replacement only happens when a
      configuration row exists. */
  function SearchRadius(config: Option<AppConfig>, maxDistance: Option<real>): (r: real)
    ensures config.Some? && TruthyReal(maxDistance) ==>
              r == if maxDistance.value <= ConfiguredRadius(config) then maxDistance.value else ConfiguredRadius(config)
    ensures config.None? || !TruthyReal(maxDistance) ==> r == ConfiguredRadius(config)
  {
    var configured := ConfiguredRadius(config);
    if config.Some? && TruthyReal(maxDistance) && maxDistance.value <= configured then maxDistance.value else configured
  }

  /** A requested distance never widens the search. */
  lemma RadiusIsCapped(config: Option<AppConfig>, maxDistance: Option<real>)
    ensures SearchRadius(config, maxDistance) <= ConfiguredRadius(config)
    ensures config.Some? && TruthyReal(maxDistance) ==>
              SearchRadius(config, maxDistance) == Min(ConfiguredRadius(config), maxDistance.value)
  {
  }

  function Min(a: real, b: real): real {
    if a <= b then a else b
  }

  /** The location parameters the query builder throws on: a single corner (the
      second is missing), a corner off the globe, or, without bounds, a truthy
      centre off the globe. Each becomes a `Parse.GeoPoint` first. */
  predicate GeoThrows(p: SearchParams) {
    || |p.bounds| == 1
    || (|p.bounds| >= 2 && !(OnGlobe(p.bounds[0]) && OnGlobe(p.bounds[1])))
    || (|p.bounds| == 0 && TruthyReal(p.latitude) && TruthyReal(p.longitude)
        && !OnGlobe(Point(p.latitude.value, p.longitude.value)))
  }

  /** The location constraint: non-empty bounds win (a single corner fails on the
      missing second one); else a truthy latitude and longitude give a radius
      search in the requested unit, or a nearest-first search when there is no
      radius or no known unit; else none. A point off the globe throws. */
  function GeoFor(p: SearchParams, radius: real): (r: Result<Geo>)
    ensures |p.bounds| == 1 ==> r == Err(Crash)
    ensures |p.bounds| >= 2 ==>
              r == if OnGlobe(p.bounds[0]) && OnGlobe(p.bounds[1]) then Ok(InBox(p.bounds[0], p.bounds[1])) else Err(Crash)
    ensures r.Err? <==> GeoThrows(p)
    ensures r.Err? ==> r == Err(Crash)
    ensures |p.bounds| == 0 && !(TruthyReal(p.latitude) && TruthyReal(p.longitude)) ==> r == Ok(Anywhere)
    ensures |p.bounds| == 0 && TruthyReal(p.latitude) && TruthyReal(p.longitude) ==>
              var center := Point(p.latitude.value, p.longitude.value);
              var sorted := p.nearby == Some("1") || p.sortByField == Some("location");
              r == if !OnGlobe(center) then Err(Crash)
                   else Ok(if p.unit == Some("km") && radius != 0.0 then WithinKm(center, radius / 1000.0, sorted)
                           else if p.unit == Some("mi") && radius != 0.0 then WithinMi(center, radius / 1609.0, sorted)
                           else Near(center))
  {
    if |p.bounds| == 1 then Err(Crash)
    else if |p.bounds| >= 2 then
      if OnGlobe(p.bounds[0]) && OnGlobe(p.bounds[1]) then Ok(InBox(p.bounds[0], p.bounds[1])) else Err(Crash)
    else if TruthyReal(p.latitude) && TruthyReal(p.longitude) then
      var center := Point(p.latitude.value, p.longitude.value);
      var sorted := p.nearby == Some("1") || p.sortByField == Some("location");
      if !OnGlobe(center) then Err(Crash)
      else if p.unit == Some("km") && radius != 0.0 then Ok(WithinKm(center, radius / 1000.0, sorted))
      else if p.unit == Some("mi") && radius != 0.0 then Ok(WithinMi(center, radius / 1609.0, sorted))
      else Ok(Near(center))
    else Ok(Anywhere)
  }

  /** A direction without a field: the query builder strips the spaces of the
      missing field name and throws. */
  predicate SortWithoutField(p: SearchParams) {
    (p.sortBy == Some("asc") || p.sortBy == Some("desc")) && p.sortByField.None?
  }

  /** The sort: the requested direction on the requested field unless that field is
      the location; otherwise newest first, unless the search is by proximity. */
  function OrderFor(p: SearchParams): (o: Result<Order>)
    ensures o == Err(Crash) <==> SortWithoutField(p)
    ensures o.Err? ==> o == Err(Crash)
    ensures p.sortByField == Some("location") ==> o == Ok(NoSort)
    ensures p.nearby == Some("1") && !TruthyString(p.sortBy) ==> o == Ok(NoSort)
    ensures !TruthyString(p.sortBy) && p.nearby != Some("1") && p.sortByField != Some("location") ==>
              o == Ok(Descending("createdAt"))
    ensures TruthyString(p.sortBy) && p.sortByField.Some? && p.sortByField != Some("location") ==>
              o == Ok(if p.sortBy == Some("asc") then Ascending(p.sortByField.value)
                      else if p.sortBy == Some("desc") then Descending(p.sortByField.value)
                      else NoSort)
    ensures TruthyString(p.sortBy) && p.sortByField.None? && !SortWithoutField(p) ==> o == Ok(NoSort)
  {
    if TruthyString(p.sortBy) && p.sortByField != Some("location") then
      if p.sortBy == Some("asc") || p.sortBy == Some("desc") then
        if p.sortByField.None? then Err(Crash)
        else if p.sortBy == Some("asc") then Ok(Ascending(p.sortByField.value))
        else Ok(Descending(p.sortByField.value))
      else Ok(NoSort)
    else if p.nearby != Some("1") && p.sortByField != Some("location") then Ok(Descending("createdAt"))
    else Ok(NoSort)
  }

  function CategoriesFor(cat: CatParam): CategoryFilter {
    match cat
    case NoCat => AnyCategory
    case CatList(ids) => if |ids| > 0 then InCategories(ids) else AnyCategory
    case CatText(id) => if id != "" then InCategory(id) else AnyCategory
  }

  /** The query shared by the count, the featured rows and the page. */
  function BaseQuery(p: SearchParams, config: Option<AppConfig>): (r: Result<PlaceQuery>)
    ensures r.Err? <==> GeoThrows(p) || SortWithoutField(p)
    ensures r.Err? ==> r == Err(Crash)
    ensures r.Ok? ==> Ok(r.value.geo) == GeoFor(p, SearchRadius(config, p.maxDistance))
    ensures r.Ok? ==> r.value.statuses == p.status.GetOr([Approved])
    ensures r.Ok? ==> r.value.tagKey == if TruthyString(p.tag) then Some(Canonical.Canonicalize(p.tag.value)) else None
    ensures r.Ok? ==> Ok(r.value.order) == OrderFor(p)
    ensures r.Ok? ==> r.value.featured.None? && r.value.owner.None? && r.value.category.None?
                      && r.value.skip == 0 && r.value.limit.None?
  {
    var geo :- GeoFor(p, SearchRadius(config, p.maxDistance));
    var order :- OrderFor(p);
    Ok(PlaceQuery(
      if TruthyString(p.tag) then Some(Canonical.Canonicalize(p.tag.value)) else None,
      p.status.GetOr([Approved]),
      if TruthyReal(p.ratingMin) then p.ratingMin else None,
      if TruthyReal(p.ratingMax) then p.ratingMax else None,
      CategoriesFor(p.cat), geo, order, None, None, None, 0, None))
  }

  /** The page size: `limit`, or 100 when absent or 0. The query builder passes a
      negative size on unchecked. */
  function PageSize(p: SearchParams): int {
    if p.limit.Some? && p.limit.value != 0 then p.limit.value else 100
  }

  /** The number of rows the page skips: the 0-based page times the page size. */
  function PageSkip(p: SearchParams): int {
    p.page.GetOr(0) * PageSize(p)
  }

  /** A row request whose skip is negative, which the query builder refuses: a
      negative page, or a negative page size on a positive page. */
  predicate SkipThrows(p: SearchParams) {
    !p.count && PageSkip(p) < 0
  }

  /** The query of the page: featured or non-featured listings only, the owner and
      category filters, and the 0-based page window, whose skip cannot be negative. */
  function PageQuery(p: SearchParams, base: PlaceQuery): (q: PlaceQuery)
    requires PageSkip(p) >= 0
    ensures q.skip == PageSkip(p) && q.limit == Some(PageSize(p))
    ensures q.featured == Some(p.featured == Some("1"))
  {
    base.(featured := Some(p.featured == Some("1")),
          owner := if TruthyString(p.user) then p.user else None,
          category := if TruthyString(p.category) then p.category else None,
          skip := PageSkip(p),
          limit := Some(PageSize(p)))
  }

  /** The query of the featured rows: the shared filters plus featured only, with
      neither the owner and category filters nor the page window. */
  function FeaturedQuery(base: PlaceQuery): PlaceQuery {
    base.(featured := Some(true))
  }

  datatype Answer = Counted(n: nat) | Rows(rows: seq<Place>)

  /** Whether the featured rows are put in front: only for a request that passes
      `page` as the number 0 and does not ask for featured listings only. */
  predicate PrependsFeatured(p: SearchParams) {
    p.page == Some(0) && p.featured != Some("1")
  }

  /** `getPlaces`. `run` and `count` are the store engine; `draw` the random keys of
      the shuffle. A count request returns the number of matches of the shared
      query. Otherwise the answer is the featured rows, shuffled unless `nearby` is
      truthy, followed by the page; a negative skip throws when the page is asked for. */
  function GetPlaces(p: SearchParams, config: Option<AppConfig>, run: PlaceQuery -> seq<Place>,
                     count: PlaceQuery -> nat, draw: nat -> real): (r: Result<Answer>)
    ensures r.Err? <==> GeoThrows(p) || SortWithoutField(p) || SkipThrows(p)
    ensures r.Err? ==> r == Err(Crash)
    ensures r.Ok? && p.count ==> r.value == Counted(count(BaseQuery(p, config).value))
    ensures r.Ok? && !p.count ==> r.value.Rows?
    ensures r.Ok? && !p.count ==>
              var base := BaseQuery(p, config).value;
              var page := run(PageQuery(p, base));
              var rows := r.value.rows;
              && |rows| >= |page| && rows[|rows| - |page|..] == page
              && (!PrependsFeatured(p) ==> rows == page)
              && (PrependsFeatured(p) ==>
                    multiset(rows[..|rows| - |page|]) == multiset(run(FeaturedQuery(base))))
              && (PrependsFeatured(p) && TruthyString(p.nearby) ==> rows == run(FeaturedQuery(base)) + page)
  {
    var base :- BaseQuery(p, config);
    if p.count then Ok(Counted(count(base)))
    else if PageSkip(p) < 0 then Err(Crash)
    else
      var featuredRows :=
        if PrependsFeatured(p) then
          var found := run(FeaturedQuery(base));
          if TruthyString(p.nearby) then found else Shuffle.Shuffle(found, draw)
        else [];
      var page := run(PageQuery(p, base));
      assert (featuredRows + page)[..|featuredRows|] == featuredRows;
      Ok(Rows(featuredRows + page))
  }

  /** With an engine that honours the filters, the featured rows in front are all
      featured, the page rows after them all unfeatured (unless featured listings
      only were asked for), and every row is undeleted with a requested status. */
  lemma FeaturedRowsComeFirst(p: SearchParams, config: Option<AppConfig>, run: PlaceQuery -> seq<Place>,
                              count: PlaceQuery -> nat, draw: nat -> real)
    requires HonoursFilters(run)
    requires GetPlaces(p, config, run, count, draw).Ok? && !p.count
    ensures var rows := GetPlaces(p, config, run, count, draw).value.rows;
            var page := run(PageQuery(p, BaseQuery(p, config).value));
            && (forall i :: 0 <= i < |rows| ==> !rows[i].deleted && rows[i].status in p.status.GetOr([Approved]))
            && (forall i :: 0 <= i < |rows| - |page| ==> rows[i].isFeatured)
            && (forall i :: |rows| - |page| <= i < |rows| ==> rows[i].isFeatured == (p.featured == Some("1")))
  {
    assert !SkipThrows(p);
    var base := BaseQuery(p, config).value;
    var rows := GetPlaces(p, config, run, count, draw).value.rows;
    var page := run(PageQuery(p, base));
    RowsAreFeaturedThenPage(p, config, run, count, draw);
    SearchRowsMatch(p, base, run, rows, page);
    assert base.statuses == p.status.GetOr([Approved]);
  }

  /** A negative page, or a negative page size on a positive page, makes the row
      request skip a negative number of rows, and the request throws. */
  lemma NegativeSkipThrows(p: SearchParams, config: Option<AppConfig>, run: PlaceQuery -> seq<Place>,
                           count: PlaceQuery -> nat, draw: nat -> real)
    requires !p.count && p.page.Some?
    requires (p.page.value < 0 && (p.limit.None? || p.limit.value >= 0))
             || (p.page.value > 0 && p.limit.Some? && p.limit.value < 0)
    ensures GetPlaces(p, config, run, count, draw) == Err(Crash)
  {
    assert PageSkip(p) < 0;
  }

  /** Featured rows in front of a page pass the search's filters, the front ones
      are featured, and the page ones are featured exactly in a featured search. */
  lemma SearchRowsMatch(p: SearchParams, base: PlaceQuery, run: PlaceQuery -> seq<Place>, rows: seq<Place>, page: seq<Place>)
    requires HonoursFilters(run) && PageSkip(p) >= 0 && page == run(PageQuery(p, base))
    requires |rows| >= |page| && rows[|rows| - |page|..] == page
    requires |rows| == |page| || multiset(rows[..|rows| - |page|]) == multiset(run(FeaturedQuery(base)))
    ensures forall i :: 0 <= i < |rows| ==> !rows[i].deleted && rows[i].status in base.statuses
    ensures forall i :: 0 <= i < |rows| - |page| ==> rows[i].isFeatured
    ensures forall i :: |rows| - |page| <= i < |rows| ==> rows[i].isFeatured == (p.featured == Some("1"))
  {
    SplitRowsMatch(run, FeaturedQuery(base), PageQuery(p, base), rows, page);
  }

  /** The rows of a search are some answer to the featured query, possibly none,
      followed by the page. */
  lemma RowsAreFeaturedThenPage(p: SearchParams, config: Option<AppConfig>, run: PlaceQuery -> seq<Place>,
                                count: PlaceQuery -> nat, draw: nat -> real)
    requires GetPlaces(p, config, run, count, draw).Ok? && !p.count
    ensures var base := BaseQuery(p, config).value;
            var rows := GetPlaces(p, config, run, count, draw).value.rows;
            var page := run(PageQuery(p, base));
            && |rows| >= |page| && rows[|rows| - |page|..] == page
            && (|rows| == |page| || multiset(rows[..|rows| - |page|]) == multiset(run(FeaturedQuery(base))))
  {
  }

  /** Rows made of some answer to `fq` in any order followed by the answer to `pq`
      pass `fq`'s filters in front and `pq`'s after. */
  lemma SplitRowsMatch(run: PlaceQuery -> seq<Place>, fq: PlaceQuery, pq: PlaceQuery, rows: seq<Place>, page: seq<Place>)
    requires HonoursFilters(run) && page == run(pq)
    requires |rows| >= |page| && rows[|rows| - |page|..] == page
    requires |rows| == |page| || multiset(rows[..|rows| - |page|]) == multiset(run(fq))
    ensures forall i :: 0 <= i < |rows| - |page| ==> AttributesMatch(fq, rows[i])
    ensures forall i :: |rows| - |page| <= i < |rows| ==> AttributesMatch(pq, rows[i])
  {
    var front := rows[..|rows| - |page|];
    assert rows == front + page;
    if |front| > 0 {
      RowsMatch(run, fq, front);
    }
    forall i | 0 <= i < |rows|
      ensures i < |front| ==> AttributesMatch(fq, rows[i])
      ensures i >= |front| ==> AttributesMatch(pq, rows[i])
    {
      if i < |front| {
        assert rows[i] == front[i] && front[i] in front;
      } else {
        assert rows[i] == page[i - |front|] && page[i - |front|] in run(pq);
      }
    }
  }

  // ----- Finding: the featured rows test the raw page parameter -----

  /** A first-page request that leaves `page` out is served page 0 but gets no
      featured rows. */
  lemma OmittedPageGetsNoFeaturedRows(p: SearchParams, config: Option<AppConfig>, run: PlaceQuery -> seq<Place>,
                                      count: PlaceQuery -> nat, draw: nat -> real)
    requires p.page.None? && !p.count && !GeoThrows(p) && !SortWithoutField(p) && p.featured != Some("1")
    ensures GetPlaces(p, config, run, count, draw).Ok?
    ensures PageQuery(p, BaseQuery(p, config).value).skip == 0
    ensures GetPlaces(p, config, run, count, draw).value.rows == run(PageQuery(p, BaseQuery(p, config).value))
  {
  }

  /** `getPlaces` with the featured test on the defaulted page. */
  function GetPlacesDefaultedPage(p: SearchParams, config: Option<AppConfig>, run: PlaceQuery -> seq<Place>,
                                  count: PlaceQuery -> nat, draw: nat -> real): (r: Result<Answer>)
    ensures r.Err? <==> GeoThrows(p) || SortWithoutField(p) || SkipThrows(p)
    ensures r.Ok? ==> BaseQuery(p, config).Ok?
    ensures r.Ok? && !p.count ==> r.value.Rows?
    ensures r.Ok? && !p.count && p.page.GetOr(0) == 0 && p.featured != Some("1") ==>
              var base := BaseQuery(p, config).value;
              var page := run(PageQuery(p, base));
              var rows := r.value.rows;
              && |rows| >= |page| && rows[|rows| - |page|..] == page
              && multiset(rows[..|rows| - |page|]) == multiset(run(FeaturedQuery(base)))
    ensures r.Ok? && (p.count || p.page.GetOr(0) != 0 || p.featured == Some("1")) ==>
              r == GetPlaces(p, config, run, count, draw)
  {
    var q := p.(page := Some(p.page.GetOr(0)));
    assert BaseQuery(q, config) == BaseQuery(p, config);
    assert PageSkip(q) == PageSkip(p);
    assert BaseQuery(p, config).Ok? && PageSkip(p) >= 0 ==>
             PageQuery(q, BaseQuery(p, config).value) == PageQuery(p, BaseQuery(p, config).value);
    GetPlaces(q, config, run, count, draw)
  }

  // ----- getHomePageData -----

  datatype HomeParams = HomeParams(latitude: Option<real>, longitude: Option<real>, unit: Option<string>)

  /** The three listing lists of the home page. */
  datatype HomePage = HomePage(featured: seq<Place>, recent: seq<Place>, nearby: seq<Place>)

  /** The radius constraint of the home page lists: a radius search in the requested
      unit when a radius is configured; no constraint for another unit or no radius. */
  function RadiusGeo(center: Point, unit: string, radius: real, sorted: bool): (g: Geo)
    ensures radius == 0.0 || (unit != "km" && unit != "mi") ==> g == Anywhere
    ensures radius != 0.0 && unit == "km" ==> g == WithinKm(center, radius / 1000.0, sorted)
    ensures radius != 0.0 && unit == "mi" ==> g == WithinMi(center, radius / 1609.0, sorted)
  {
    if radius == 0.0 then Anywhere
    else if unit == "km" then WithinKm(center, radius / 1000.0, sorted)
    else if unit == "mi" then WithinMi(center, radius / 1609.0, sorted)
    else Anywhere
  }

  /** Approved listings, at most 12. */
  function HomeQuery(geo: Geo, order: Order, featured: Option<bool>): PlaceQuery {
    PlaceQuery(None, [Approved], None, None, AnyCategory, geo, order, featured, None, None, 0, Some(12))
  }

  /** The three queries: featured listings, the newest listings, and the listings
      nearest first (by radius, or plain proximity without a radius). The radius
      searches of the first two leave `sorted` out, which the query builder takes
      as a distance-sorted search, like the third. */
  function FeaturedHomeQuery(center: Point, unit: string, radius: real): PlaceQuery {
    HomeQuery(RadiusGeo(center, unit, radius, true), NoSort, Some(true))
  }

  function RecentHomeQuery(center: Point, unit: string, radius: real): PlaceQuery {
    HomeQuery(RadiusGeo(center, unit, radius, true), Descending("createdAt"), None)
  }

  function NearbyHomeQuery(center: Point, unit: string, radius: real): PlaceQuery {
    HomeQuery(if radius != 0.0 then RadiusGeo(center, unit, radius, true) else Near(center), NoSort, None)
  }

  /** `getHomePageData`: refused without a truthy latitude, longitude and unit, and
      a centre off the globe throws when it becomes a `Parse.GeoPoint`; the featured
      and newest lists come back shuffled, the nearby list in the engine's order. */
  function GetHomePageData(p: HomeParams, config: Option<AppConfig>, run: PlaceQuery -> seq<Place>,
                           drawFeatured: nat -> real, drawRecent: nat -> real): (r: Result<HomePage>)
    ensures r == Err(Thrown("Missing params")) <==> !(TruthyReal(p.latitude) && TruthyReal(p.longitude) && TruthyString(p.unit))
    ensures r == Err(Crash) <==>
              TruthyReal(p.latitude) && TruthyReal(p.longitude) && TruthyString(p.unit)
              && !OnGlobe(Point(p.latitude.value, p.longitude.value))
    ensures r.Err? ==> r == Err(Thrown("Missing params")) || r == Err(Crash)
    ensures r.Ok? ==>
              var center := Point(p.latitude.value, p.longitude.value);
              var radius := ConfiguredRadius(config);
              && multiset(r.value.featured) == multiset(run(FeaturedHomeQuery(center, p.unit.value, radius)))
              && multiset(r.value.recent) == multiset(run(RecentHomeQuery(center, p.unit.value, radius)))
              && r.value.nearby == run(NearbyHomeQuery(center, p.unit.value, radius))
  {
    if !(TruthyReal(p.latitude) && TruthyReal(p.longitude) && TruthyString(p.unit)) then Err(Thrown("Missing params"))
    else if !OnGlobe(Point(p.latitude.value, p.longitude.value)) then Err(Crash)
    else
      var center := Point(p.latitude.value, p.longitude.value);
      var radius := ConfiguredRadius(config);
      Ok(HomePage(
        Shuffle.Shuffle(run(FeaturedHomeQuery(center, p.unit.value, radius)), drawFeatured),
        Shuffle.Shuffle(run(RecentHomeQuery(center, p.unit.value, radius)), drawRecent),
        run(NearbyHomeQuery(center, p.unit.value, radius))))
  }

  /** With an engine that honours the filters, the featured list holds approved,
      featured, undeleted listings and the other two approved, undeleted ones. */
  lemma HomeListsHoldApprovedListings(p: HomeParams, config: Option<AppConfig>, run: PlaceQuery -> seq<Place>,
                                      drawFeatured: nat -> real, drawRecent: nat -> real)
    requires HonoursFilters(run)
    requires GetHomePageData(p, config, run, drawFeatured, drawRecent).Ok?
    ensures var h := GetHomePageData(p, config, run, drawFeatured, drawRecent).value;
            && (forall x :: x in h.featured ==> x.status == Approved && x.isFeatured && !x.deleted)
            && (forall x :: x in h.recent ==> x.status == Approved && !x.deleted)
            && (forall x :: x in h.nearby ==> x.status == Approved && !x.deleted)
  {
    var h := GetHomePageData(p, config, run, drawFeatured, drawRecent).value;
    var center := Point(p.latitude.value, p.longitude.value);
    var radius := ConfiguredRadius(config);
    var unit := p.unit.value;
    var g := RadiusGeo(center, unit, radius, true);
    assert multiset(h.featured) == multiset(run(HomeQuery(g, NoSort, Some(true))));
    HomeRowsApproved(run, g, NoSort, Some(true), h.featured);
    assert multiset(h.recent) == multiset(run(HomeQuery(g, Descending("createdAt"), None)));
    HomeRowsApproved(run, g, Descending("createdAt"), None, h.recent);
    var near := if radius != 0.0 then RadiusGeo(center, unit, radius, true) else Near(center);
    assert h.nearby == run(HomeQuery(near, NoSort, None));
    HomeRowsApproved(run, near, NoSort, None, h.nearby);
  }

  /** The engine's answer to a home page query holds approved, undeleted listings,
      featured ones when the query asks for them. */
  lemma HomeRowsApproved(run: PlaceQuery -> seq<Place>, geo: Geo, order: Order, featured: Option<bool>, rows: seq<Place>)
    requires HonoursFilters(run) && multiset(rows) == multiset(run(HomeQuery(geo, order, featured)))
    ensures forall x :: x in rows ==> x.status == Approved && !x.deleted && (featured == Some(true) ==> x.isFeatured)
  {
    RowsMatch(run, HomeQuery(geo, order, featured), rows);
  }

  /** Rows that are the engine's answer to `q`, in any order, pass `q`'s filters. */
  lemma RowsMatch(run: PlaceQuery -> seq<Place>, q: PlaceQuery, rows: seq<Place>)
    requires HonoursFilters(run) && multiset(rows) == multiset(run(q))
    ensures forall x :: x in rows ==> AttributesMatch(q, x)
  {
    forall x | x in rows
      ensures AttributesMatch(q, x)
    {
      assert x in multiset(run(q));
    }
  }
}

=== FILE: entitlements.dfy ===
/** The entitlement ledger (cloud/user-package.js): the defaults of a new purchase,
    the derived `isLimitReached` flag, consumption of an entitlement by a new
    listing, the amount charged through the payment gateway, and the admin listing. */
module Entitlements {
  import opened Common
  import opened Records
  import Currency
  import Canonical
  import Paging

  /** `isLimitReached` as written: the package has a (truthy) listing limit and the
      usage equals it exactly. */
  predicate LimitReached(limit: Option<int>, usage: int) {
    TruthyInt(limit) && limit.value - usage == 0
  }

  /** The flag says what the usage and the snapshot's limit say. */
  predicate FlagConsistent(up: UserPackage) {
    up.isLimitReached == LimitReached(up.pkg.listingLimit, up.usage)
  }

  /** `beforeSave('UserPackage')`. A new entitlement may only be created with the
      master key; it starts unpaid and unused when its package costs something, and
      paid with one use (the listing it was bought for) when it is free. Whenever
      the usage is written the flag is recomputed; other saves leave it alone. */
  function SaveEntitlement(up: UserPackage, isNew: bool, master: bool, usageDirty: bool): (r: Result<UserPackage>)
    ensures r.Err? <==> isNew && !master
    ensures r.Err? ==> r.failure == NotAuthorized
    ensures r.Ok? && isNew ==> (r.value.status == Unpaid <==> up.pkg.finalPrice > 0.0)
    ensures r.Ok? && isNew ==> r.value.usage == (if r.value.status == Paid then 1 else 0)
    ensures r.Ok? && (isNew || usageDirty) ==> FlagConsistent(r.value)
    ensures r.Ok? && !isNew && !usageDirty ==> r.value == up
    ensures r.Ok? && !isNew ==> r.value.status == up.status && r.value.usage == up.usage
    ensures r.Ok? ==> r.value == up.(status := r.value.status, usage := r.value.usage,
                                     isLimitReached := r.value.isLimitReached)
  {
    if isNew && !master then Err(NotAuthorized)
    else
      var priced :=
        if !isNew then up
        else if up.pkg.finalPrice > 0.0 then up.(usage := 0, status := Unpaid)
        else up.(usage := 1, status := Paid);
      if isNew || usageDirty then
        Ok(priced.(isLimitReached := LimitReached(priced.pkg.listingLimit, priced.usage)))
      else
        Ok(priced)
  }

  /** A new entitlement for `user` holding a snapshot of `pkg`, as saved with the
      master key. */
  function NewEntitlement(id: Id, user: Id, pkg: Package): (up: UserPackage)
    ensures up.id == id && up.user == user && up.pkg == pkg
    ensures up.status == Paid <==> pkg.finalPrice <= 0.0
    ensures up.usage == (if up.status == Paid then 1 else 0)
    ensures FlagConsistent(up)
    ensures up.charge.None? && !up.deleted
  {
    SaveEntitlement(UserPackage(id, user, pkg, Unpaid, 0, false, None, false), true, true, true).value
  }

  const LimitReachedError: Failure := Coded(5001, "Usage limit reached")
  const UnpaidPackageError: Failure := Coded(5002, "Unpaid package")

  /** A listing consumes an existing entitlement (cloud/place.js): refused when the
      flag is up, then refused when unpaid, else the usage goes up by exactly one and
      the save recomputes the flag. */
  function Consume(up: UserPackage): (r: Result<UserPackage>)
    ensures up.isLimitReached ==> r == Err(LimitReachedError)
    ensures !up.isLimitReached && up.status == Unpaid ==> r == Err(UnpaidPackageError)
    ensures r.Ok? <==> !up.isLimitReached && up.status == Paid
    ensures r.Ok? ==> r.value == up.(usage := up.usage + 1, isLimitReached := r.value.isLimitReached)
    ensures r.Ok? ==> FlagConsistent(r.value)
  {
    if up.isLimitReached then Err(LimitReachedError)
    else if up.status == Unpaid then Err(UnpaidPackageError)
    else SaveEntitlement(up.(usage := up.usage + 1), false, true, true)
  }

  /** `n` listings in a row consume the entitlement. */
  function ConsumeTimes(up: UserPackage, n: nat): Result<UserPackage>
    decreases n
  {
    if n == 0 then Ok(up)
    else
      match Consume(up)
      case Err(f) => Err(f)
      case Ok(next) => ConsumeTimes(next, n - 1)
  }

  /** A paid entitlement whose flag is consistent and whose usage has not passed its
      limit funds exactly `limit - usage` more listings; the next one is refused
      with 5001, and the flag is up exactly when the last allowed one is used. */
  lemma {:induction false} ConsumesExactlyUpToLimit(up: UserPackage, n: nat)
    requires up.status == Paid && FlagConsistent(up)
    requires TruthyInt(up.pkg.listingLimit) && up.usage <= up.pkg.listingLimit.value
    requires n <= up.pkg.listingLimit.value - up.usage
    ensures ConsumeTimes(up, n).Ok?
    ensures ConsumeTimes(up, n).value.usage == up.usage + n
    ensures ConsumeTimes(up, n).value.isLimitReached <==> up.usage + n == up.pkg.listingLimit.value
    ensures ConsumeTimes(up, n).value.status == Paid && ConsumeTimes(up, n).value.pkg == up.pkg
    ensures up.usage + n == up.pkg.listingLimit.value ==> Consume(ConsumeTimes(up, n).value) == Err(LimitReachedError)
    decreases n
  {
    if n > 0 {
      var next := Consume(up).value;
      ConsumesExactlyUpToLimit(next, n - 1);
    }
  }

  /** Without a limit a paid entitlement can be consumed any number of times. */
  lemma {:induction false} UnlimitedNeverRunsOut(up: UserPackage, n: nat)
    requires up.status == Paid && FlagConsistent(up) && !TruthyInt(up.pkg.listingLimit)
    ensures ConsumeTimes(up, n).Ok?
    ensures ConsumeTimes(up, n).value.usage == up.usage + n
    decreases n
  {
    if n > 0 {
      UnlimitedNeverRunsOut(Consume(up).value, n - 1);
    }
  }

  /** A free package with a limit of three funds three listings: the purchase
      itself, then two consumptions; the fourth listing is refused. */
  lemma FreePackageWithLimitThree(id: Id, user: Id, pkg: Package)
    requires pkg.finalPrice == 0.0 && pkg.listingLimit == Some(3)
    ensures NewEntitlement(id, user, pkg).usage == 1
    ensures !NewEntitlement(id, user, pkg).isLimitReached
    ensures ConsumeTimes(NewEntitlement(id, user, pkg), 2).Ok?
    ensures ConsumeTimes(NewEntitlement(id, user, pkg), 2).value.isLimitReached
    ensures Consume(ConsumeTimes(NewEntitlement(id, user, pkg), 2).value) == Err(LimitReachedError)
  {
    ConsumesExactlyUpToLimit(NewEntitlement(id, user, pkg), 2);
  }

  // ----- Finding: the flag tests equality -----

  /** Any write that pushes the usage past the limit (a repeated payment
      confirmation adds one to the usage of an already-paid entitlement) lowers the
      flag again, and the entitlement is then consumable without end. */
  lemma OvershootClearsLimitFlag(up: UserPackage)
    requires up.status == Paid && up.pkg.listingLimit == Some(1) && up.usage == 1 && FlagConsistent(up)
    ensures up.isLimitReached
    ensures SaveEntitlement(up.(usage := 2), false, true, true).value.isLimitReached == false
    ensures Consume(SaveEntitlement(up.(usage := 2), false, true, true).value).Ok?
  {
  }

  /** The evidently intended flag: the limit is reached once the usage is at or past it. */
  predicate LimitReachedAtLeast(limit: Option<int>, usage: int) {
    TruthyInt(limit) && usage >= limit.value
  }

  /** Consumption with the intended flag recomputed on save. */
  function ConsumeCorrected(up: UserPackage): (r: Result<UserPackage>)
    ensures r.Ok? ==> r.value.usage == up.usage + 1
    ensures r.Ok? ==> r.value.isLimitReached == LimitReachedAtLeast(up.pkg.listingLimit, up.usage + 1)
  {
    if up.isLimitReached then Err(LimitReachedError)
    else if up.status == Unpaid then Err(UnpaidPackageError)
    else Ok(up.(usage := up.usage + 1, isLimitReached := LimitReachedAtLeast(up.pkg.listingLimit, up.usage + 1)))
  }

  /** With the intended flag the two definitions agree while the usage is within the
      limit, the flag stays up however far the usage overshoots, and so a consumption
      never starts at or past the limit. */
  lemma CorrectedLimitIsSticky(up: UserPackage, extra: nat)
    requires up.isLimitReached == LimitReachedAtLeast(up.pkg.listingLimit, up.usage)
    ensures TruthyInt(up.pkg.listingLimit) && up.usage <= up.pkg.listingLimit.value ==>
              (LimitReached(up.pkg.listingLimit, up.usage) <==> LimitReachedAtLeast(up.pkg.listingLimit, up.usage))
    ensures LimitReachedAtLeast(up.pkg.listingLimit, up.usage) ==>
              LimitReachedAtLeast(up.pkg.listingLimit, up.usage + extra)
    ensures ConsumeCorrected(up).Ok? && TruthyInt(up.pkg.listingLimit) ==> up.usage < up.pkg.listingLimit.value
  {
  }

  // ----- Payment intent -----

  /** What the gateway is asked to charge for one entitlement. */
  datatype IntentRequest = IntentRequest(amount: real, currency: string, userPackageId: Id, placeId: Id, userId: Id)

  /** The amount sent to the gateway: the price in hundredths, rounded half up, or
      the price itself for a zero-decimal currency. */
  function ChargeAmount(finalPrice: real, currency: string): (amount: real)
    ensures Currency.IsZeroDecimalCurrency(currency) ==> amount == finalPrice
    ensures !Currency.IsZeroDecimalCurrency(currency) ==>
              amount == amount.Floor as real && finalPrice * 100.0 - 0.5 < amount <= finalPrice * 100.0 + 0.5
  {
    if Currency.IsZeroDecimalCurrency(currency) then finalPrice
    else JsRound(finalPrice * 100.0) as real
  }

  /** A price in whole hundredths is charged exactly that many hundredths. */
  lemma WholeCentsAreChargedExactly(cents: int, currency: string)
    requires !Currency.IsZeroDecimalCurrency(currency)
    ensures ChargeAmount(cents as real / 100.0, currency) == cents as real
  {
    var x := cents as real / 100.0;
    assert x * 100.0 == cents as real;
    assert (cents as real + 0.5).Floor == cents;
  }

  /** The zero-decimal test reads the configured code as it is, while the request
      sends it lower-cased: a code configured in lower case is charged in hundredths
      even for a zero-decimal currency. */
  lemma LowerCaseCodeIsChargedInHundredths(finalPrice: real, code: string, i: int)
    requires 0 <= i < |code| && 'a' <= code[i] <= 'z'
    ensures ChargeAmount(finalPrice, code) == JsRound(finalPrice * 100.0) as real
  {
    Currency.LowerCaseCodeIsNotZeroDecimal(code, i);
  }

  /** A 1000 yen package: configured as "JPY" it is charged 1000, configured as
      "jpy" it is charged 100000, and both requests name the currency "jpy". */
  lemma YenConfiguredInLowerCaseIsChargedHundredfold()
    ensures ChargeAmount(1000.0, "JPY") == 1000.0
    ensures ChargeAmount(1000.0, "jpy") == 100000.0
    ensures Canonical.Lower("JPY") == Canonical.Lower("jpy") == "jpy"
  {
    assert Currency.ZeroDecimalCurrencies[2] == "JPY";
    LowerCaseCodeIsChargedInHundredths(1000.0, "jpy", 0);
    assert (100000.0 + 0.5).Floor == 100000;
  }

  /** `createStripePaymentIntent`. The listing and the entitlement must exist (their
      fetch fails otherwise); only an unpaid entitlement can be paid for (error 1);
      a request made with the master key but no user fails when the charge
      description reads the user's name. */
  function CreatePaymentIntent(caller: Caller, store: Store, userPackageId: Id, placeId: Id, currency: string): (r: Result<IntentRequest>)
    ensures caller.Anonymous() ==> r == Err(NotAuthorized)
    ensures r.Ok? ==> caller.user.Some? && placeId in store.places && userPackageId in store.entitlements
    ensures r.Ok? <==> caller.user.Some? && placeId in store.places && userPackageId in store.entitlements
                       && store.entitlements[userPackageId].status == Unpaid
    ensures (!caller.Anonymous() && placeId in store.places && userPackageId in store.entitlements
             && store.entitlements[userPackageId].status != Unpaid) ==> r == Err(Coded(1, "Cannot paid"))
    ensures r.Ok? ==> r.value == IntentRequest(
              ChargeAmount(store.entitlements[userPackageId].pkg.finalPrice, currency),
              Canonical.Lower(currency), userPackageId, placeId, caller.user.value.id)
  {
    if caller.Anonymous() then Err(NotAuthorized)
    else if placeId !in store.places then Err(ObjectNotFound)
    else if userPackageId !in store.entitlements then Err(ObjectNotFound)
    else
      var up := store.entitlements[userPackageId];
      if up.status != Unpaid then Err(Coded(1, "Cannot paid"))
      else if caller.user.None? then Err(Crash)
      else Ok(IntentRequest(ChargeAmount(up.pkg.finalPrice, currency), Canonical.Lower(currency),
                            userPackageId, placeId, caller.user.value.id))
  }

  // ----- Admin listing -----

  /** Filters of `getUserPackages`; `limit` and `page` are 0 when absent.
      `canonical` is the search text. */
  datatype ListParams = ListParams(canonical: Option<string>, status: Option<PaymentStatus>, user: Option<Id>,
                                   limit: nat, page: int)

  /** The filters of the listing's query. No entitlement is ever given a search
      key, so a substring filter on the key matches none of them. */
  predicate Listed(params: ListParams, up: UserPackage) {
    && !up.deleted
    && !TruthyString(params.canonical)
    && (params.status.None? || up.status == params.status.value)
    && (params.user.None? || up.user == params.user.value)
  }

  /** The rows the listing's query matches, in the store's order. */
  function Matching(params: ListParams, rows: seq<UserPackage>): (r: seq<UserPackage>)
    ensures forall up :: up in r <==> up in rows && Listed(params, up)
  {
    Filter(rows, up => Listed(params, up))
  }

  /** `getUserPackages` over the store's rows in the requested order: Admins and the
      master key only; undeleted rows matching the filters; a 1-based page of them
      only when both `limit` and `page` are given. A negative page makes the skip
      negative, which the query builder refuses by throwing. */
  function GetUserPackages(caller: Caller, params: ListParams, rows: seq<UserPackage>): (r: Result<seq<UserPackage>>)
    ensures r == Err(NotAuthorized) <==> !caller.IsAdmin() && !caller.master
    ensures r == Err(Crash) <==> (caller.IsAdmin() || caller.master) && params.limit > 0 && params.page < 0
    ensures r.Ok? <==> (caller.IsAdmin() || caller.master) && !(params.limit > 0 && params.page < 0)
    ensures r.Ok? && (params.limit == 0 || params.page == 0) ==> r.value == Matching(params, rows)
    ensures r.Ok? && params.limit > 0 && params.page > 0 ==>
              r.value == Paging.Window(Matching(params, rows), (params.page - 1) * params.limit, params.limit)
  {
    if !caller.IsAdmin() && !caller.master then Err(NotAuthorized)
    else
      var matching := Matching(params, rows);
      if params.limit > 0 && params.page < 0 then Err(Crash)
      else if params.limit > 0 && params.page > 0 then
        var skip := Paging.OneBasedSkip(params.page, params.limit);
        Paging.OneBasedSkipIsPagesBefore(params.page, params.limit);
        Ok(Paging.Window(matching, skip, params.limit))
      else
        Ok(matching)
  }

  /** A search text lists nothing, whatever the other filters and the page. */
  lemma SearchTextListsNothing(caller: Caller, params: ListParams, rows: seq<UserPackage>)
    requires TruthyString(params.canonical)
    ensures GetUserPackages(caller, params, rows).Ok? ==> GetUserPackages(caller, params, rows).value == []
  {
    FilterKeepingNone(rows, up => Listed(params, up));
  }

  /** `createUserPackage`: a logged-in user buys a package by id. The lookup uses the
      master key and no deletion filter, so any stored package is found. */
  function CreateUserPackage(caller: Caller, store: Store, packageId: Option<Id>, newId: Id): (r: Reply<UserPackage>)
    requires newId !in store.entitlements
    ensures caller.user.None? ==> r == Reply(store, Err(NotAuthorized))
    ensures r.result.Ok? <==> caller.user.Some? && packageId.Some? && packageId.value in store.packages
    ensures r.result.Err? ==> r.store == store
    ensures r.result.Ok? ==>
              && r.result.value == NewEntitlement(newId, caller.user.value.id, store.packages[packageId.value])
              && r.store == store.(entitlements := store.entitlements[newId := r.result.value])
  {
    if caller.user.None? then Reply(store, Err(NotAuthorized))
    else if packageId.None? || packageId.value !in store.packages then Reply(store, Err(Thrown("Package not found")))
    else
      var up := NewEntitlement(newId, caller.user.value.id, store.packages[packageId.value]);
      Reply(store.(entitlements := store.entitlements[newId := up]), Ok(up))
  }
}

=== FILE: expiry.dfy ===
/** The hourly expiry job (jobs/expire-places.js): listings whose expiry has passed
    become Expired, and approved listings whose featured period has passed stop
    being featured. The job does nothing until a super administrator exists. */
module ExpirySweep {
  import opened Common
  import opened Records
  import Canonical
  import Listings

  /** The outcome of looking up a super administrator. */
  datatype Lookup = Found | NotFound | Failed

  /** Sweep A's filter: not yet Expired, with an expiry at or before `now`. */
  predicate DueToExpire(p: Place, now: int) {
    p.status != Expired && p.expiresAt.At? && p.expiresAt.time <= now
  }

  /** Sweep B's filter: Approved and featured, with a featured expiry at or before `now`. */
  predicate DueToUnfeature(p: Place, now: int) {
    p.status == Approved && p.isFeatured && p.featuredExpiresAt.At? && p.featuredExpiresAt.time <= now
  }

  /** A listing written back by a sweep: the listing's save trigger runs on it
      with the master key and recomputes its canonical title. */
  function Resaved(p: Place): (q: Place)
    ensures q == p.(canonical := Canonical.Canonicalize(p.title))
  {
    Listings.SavePlace(Caller(None, true), p, true, true, false).value
  }

  /** Sweep A: every listing the filter selects becomes Expired, whatever its status
      was, and is saved. The batch save stores each listing on its own, so a listing
      whose save fails (one of `failed`) keeps its old state while the others are
      written. */
  function ExpireDue(places: map<Id, Place>, now: int, failed: set<Id>): (r: map<Id, Place>)
    ensures r.Keys == places.Keys
    ensures forall k :: k in places ==> (r[k] != places[k] <==> DueToExpire(places[k], now) && k !in failed)
    ensures forall k :: k in places && DueToExpire(places[k], now) && k !in failed ==>
              r[k] == places[k].(status := Expired, canonical := Canonical.Canonicalize(places[k].title))
    ensures forall k :: k in r && k !in failed ==> !DueToExpire(r[k], now)
  {
    map k | k in places :: if DueToExpire(places[k], now) && k !in failed then Resaved(places[k].(status := Expired)) else places[k]
  }

  /** Sweep B: every listing the filter selects stops being featured, keeps its
      status and is saved; a listing whose save fails keeps its old state. */
  function UnfeatureDue(places: map<Id, Place>, now: int, failed: set<Id>): (r: map<Id, Place>)
    ensures r.Keys == places.Keys
    ensures forall k :: k in places ==> (r[k] != places[k] <==> DueToUnfeature(places[k], now) && k !in failed)
    ensures forall k :: k in places && DueToUnfeature(places[k], now) && k !in failed ==>
              r[k] == places[k].(isFeatured := false, canonical := Canonical.Canonicalize(places[k].title))
    ensures forall k :: k in r && k !in failed ==> !DueToUnfeature(r[k], now)
  {
    map k | k in places :: if DueToUnfeature(places[k], now) && k !in failed then Resaved(places[k].(isFeatured := false)) else places[k]
  }

  /** One run of the job. Without a super administrator the job returns before
      either sweep; a failed lookup is caught and logged, and sweep B still runs.
      `failedA` and `failedB` are the listings whose save fails in each sweep; a
      sweep whose query fails is one in which every save fails. */
  function RunExpiryJob(lookup: Lookup, failedA: set<Id>, failedB: set<Id>, places: map<Id, Place>, now: int): (r: map<Id, Place>)
    ensures lookup == NotFound ==> r == places
    ensures lookup == Found ==> r == UnfeatureDue(ExpireDue(places, now, failedA), now, failedB)
    ensures lookup == Failed ==> r == UnfeatureDue(places, now, failedB)
  {
    if lookup == NotFound then places
    else
      var afterA := if lookup == Found then ExpireDue(places, now, failedA) else places;
      UnfeatureDue(afterA, now, failedB)
  }

  /** A run changes only the listings one of the sweeps selects and saves, and a
      changed listing differs in the status, the featured flag and the recomputed
      canonical title only. */
  lemma RunChangesOnlySelectedFields(failedA: set<Id>, failedB: set<Id>, places: map<Id, Place>, now: int)
    ensures var r := RunExpiryJob(Found, failedA, failedB, places, now);
            && r.Keys == places.Keys
            && forall k :: k in places ==>
                 var expired := DueToExpire(places[k], now) && k !in failedA;
                 var unfeatured := !expired && DueToUnfeature(places[k], now) && k !in failedB;
                 && r[k] == places[k].(status := r[k].status, isFeatured := r[k].isFeatured, canonical := r[k].canonical)
                 && (r[k].status != places[k].status <==> expired)
                 && (r[k].isFeatured != places[k].isFeatured <==> unfeatured)
                 && (expired || unfeatured ==> r[k].canonical == Canonical.Canonicalize(places[k].title))
                 && (!expired && !unfeatured ==> r[k] == places[k])
  {
  }

  /** A listing whose save fails takes nothing else down: every other listing ends
      as in a run without failures. */
  lemma FailureIsConfinedToItsListing(places: map<Id, Place>, now: int, bad: Id, k: Id)
    requires k in places && k != bad
    ensures RunExpiryJob(Found, {bad}, {bad}, places, now)[k] == RunExpiryJob(Found, {}, {}, places, now)[k]
  {
  }

  /** A listing whose expiry and featured expiry have both passed is Expired by
      sweep A, so sweep B no longer selects it: it stays featured after the run. */
  lemma ExpiredListingKeepsFeatured(places: map<Id, Place>, now: int, k: Id)
    requires k in places && DueToExpire(places[k], now) && DueToUnfeature(places[k], now)
    ensures RunExpiryJob(Found, {}, {}, places, now)[k].status == Expired
    ensures RunExpiryJob(Found, {}, {}, places, now)[k].isFeatured
  {
  }

  /** Running the job again at the same time, with the same saves failing, changes
      nothing. */
  lemma RunIsIdempotent(lookup: Lookup, failedA: set<Id>, failedB: set<Id>, places: map<Id, Place>, now: int)
    ensures var once := RunExpiryJob(lookup, failedA, failedB, places, now);
            RunExpiryJob(lookup, failedA, failedB, once, now) == once
  {
    var once := RunExpiryJob(lookup, failedA, failedB, places, now);
    if lookup != NotFound {
      var afterA := if lookup == Found then ExpireDue(places, now, failedA) else places;
      assert once == UnfeatureDue(afterA, now, failedB);
      UnfeatureKeepsExpiry(afterA, now, failedB);
      if lookup == Found {
        ExpireDueFixed(once, now, failedA);
      }
      UnfeatureDueFixed(once, now, failedB);
    }
  }

  /** Sweep B never changes whether sweep A would select a listing. */
  lemma UnfeatureKeepsExpiry(places: map<Id, Place>, now: int, failed: set<Id>)
    ensures forall k :: k in places ==>
              DueToExpire(UnfeatureDue(places, now, failed)[k], now) == DueToExpire(places[k], now)
  {
  }

  /** Sweep A leaves alone a store in which it selects only listings whose save fails. */
  lemma ExpireDueFixed(places: map<Id, Place>, now: int, failed: set<Id>)
    requires forall k :: k in places && k !in failed ==> !DueToExpire(places[k], now)
    ensures ExpireDue(places, now, failed) == places
  {
  }

  /** Sweep B leaves alone a store in which it selects only listings whose save fails. */
  lemma UnfeatureDueFixed(places: map<Id, Place>, now: int, failed: set<Id>)
    requires forall k :: k in places && k !in failed ==> !DueToUnfeature(places[k], now)
    ensures UnfeatureDue(places, now, failed) == places
  {
  }

  /** After a run in which no save fails, no listing is left that sweep A or sweep B
      would still select; a listing whose save failed is the only one left. */
  lemma RunLeavesNothingDue(failedA: set<Id>, failedB: set<Id>, places: map<Id, Place>, now: int)
    ensures var r := RunExpiryJob(Found, failedA, failedB, places, now);
            forall k :: k in r ==> (k in failedA || !DueToExpire(r[k], now)) && (k in failedB || !DueToUnfeature(r[k], now))
  {
    var afterA := ExpireDue(places, now, failedA);
    var r := RunExpiryJob(Found, failedA, failedB, places, now);
    forall k | k in r && k !in failedA
      ensures !DueToExpire(r[k], now)
    {
      assert !DueToExpire(afterA[k], now);
    }
  }
}

=== FILE: install.dfy ===
/** The dashboard's install gate (middlewares/install.js): until a super
    administrator exists every visit to the root goes to the installer, and once
    one exists every other page goes back to the root. The router places the gate
    only in front of `GET /` (controllers/index.js), so `Gate` is what the middleware
    decides, not what every page of the dashboard goes through. */
module Install {

  /** The outcome of looking up a user of type super_admin. */
  datatype SuperAdminLookup = Exists | Missing | LookupFailed(message: string)

  /** What the middleware does with a request: redirect it, hand it to the next
      handler, or answer with the lookup's error message. */
  datatype Action = Redirect(to: string) | Next | Send(message: string)

  const Root: string := "/"
  const Installer: string := "/install"

  function Gate(lookup: SuperAdminLookup, url: string): (a: Action)
    ensures lookup.LookupFailed? ==> a == Send(lookup.message)
    ensures lookup == Missing ==> a == (if url == Root then Redirect(Installer) else Next)
    ensures lookup == Exists ==> a == (if url == Root then Next else Redirect(Root))
  {
    match lookup
    case LookupFailed(m) => Send(m)
    case Missing => if url == Root then Redirect(Installer) else Next
    case Exists => if url == Root then Next else Redirect(Root)
  }

  /** A redirect never leads to another redirect: its target is handed on. */
  lemma NoRedirectChain(lookup: SuperAdminLookup, url: string)
    requires Gate(lookup, url).Redirect?
    ensures Gate(lookup, Gate(lookup, url).to) == Next
  {
  }

  /** Once a super administrator exists only the root is served, and before that
      every page but the root is. */
  lemma ServedPages(lookup: SuperAdminLookup, url: string)
    ensures lookup == Exists ==> (Gate(lookup, url) == Next <==> url == Root)
    ensures lookup == Missing ==> (Gate(lookup, url) == Next <==> url != Root)
  {
  }
}

=== FILE: listings.dfy ===
/** Listing creation and editing (cloud/place.js): funding a new listing from a
    package or an entitlement, the listing's initial status, featured flag and
    expiry, the `beforeSave('Place')` defaults, owner-only edit and delete, and the
    like toggle. */
module Listings {
  import opened Common
  import opened Records
  import Canonical
  import Clock
  import Entitlements

  // ----- beforeSave('Place') -----

  /** `beforeSave('Place')`. A new listing gets the status it was given or Pending,
      and an average of 0. On every save the canonical title is recomputed, and an
      expiry explicitly written as null is removed from the record. */
  function SavePlace(caller: Caller, p: Place, existed: bool, statusGiven: bool, expiresDirty: bool): (r: Result<Place>)
    ensures r.Err? <==> caller.Anonymous()
    ensures r.Err? ==> r.failure == NotAuthorized
    ensures r.Ok? ==> r.value.canonical == Canonical.Canonicalize(p.title)
    ensures r.Ok? ==> forall i :: 0 <= i < |r.value.canonical| ==> !Canonical.IsMark(r.value.canonical[i])
    ensures r.Ok? && !existed ==> r.value.ratingAvg == Finite(0)
    ensures r.Ok? && !existed && !statusGiven ==> r.value.status == Pending
    ensures r.Ok? && (existed || statusGiven) ==> r.value.status == p.status
    ensures r.Ok? && expiresDirty && p.expiresAt == Null ==> r.value.expiresAt == Unset
    ensures r.Ok? && !(expiresDirty && p.expiresAt == Null) ==> r.value.expiresAt == p.expiresAt
    ensures r.Ok? ==> r.value == p.(canonical := r.value.canonical, status := r.value.status,
                                    ratingAvg := r.value.ratingAvg, expiresAt := r.value.expiresAt)
    ensures r.Ok? && existed ==> r.value.ratingAvg == p.ratingAvg
  {
    if caller.Anonymous() then Err(NotAuthorized)
    else
      var defaulted :=
        if existed then p
        else p.(status := if statusGiven then p.status else Pending, ratingAvg := Finite(0));
      var expiry := if expiresDirty && defaulted.expiresAt == Null then Unset else defaulted.expiresAt;
      Ok(defaulted.(canonical := Canonical.Canonicalize(p.title), expiresAt := expiry))
  }

  /** Saving a listing the trigger has already processed changes nothing more. */
  lemma SavePlaceIsStable(caller: Caller, p: Place, existed: bool, statusGiven: bool, expiresDirty: bool)
    requires SavePlace(caller, p, existed, statusGiven, expiresDirty).Ok?
    ensures var q := SavePlace(caller, p, existed, statusGiven, expiresDirty).value;
            SavePlace(caller, q, true, true, expiresDirty) == Ok(q)
  {
    var q := SavePlace(caller, p, existed, statusGiven, expiresDirty).value;
    Canonical.CanonicalizeIdempotent(p.title);
    assert Canonical.Canonicalize(q.title) == q.canonical;
  }

  // ----- createPlace -----

  /** The undeleted package with this id, looked up with the master key and so
      whatever its status. */
  function FindPackage(store: Store, id: Option<Id>): Option<Package> {
    if id.Some? && id.value in store.packages && !store.packages[id.value].deleted
    then Some(store.packages[id.value]) else None
  }

  /** The undeleted entitlement with this id, whoever owns it. */
  function FindEntitlement(store: Store, id: Option<Id>): Option<UserPackage> {
    if id.Some? && id.value in store.entitlements && !store.entitlements[id.value].deleted
    then Some(store.entitlements[id.value]) else None
  }

  /** The user already holds an undeleted entitlement bought from this package. */
  predicate HasPurchased(store: Store, user: Id, packageId: Id) {
    exists k :: k in store.entitlements && store.entitlements[k].user == user
                && store.entitlements[k].pkg.id == packageId && !store.entitlements[k].deleted
  }

  const DuplicatePurchaseError: Failure := Coded(5000, "Cannot purchase this package multiple times")
  const PackageNotFound: Failure := Thrown("Package not found")

  /** How a new listing is paid for. With paid listings off nothing is needed. With
      them on, the id is first tried as a package, which is bought (a fresh
      entitlement), then as an entitlement, which is consumed; neither means
      'Package not found'. The ledger write is kept even if the listing later fails. */
  function Fund(user: Id, config: Option<AppConfig>, store: Store, packageId: Option<Id>, newEntitlementId: Id)
    : (r: Reply<Option<UserPackage>>)
    requires newEntitlementId !in store.entitlements
    ensures !PaidListingsEnabled(config) ==> r == Reply(store, Ok(None))
    ensures r.result.Err? ==> r.store == store
    ensures r.store.packages == store.packages && r.store.places == store.places && r.store.reviews == store.reviews
    ensures PaidListingsEnabled(config) && r.result.Ok? ==> r.result.value.Some?
    ensures (PaidListingsEnabled(config) && FindPackage(store, packageId).None? && FindEntitlement(store, packageId).None?)
              ==> r == Reply(store, Err(PackageNotFound))
    ensures PaidListingsEnabled(config) && FindPackage(store, packageId).Some? ==>
              var pkg := FindPackage(store, packageId).value;
              if pkg.disableMultiplePurchases && HasPurchased(store, user, pkg.id)
              then r == Reply(store, Err(DuplicatePurchaseError))
              else r.result == Ok(Some(Entitlements.NewEntitlement(newEntitlementId, user, pkg)))
                   && r.store.entitlements == store.entitlements[newEntitlementId := r.result.value.value]
    ensures PaidListingsEnabled(config) && FindPackage(store, packageId).None? && FindEntitlement(store, packageId).Some? ==>
              var up := FindEntitlement(store, packageId).value;
              match Entitlements.Consume(up)
              case Err(f) => r == Reply(store, Err(f))
              case Ok(next) => r.result == Ok(Some(next))
                               && r.store.entitlements == store.entitlements[packageId.value := next]
                               && next.usage == up.usage + 1
  {
    if !PaidListingsEnabled(config) then Reply(store, Ok(None))
    else
      match FindPackage(store, packageId)
      case Some(pkg) =>
        if pkg.disableMultiplePurchases && HasPurchased(store, user, pkg.id) then
          Reply(store, Err(DuplicatePurchaseError))
        else
          var up := Entitlements.NewEntitlement(newEntitlementId, user, pkg);
          Reply(store.(entitlements := store.entitlements[newEntitlementId := up]), Ok(Some(up)))
      case None =>
        match FindEntitlement(store, packageId)
        case None => Reply(store, Err(PackageNotFound))
        case Some(up) =>
          match Entitlements.Consume(up)
          case Err(f) => Reply(store, Err(f))
          case Ok(next) => Reply(store.(entitlements := store.entitlements[packageId.value := next]), Ok(Some(next)))
  }

  /** The request fields a rule reads; a missing one is `None`. */
  datatype PlaceInput = PlaceInput(title: Option<string>, categories: Option<seq<Id>>, location: Option<Point>)

  /** The status `createPlace` writes before saving, if any: Approved by the
      configuration when approval is automatic and listings are free, or by a paid
      entitlement whose package approves automatically. */
  function CreationStatus(config: Option<AppConfig>, funding: Option<UserPackage>): (s: Option<PlaceStatus>)
    ensures s.Some? ==> s.value == Approved
    ensures s.Some? <==>
              (PlacesSettings(config).Some? && PlacesSettings(config).value.autoApprove && !PaidListingsEnabled(config))
              || (funding.Some? && funding.value.status == Paid && funding.value.pkg.autoApproveListing)
  {
    var byConfig := PlacesSettings(config).Some? && PlacesSettings(config).value.autoApprove
                    && !PlacesSettings(config).value.enablePaidListings;
    var byPackage := funding.Some? && funding.value.status == Paid && funding.value.pkg.autoApproveListing;
    if byConfig || byPackage then Some(Approved) else None
  }

  /** The expiry a paid entitlement gives a new listing: the start of the server's
      local day `listingDuration` days from now. */
  function CreationExpiry(funding: Option<UserPackage>, now: int, zoneOffset: int): (e: Stamp)
    ensures e != Unset <==> funding.Some? && funding.value.status == Paid && TruthyInt(funding.value.pkg.listingDuration)
    ensures e.At? ==> var target := Clock.AddDays(now, funding.value.pkg.listingDuration.value);
                      e.time <= target < e.time + Clock.DayMs && (e.time + zoneOffset) % Clock.DayMs == 0
  {
    if funding.Some? && funding.value.status == Paid && TruthyInt(funding.value.pkg.listingDuration) then
      At(Clock.StartOfLocalDay(Clock.AddDays(now, funding.value.pkg.listingDuration.value), zoneOffset))
    else Unset
  }

  /** What `createPlace` returns: the saved listing and the entitlement that funded it. */
  datatype Created = Created(place: Place, funding: Option<UserPackage>)

  /** `createPlace`. `now` is the server clock and `zoneOffset` the server's offset
      from UTC. A listing is saved only once it is funded; a request missing its
      categories, location or title, or whose location is off the globe, fails after
      the funding has been written. */
  function CreatePlace(caller: Caller, config: Option<AppConfig>, store: Store, packageId: Option<Id>, input: PlaceInput,
                       newPlaceId: Id, newEntitlementId: Id, now: int, zoneOffset: int): (r: Reply<Created>)
    requires newPlaceId !in store.places && newEntitlementId !in store.entitlements
    ensures caller.user.None? ==> r == Reply(store, Err(NotAuthorized))
    ensures caller.user.Some? && Fund(caller.user.value.id, config, store, packageId, newEntitlementId).result.Err? ==>
              r == Reply(store, Err(Fund(caller.user.value.id, config, store, packageId, newEntitlementId).result.failure))
    ensures r.result.Ok? <==> caller.user.Some?
                              && Fund(caller.user.value.id, config, store, packageId, newEntitlementId).result.Ok?
                              && input.title.Some? && input.categories.Some? && input.location.Some?
                              && OnGlobe(input.location.value)
    ensures caller.user.Some? && Fund(caller.user.value.id, config, store, packageId, newEntitlementId).result.Ok?
            && input.location.Some? && !OnGlobe(input.location.value) ==>
              r == Reply(Fund(caller.user.value.id, config, store, packageId, newEntitlementId).store, Err(Crash))
    ensures r.result.Ok? ==>
              var funded := Fund(caller.user.value.id, config, store, packageId, newEntitlementId);
              && caller.user.Some? && funded.result.Ok?
              && r.result.value.funding == funded.result.value
              && r.store == funded.store.(places := funded.store.places[newPlaceId := r.result.value.place])
    ensures r.result.Ok? ==>
              var p := r.result.value.place;
              var funding := r.result.value.funding;
              && p.id == newPlaceId && p.owner == caller.user.value.id
              && p.title == input.title.value && p.canonical == Canonical.Canonicalize(input.title.value)
              && (p.status == Approved <==> CreationStatus(config, funding).Some?)
              && (p.status != Approved ==> p.status == Pending)
              && (p.isFeatured <==> funding.Some? && funding.value.status == Paid && funding.value.pkg.markListingAsFeatured)
              && p.expiresAt == CreationExpiry(funding, now, zoneOffset)
              && p.ratingAvg == Finite(0) && p.ratingCount == 0 && p.likeCount == 0
              && p.userPackage == (if funding.Some? then Some(funding.value.id) else None)
  {
    if caller.user.None? then Reply(store, Err(NotAuthorized))
    else
      var user := caller.user.value.id;
      var funded := Fund(user, config, store, packageId, newEntitlementId);
      if funded.result.Err? then Reply(funded.store, Err(funded.result.failure))
      else if input.categories.None? || input.location.None? || input.title.None? || !OnGlobe(input.location.value) then
        Reply(funded.store, Err(Crash))
      else
        var funding := funded.result.value;
        var status := CreationStatus(config, funding);
        var paid := funding.Some? && funding.value.status == Paid;
        var draft := Place(newPlaceId, user, input.title.value, "", input.categories.value, [], input.location.value,
                           status.GetOr(Pending), paid && funding.value.pkg.markListingAsFeatured,
                           CreationExpiry(funding, now, zoneOffset), Unset, 0, 0, Finite(0), {}, 0,
                           if funding.Some? then Some(funding.value.id) else None, now, false);
        var saved := SavePlace(Caller(caller.user, true), draft, false, status.Some?, false).value;
        Reply(funded.store.(places := funded.store.places[newPlaceId := saved]), Ok(Created(saved, funding)))
  }

  /** A request that buys or consumes an entitlement and then fails for a missing
      field, or for a location off the globe, still leaves the ledger written and no
      listing saved. */
  lemma FailedCreationKeepsFunding(caller: Caller, config: Option<AppConfig>, store: Store, packageId: Option<Id>,
                                   input: PlaceInput, newPlaceId: Id, newEntitlementId: Id, now: int, zoneOffset: int)
    requires newPlaceId !in store.places && newEntitlementId !in store.entitlements
    requires caller.user.Some? && PaidListingsEnabled(config)
    requires Fund(caller.user.value.id, config, store, packageId, newEntitlementId).result.Ok?
    requires input.title.None? || input.categories.None? || input.location.None? || !OnGlobe(input.location.value)
    ensures var r := CreatePlace(caller, config, store, packageId, input,
                                 newPlaceId, newEntitlementId, now, zoneOffset);
            && r.result == Err(Crash)
            && r.store.places == store.places
            && r.store.entitlements != store.entitlements
  {
    var funded := Fund(caller.user.value.id, config, store, packageId, newEntitlementId);
    var up := funded.result.value.value;
    if FindPackage(store, packageId).Some? {
      assert funded.store.entitlements[newEntitlementId] == up;
    } else {
      var prior := FindEntitlement(store, packageId).value;
      assert funded.store.entitlements[packageId.value] == up && up.usage == prior.usage + 1;
      assert store.entitlements[packageId.value] == prior;
    }
  }

  // ----- Finding: an entitlement is consumed whoever owns it -----

  /** The entitlement lookup does not compare the owner with the caller: any logged-in
      user who knows the id of someone else's paid entitlement spends one of its uses. */
  lemma AnyoneCanSpendAnEntitlement(store: Store, config: Option<AppConfig>, thief: Id, id: Id, newEntitlementId: Id)
    requires newEntitlementId !in store.entitlements && PaidListingsEnabled(config)
    requires id !in store.packages && id in store.entitlements
    requires var up := store.entitlements[id]; up.user != thief && !up.deleted && up.status == Paid && !up.isLimitReached
    ensures var r := Fund(thief, config, store, Some(id), newEntitlementId);
            && r.result.Ok?
            && r.store.entitlements[id].user != thief
            && r.store.entitlements[id].usage == store.entitlements[id].usage + 1
  {
  }

  /** Funding with the owner check the code evidently intends: another user's
      entitlement reads as not found. */
  function FundOwned(user: Id, config: Option<AppConfig>, store: Store, packageId: Option<Id>, newEntitlementId: Id)
    : (r: Reply<Option<UserPackage>>)
    requires newEntitlementId !in store.entitlements
    ensures r.result.Ok? && r.result.value.Some? ==> r.result.value.value.user == user
  {
    var found := FindEntitlement(store, packageId);
    if PaidListingsEnabled(config) && FindPackage(store, packageId).None? && found.Some? && found.value.user != user
    then Reply(store, Err(PackageNotFound))
    else Fund(user, config, store, packageId, newEntitlementId)
  }

  /** With the owner check, funding never touches an entitlement of another user. */
  lemma FundOwnedSparesOthers(user: Id, config: Option<AppConfig>, store: Store, packageId: Option<Id>, newEntitlementId: Id)
    requires newEntitlementId !in store.entitlements
    ensures var r := FundOwned(user, config, store, packageId, newEntitlementId);
            forall k :: k in store.entitlements && store.entitlements[k].user != user ==>
              k in r.store.entitlements && r.store.entitlements[k] == store.entitlements[k]
  {
    var r := FundOwned(user, config, store, packageId, newEntitlementId);
    forall k | k in store.entitlements && store.entitlements[k].user != user
      ensures k in r.store.entitlements && r.store.entitlements[k] == store.entitlements[k]
    {
      if r.store != store && FindPackage(store, packageId).None? {
        assert r.store.entitlements == store.entitlements[packageId.value := r.result.value.value];
      }
    }
  }

  // ----- updatePlace / deletePlace -----

  /** The outcome of an owner-only request: the owner check returns 'Invalid user'
      instead of throwing. */
  datatype Outcome<+T> = InvalidUser | Done(value: T)

  /** The fields an edit sets; a missing one is `None`. */
  datatype PlaceEdit = PlaceEdit(title: Option<string>, categories: Option<seq<Id>>, location: Option<Point>)

  /** `updatePlace`: only the owner may edit; a missing field or a location off the
      globe throws; the listing goes back to Pending Approval, or straight to
      Approved when the configuration approves automatically, even with paid
      listings on. */
  function UpdatePlace(caller: Caller, config: Option<AppConfig>, store: Store, id: Id, edit: PlaceEdit): (r: Reply<Outcome<Place>>)
    ensures r.result.Err? || r.result.value.InvalidUser? ==> r.store == store
    ensures caller.user.None? ==> r.result == Err(NotAuthorized)
    ensures caller.user.Some? && id !in store.places ==> r.result == Err(ObjectNotFound)
    ensures caller.user.Some? && id in store.places && store.places[id].owner != caller.user.value.id ==>
              r.result == Ok(InvalidUser)
    ensures r.result.Ok? && r.result.value.Done? ==>
              var p := r.result.value.value;
              && caller.user.Some? && id in store.places && store.places[id].owner == caller.user.value.id
              && edit.title.Some? && edit.categories.Some? && edit.location.Some? && OnGlobe(edit.location.value)
              && p.title == edit.title.value && p.canonical == Canonical.Canonicalize(edit.title.value)
              && p.categories == edit.categories.value && p.location == edit.location.value
              && (p.status == Approved <==> PlacesSettings(config).Some? && PlacesSettings(config).value.autoApprove)
              && (p.status != Approved ==> p.status == PendingApproval)
              && r.store == store.(places := store.places[id := p])
    ensures (caller.user.Some? && id in store.places && store.places[id].owner == caller.user.value.id
             && edit.title.Some? && edit.categories.Some? && edit.location.Some? && OnGlobe(edit.location.value))
            ==> r.result.Ok? && r.result.value.Done?
    ensures (caller.user.Some? && id in store.places && store.places[id].owner == caller.user.value.id
             && edit.location.Some? && !OnGlobe(edit.location.value)) ==> r == Reply(store, Err(Crash))
  {
    if caller.user.None? then Reply(store, Err(NotAuthorized))
    else if id !in store.places then Reply(store, Err(ObjectNotFound))
    else
      var p := store.places[id];
      if p.owner != caller.user.value.id then Reply(store, Ok(InvalidUser))
      else if edit.categories.None? || edit.location.None? || edit.title.None? || !OnGlobe(edit.location.value) then
        Reply(store, Err(Crash))
      else
        var autoApprove := PlacesSettings(config).Some? && PlacesSettings(config).value.autoApprove;
        var edited := p.(title := edit.title.value, categories := edit.categories.value, location := edit.location.value,
                         status := if autoApprove then Approved else PendingApproval);
        var saved := SavePlace(Caller(caller.user, true), edited, true, true, false).value;
        Reply(store.(places := store.places[id := saved]), Ok(Done(saved)))
  }

  /** `deletePlace`, followed by `afterDelete('Place')`: the owner removes the
      listing, and the cascade removes its reviews. The cascade's query runs without
      a session, so the review visibility rule narrows it to Published reviews and
      the others stay behind. */
  function DeletePlace(caller: Caller, store: Store, id: Id): (r: Reply<Outcome<()>>)
    ensures r.result.Err? || r.result.value.InvalidUser? ==> r.store == store
    ensures caller.user.None? ==> r.result == Err(NotAuthorized)
    ensures caller.user.Some? && id !in store.places ==> r.result == Err(ObjectNotFound)
    ensures r.result == Ok(InvalidUser) <==>
              caller.user.Some? && id in store.places && store.places[id].owner != caller.user.value.id
    ensures r.result == Ok(Done(())) <==>
              caller.user.Some? && id in store.places && store.places[id].owner == caller.user.value.id
    ensures r.result.Ok? && r.result.value.Done? ==>
              && r.store.places.Keys == store.places.Keys - {id}
              && (forall k :: k in r.store.places ==> r.store.places[k] == store.places[k])
              && (forall k :: k in store.reviews ==>
                    (k in r.store.reviews <==> !(store.reviews[k].place == id && store.reviews[k].status == Published)))
              && (forall k :: k in r.store.reviews ==> k in store.reviews && r.store.reviews[k] == store.reviews[k])
              && r.store.packages == store.packages && r.store.entitlements == store.entitlements
  {
    if caller.user.None? then Reply(store, Err(NotAuthorized))
    else if id !in store.places then Reply(store, Err(ObjectNotFound))
    else if store.places[id].owner != caller.user.value.id then Reply(store, Ok(InvalidUser))
    else
      var places := map k | k in store.places && k != id :: store.places[k];
      var reviews := map k | k in store.reviews && !(store.reviews[k].place == id && store.reviews[k].status == Published)
                             :: store.reviews[k];
      Reply(store.(places := places, reviews := reviews), Ok(Done(())))
  }

  // ----- likePlace -----

  /** The counter agrees with the set of users who like the listing. */
  predicate LikesConsistent(p: Place) {
    p.likeCount == |p.likes|
  }

  /** `likePlace`: toggles the caller's like and answers whether the listing is now liked. */
  function LikePlace(caller: Caller, store: Store, id: Id): (r: Reply<bool>)
    ensures r.result.Err? ==> r.store == store
    ensures caller.user.None? ==> r.result == Err(NotAuthorized)
    ensures r.result.Ok? <==> caller.user.Some? && id in store.places
    ensures r.result.Ok? ==> id in r.store.places
    ensures r.result.Ok? ==>
              var before := store.places[id];
              var after := r.store.places[id];
              var u := caller.user.value.id;
              && r.result.value == (u !in before.likes)
              && (u in after.likes <==> u !in before.likes)
              && after.likes - {u} == before.likes - {u}
              && (LikesConsistent(before) ==> LikesConsistent(after))
              && r.store == store.(places := store.places[id := after])
  {
    if caller.user.None? then Reply(store, Err(NotAuthorized))
    else if id !in store.places then Reply(store, Err(ObjectNotFound))
    else
      var p := store.places[id];
      var u := caller.user.value.id;
      var saved := SavePlace(Caller(caller.user, true), ToggleLike(p, u), true, true, false).value;
      Reply(store.(places := store.places[id := saved]), Ok(u !in p.likes))
  }

  /** The listing with `u`'s like added or taken away, and the counter moved with it. */
  function ToggleLike(p: Place, u: Id): Place {
    if u in p.likes then p.(likeCount := p.likeCount - 1, likes := p.likes - {u})
    else p.(likeCount := p.likeCount + 1, likes := p.likes + {u})
  }

  lemma ToggleLikeTwice(p: Place, u: Id)
    ensures ToggleLike(ToggleLike(p, u), u) == p
  {
    if u in p.likes {
      assert (p.likes - {u}) + {u} == p.likes;
    } else {
      assert (p.likes + {u}) - {u} == p.likes;
    }
  }

  /** Saving an unchanged, already processed listing with a session is a no-op. */
  lemma SaveProcessedIsIdentity(caller: Caller, p: Place)
    requires !caller.Anonymous() && p.canonical == Canonical.Canonicalize(p.title)
    ensures SavePlace(caller, p, true, true, false) == Ok(p)
  {
  }

  /** Liking twice undoes the first like, for a listing whose canonical title is
      already up to date. */
  lemma LikeTwiceRestores(caller: Caller, store: Store, id: Id)
    requires caller.user.Some? && id in store.places
    requires store.places[id].canonical == Canonical.Canonicalize(store.places[id].title)
    ensures var once := LikePlace(caller, store, id);
            var twice := LikePlace(caller, once.store, id);
            twice.store == store && twice.result == Ok(!once.result.value)
  {
    var p := store.places[id];
    var u := caller.user.value.id;
    var c := Caller(caller.user, true);
    var q := ToggleLike(p, u);
    SaveProcessedIsIdentity(c, q);
    var once := LikePlace(caller, store, id);
    assert once.store == store.(places := store.places[id := q]);
    ToggleLikeTwice(p, u);
    SaveProcessedIsIdentity(c, p);
    assert store.places[id := q][id := p] == store.places;
  }
}

=== FILE: package.dfy ===
/** Catalog rules (cloud/package.js): who may save a package, the price a purchase
    charges, the canonical name, and which packages each reader may see. */
module PackageRules {
  import opened Common
  import opened Records
  import Canonical

  /** The price a purchase charges: zero for a sale price of exactly zero, else the
      sale price when it is truthy, else the list price. */
  function FinalPrice(price: real, salePrice: Option<real>): real {
    if salePrice == Some(0.0) then 0.0
    else if TruthyReal(salePrice) then salePrice.value
    else price
  }

  /** The explicit zero case and the truthiness test together amount to: the sale
      price whenever one is set (a sale price of 0 makes the package free), else the
      list price. */
  lemma FinalPriceIsSalePriceElsePrice(price: real, salePrice: Option<real>)
    ensures salePrice.Some? ==> FinalPrice(price, salePrice) == salePrice.value
    ensures salePrice.None? ==> FinalPrice(price, salePrice) == price
    ensures salePrice == Some(0.0) ==> FinalPrice(price, salePrice) == 0.0
  {
  }

  /** `beforeSave('Package')`: without the master key only an Admin may save; every
      save recomputes `finalPrice`, whichever fields changed, and a save that
      changes the name recomputes the canonical name. Nothing else is touched. */
  function SavePackage(caller: Caller, pkg: Package, nameDirty: bool): (r: Result<Package>)
    ensures r.Ok? <==> caller.master || caller.IsAdmin()
    ensures r.Err? ==> r.failure == NotAuthorized
    ensures r.Ok? ==> r.value.finalPrice == pkg.salePrice.GetOr(pkg.price)
    ensures r.Ok? && nameDirty ==> r.value.canonical == Canonical.Canonicalize(pkg.name)
    ensures r.Ok? && !nameDirty ==> r.value.canonical == pkg.canonical
    ensures r.Ok? ==> r.value == pkg.(finalPrice := r.value.finalPrice, canonical := r.value.canonical)
  {
    if caller.Anonymous() then Err(NotAuthorized)
    else if !caller.master && !caller.IsAdmin() then Err(NotAuthorized)
    else
      FinalPriceIsSalePriceElsePrice(pkg.price, pkg.salePrice);
      var canonical := if nameDirty then Canonical.Canonicalize(pkg.name) else pkg.canonical;
      Ok(pkg.(finalPrice := FinalPrice(pkg.price, pkg.salePrice), canonical := canonical))
  }

  /** Saving again without touching the name is a no-op: the derived fields are a
      function of the stored ones. */
  lemma SavePackageIsStable(caller: Caller, pkg: Package, nameDirty: bool)
    requires SavePackage(caller, pkg, nameDirty).Ok?
    ensures SavePackage(caller, SavePackage(caller, pkg, nameDirty).value, false)
         == SavePackage(caller, pkg, nameDirty)
  {
  }

  /** `beforeFind('Package')`: anonymous and customer readers see only active,
      undeleted packages; everyone else sees every package. */
  predicate VisibleTo(caller: Caller, pkg: Package) {
    !caller.Restricted() || (pkg.status == Active && !pkg.deleted)
  }

  function FindPackages(caller: Caller, rows: seq<Package>): (r: seq<Package>)
    ensures caller.Restricted() ==> forall p :: p in r <==> p in rows && p.status == Active && !p.deleted
    ensures !caller.Restricted() ==> r == rows
  {
    var r := Filter(rows, p => VisibleTo(caller, p));
    if caller.Restricted() then r
    else
      FilterKeepingAll(rows, p => VisibleTo(caller, p));
      r
  }
}

=== FILE: paging.dfy ===
/** Offset paging as the store applies it: `query.skip(s).limit(l)` keeps the rows
    of the query, in its order, from position `s`, at most `l` of them. */
module Paging {

  function Min(a: int, b: int): int {
    if a <= b then a else b
  }

  function Window<T>(rows: seq<T>, skip: nat, limit: nat): (w: seq<T>)
    ensures |w| == if skip >= |rows| then 0 else Min(limit, |rows| - skip)
    ensures forall i :: 0 <= i < |w| ==> w[i] == rows[skip + i]
  {
    if skip >= |rows| then [] else rows[skip .. skip + Min(limit, |rows| - skip)]
  }

  /** The skip of the admin lists, whose pages count from 1:
      `page * limit - limit` (cloud/user.js, cloud/user-package.js). */
  function OneBasedSkip(page: nat, limit: nat): int {
    page * limit - limit
  }

  lemma OneBasedSkipIsPagesBefore(page: nat, limit: nat)
    requires page >= 1
    ensures OneBasedSkip(page, limit) == (page - 1) * limit >= 0
  {
  }

  /** A window is the slice between its clamped ends. */
  lemma WindowIsSlice<T>(rows: seq<T>, skip: nat, limit: nat)
    ensures Window(rows, skip, limit) == rows[Min(skip, |rows|)..Min(skip + limit, |rows|)]
  {
  }

  /** Pages 1..n one after another. */
  function FirstPages<T>(rows: seq<T>, limit: nat, n: nat): seq<T> {
    if n == 0 then [] else FirstPages(rows, limit, n - 1) + Window(rows, (n - 1) * limit, limit)
  }

  /** A window continues the prefix that ends where it starts. */
  lemma WindowExtendsPrefix<T>(rows: seq<T>, lo: nat, limit: nat)
    ensures rows[..Min(lo, |rows|)] + Window(rows, lo, limit) == rows[..Min(lo + limit, |rows|)]
  {
    WindowIsSlice(rows, lo, limit);
    var a := Min(lo, |rows|);
    var b := Min(lo + limit, |rows|);
    assert rows[..b] == rows[..a] + rows[a..b];
  }

  /** Consecutive 1-based pages tile the rows without gap or overlap: the first n
      pages are exactly the first n * limit rows. */
  lemma {:induction false} FirstPagesArePrefix<T>(rows: seq<T>, limit: nat, n: nat)
    ensures FirstPages(rows, limit, n) == rows[..Min(n * limit, |rows|)]
  {
    if n > 0 {
      FirstPagesArePrefix(rows, limit, n - 1);
      var lo: nat := (n - 1) * limit;
      assert n * limit == lo + limit;
      WindowExtendsPrefix(rows, lo, limit);
    }
  }
}

=== FILE: posts.dfy ===
/** Blog posts (cloud/post.js): restricted readers see only active posts, only
    administrators and the master key may write them, and activating a post with
    push enabled queues a notification for every user. */
module Posts {
  import opened Common
  import Canonical

  datatype PostStatus = Active | Pending | Inactive

  /** The fields of a post the triggers read or write; missing ones are `None`.
      `image` and `imageThumb` name stored files. */
  datatype Post = Post(
    id: Id,
    title: Option<string>,
    body: Option<string>,
    image: Option<string>,
    imageThumb: Option<string>,
    status: Option<PostStatus>,
    isPushEnabled: bool,
    canonical: Option<string>)

  /** `beforeFind('Post')`: anonymous requests and customers only see active
      posts; everyone else sees every post, in the store's order. */
  function FindPosts(caller: Caller, posts: seq<Post>): (r: seq<Post>)
    ensures forall p :: p in r <==> p in posts && (!caller.Restricted() || p.status == Some(Active))
    ensures !caller.Restricted() ==> r == posts
  {
    if caller.Restricted() then Filter(posts, (p: Post) => p.status == Some(Active)) else posts
  }

  /** `beforeSave('Post')`. A request with neither a session nor the master key is
      refused, and so is a session user outside the Admin role. The search key is
      the lower-cased title, recomputed only when the title changed (a title changed
      to nothing makes `toLowerCase` throw). A newly uploaded image is replaced by
      its resized copy and gets a thumbnail, both stored by the trigger and given
      here as `stored`; clearing the image clears the thumbnail. */
  function SavePost(caller: Caller, p: Post, titleDirty: bool, imageDirty: bool, stored: (string, string)): (r: Result<Post>)
    ensures r == Err(NotAuthorized) <==> !caller.master && !caller.IsAdmin()
    ensures r == Err(Crash) <==> (caller.master || caller.IsAdmin()) && titleDirty && p.title.None?
    ensures r.Ok? ==> r.value.canonical == (if titleDirty then Some(Canonical.Lower(p.title.value)) else p.canonical)
    ensures r.Ok? && imageDirty && p.image.Some? ==> r.value.image == Some(stored.0) && r.value.imageThumb == Some(stored.1)
    ensures r.Ok? && imageDirty && p.image.None? ==> r.value.image.None? && r.value.imageThumb.None?
    ensures r.Ok? && !imageDirty ==> r.value.image == p.image && r.value.imageThumb == p.imageThumb
    ensures r.Ok? ==> r.value == p.(canonical := r.value.canonical, image := r.value.image, imageThumb := r.value.imageThumb)
  {
    if caller.user.None? && !caller.master then Err(NotAuthorized)
    else if !caller.master && !caller.IsAdmin() then Err(NotAuthorized)
    else if titleDirty && p.title.None? then Err(Crash)
    else
      var keyed := if titleDirty then p.(canonical := Some(Canonical.Lower(p.title.value))) else p;
      if p.image.Some? && imageDirty then Ok(keyed.(image := Some(stored.0), imageThumb := Some(stored.1)))
      else if imageDirty && p.image.None? then Ok(keyed.(imageThumb := None))
      else Ok(keyed)
  }

  /** Saving a post again with nothing changed leaves it as it is. */
  lemma SavePostIsStable(caller: Caller, p: Post, titleDirty: bool, stored: (string, string))
    requires caller.master || caller.IsAdmin()
    requires SavePost(caller, p, titleDirty, false, stored).Ok?
    ensures var q := SavePost(caller, p, titleDirty, false, stored).value;
            SavePost(caller, q, false, false, stored) == Ok(q)
  {
  }

  /** The search key written on a title change matches a search for the title in
      any letter case. */
  lemma PostKeyIgnoresCase(caller: Caller, p: Post, other: string, stored: (string, string))
    requires caller.master || caller.IsAdmin()
    requires p.title.Some? && Canonical.Lower(other) == Canonical.Lower(p.title.value)
    ensures SavePost(caller, p, true, false, stored).Ok?
    ensures SavePost(caller, p, true, false, stored).value.canonical == Some(Canonical.Lower(other))
  {
  }

  /** The notification `afterSave('Post')` stores; its type is always "All". */
  datatype Notification = Notification(title: Option<string>, message: Option<string>, image: Option<string>, kind: string, post: Id)

  /** `afterSave('Post')`: a notification is created for a post with push enabled
      that is active, when it is new or its previous status was Pending. */
  function AfterSavePost(p: Post, existed: bool, previous: Option<PostStatus>): (n: Option<Notification>)
    ensures n.Some? <==> p.isPushEnabled && p.status == Some(Active) && (!existed || previous == Some(Pending))
    ensures n.Some? ==> n.value == Notification(p.title, p.body, p.image, "All", p.id)
  {
    if p.isPushEnabled && p.status == Some(Active) && (!existed || previous == Some(Pending)) then
      Some(Notification(p.title, p.body, p.image, "All", p.id))
    else None
  }

  /** The number of notifications a post collects when it is saved with the
      statuses of `history` in turn, starting from `previous` (`None` for a post
      that does not exist yet). */
  function Pushes(p: Post, previous: Option<PostStatus>, history: seq<PostStatus>): nat
    decreases |history|
  {
    if history == [] then 0
    else
      var sent := AfterSavePost(p.(status := Some(history[0])), previous.Some?, previous);
      (if sent.Some? then 1 else 0) + Pushes(p, Some(history[0]), history[1..])
  }

  /** As long as a post never goes back to Pending it is announced at most once:
      when it is created active, or on its first save after Pending if that save
      activates it. Any later save sends nothing. */
  lemma {:induction false} AnnouncedAtMostOnce(p: Post, previous: Option<PostStatus>, history: seq<PostStatus>)
    requires forall i :: 0 <= i < |history| ==> history[i] != Pending
    ensures Pushes(p, previous, history) ==
              if p.isPushEnabled && |history| > 0 && history[0] == Active && (previous.None? || previous == Some(Pending))
              then 1 else 0
    decreases |history|
  {
    if history != [] {
      AnnouncedAtMostOnce(p, Some(history[0]), history[1..]);
    }
  }

  /** Every return to Pending followed by a new activation sends one more
      notification. */
  lemma ReapprovalAnnouncesAgain(p: Post)
    requires p.isPushEnabled
    ensures Pushes(p, None, [Pending, Active, Pending, Active]) == 2
  {
    assert [Pending, Active, Pending, Active][1..] == [Active, Pending, Active];
    assert [Active, Pending, Active][1..] == [Pending, Active];
    assert [Pending, Active][1..] == [Active];
  }
}

=== FILE: ratings.dfy ===
/** Reviews and the rating aggregates of a listing (cloud/review.js): who sees which
    reviews, what a review save accepts, and how `ratingCount`, `ratingTotal` and
    `ratingAvg` follow reviews being published, unpublished and deleted. */
module Ratings {
  import opened Common
  import opened Records

  // ----- beforeFind('Review') -----

  /** Anonymous and customer readers see Published reviews only. */
  predicate VisibleTo(caller: Caller, rv: Review) {
    !caller.Restricted() || rv.status == Published
  }

  /** A review query as the trigger narrows it. Queries cloud code runs without a
      session are anonymous, so they see Published reviews only. */
  function FindReviews(caller: Caller, rows: seq<Review>): (r: seq<Review>)
    ensures caller.Restricted() ==> forall rv :: rv in r <==> rv in rows && rv.status == Published
    ensures !caller.Restricted() ==> r == rows
    ensures forall rv :: rv in r <==> rv in rows && VisibleTo(caller, rv)
  {
    var r := Filter(rows, rv => VisibleTo(caller, rv));
    if caller.Restricted() then r
    else
      FilterKeepingAll(rows, rv => VisibleTo(caller, rv));
      r
  }

  // ----- beforeSave('Review') -----

  const ReviewsDisabled: Failure := Coded(5003, "Reviews disabled")
  const AlreadyReviewed: Failure := Coded(5000, "You already write a review for this place")
  const TooFewStars: Failure := Coded(5001, "You cannot give less than one star")
  const TooManyStars: Failure := Coded(5002, "You cannot give more than five stars")

  function ReviewSettings(config: Option<AppConfig>): Option<ReviewsConfig> {
    if config.Some? then config.value.reviews else None
  }

  predicate ReviewsOff(config: Option<AppConfig>) {
    ReviewSettings(config).Some? && ReviewSettings(config).value.disabled
  }

  predicate AutoPublish(config: Option<AppConfig>) {
    ReviewSettings(config).Some? && ReviewSettings(config).value.autoApprove
  }

  predicate MultiplePerUser(config: Option<AppConfig>) {
    ReviewSettings(config).Some? && ReviewSettings(config).value.multiplePerUser
  }

  /** The author a new review is stamped with: the session user, if any. */
  function AuthorOf(caller: Caller): Option<Id> {
    if caller.user.Some? then Some(caller.user.value.id) else None
  }

  /** What the duplicate check finds: its query runs without a session and so only
      sees Published reviews. */
  predicate HasPublishedReview(store: Store, author: Option<Id>, place: Id) {
    exists k :: k in store.reviews && store.reviews[k].author == author
                && store.reviews[k].place == place && store.reviews[k].status == Published
  }

  /** The checks a new review passes before its rating is looked at. */
  predicate AdmitsNewReview(caller: Caller, config: Option<AppConfig>, store: Store, place: Id) {
    !ReviewsOff(config) && (MultiplePerUser(config) || !HasPublishedReview(store, AuthorOf(caller), place))
  }

  /** `beforeSave('Review')`. An edit needs a session or the master key; a new
      review needs a session, because granting its author write access with no
      user throws before anything else is checked. A new review is stamped with its
      author and starts Pending, or Published when reviews are approved
      automatically; it is refused when reviews are off (5003) or when its author
      already has a review of the place (5000) and only one is allowed. Every save
      refuses a rating outside 1..5. */
  function SaveReview(caller: Caller, config: Option<AppConfig>, store: Store, rv: Review, existed: bool): (r: Result<Review>)
    ensures caller.Anonymous() ==> r == Err(NotAuthorized)
    ensures caller.master && caller.user.None? && !existed ==> r == Err(Crash)
    ensures caller.user.Some? && !existed && ReviewsOff(config) ==> r == Err(ReviewsDisabled)
    ensures (caller.user.Some? && !existed && !ReviewsOff(config) && !MultiplePerUser(config)
             && HasPublishedReview(store, AuthorOf(caller), rv.place)) ==> r == Err(AlreadyReviewed)
    ensures r.Ok? <==> !caller.Anonymous()
                       && (existed || (caller.user.Some? && AdmitsNewReview(caller, config, store, rv.place)))
                       && 1 <= rv.rating <= 5
    ensures r.Ok? && !existed ==> r.value.author.Some?
    ensures (!caller.Anonymous() && (existed || (caller.user.Some? && AdmitsNewReview(caller, config, store, rv.place)))) ==>
              (rv.rating < 1 ==> r == Err(TooFewStars)) && (rv.rating > 5 ==> r == Err(TooManyStars))
    ensures r.Ok? ==> 1 <= r.value.rating <= 5
    ensures r.Ok? && existed ==> r.value == rv
    ensures r.Ok? && !existed ==>
              && r.value == rv.(author := AuthorOf(caller), status := r.value.status)
              && (r.value.status == Published <==> AutoPublish(config))
              && (r.value.status != Published ==> r.value.status == ReviewPending)
  {
    if caller.Anonymous() then Err(NotAuthorized)
    else if !existed && caller.user.None? then Err(Crash)
    else
      var stamped :=
        if existed then Ok(rv)
        else if ReviewsOff(config) then Err(ReviewsDisabled)
        else
          var created := rv.(author := AuthorOf(caller), status := if AutoPublish(config) then Published else ReviewPending);
          if !MultiplePerUser(config) && HasPublishedReview(store, created.author, rv.place) then Err(AlreadyReviewed)
          else Ok(created);
      if stamped.Err? then stamped
      else if rv.rating < 1 then Err(TooFewStars)
      else if rv.rating > 5 then Err(TooManyStars)
      else stamped
  }

  // ----- Aggregates -----

  /** `ratingAvg` as the save trigger writes it: the rounded mean when both the
      total and the count are non-zero, else 0. */
  function GuardedAverage(total: int, count: int): (a: Num)
    ensures a.Finite?
    ensures total == 0 || count == 0 ==> a == Finite(0)
  {
    if total != 0 && count != 0 then RoundDiv(total, count) else Finite(0)
  }

  lemma GuardedAverageOfPositiveCount(total: int, count: int)
    requires count > 0
    ensures GuardedAverage(total, count) == Finite((2 * total + count) / (2 * count))
  {
    RoundDivMatchesIntegerRounding(total, count);
    if total == 0 {
      assert (2 * total + count) / (2 * count) == 0;
    }
  }

  /** A listing's average agrees with its count and total. */
  predicate AvgConsistent(p: Place) {
    p.ratingAvg == GuardedAverage(p.ratingTotal, p.ratingCount)
  }

  /** The listing with new aggregates and the average recomputed. */
  function WithAggregates(p: Place, count: int, total: int): (q: Place)
    ensures AvgConsistent(q) && q.ratingCount == count && q.ratingTotal == total
    ensures q == p.(ratingCount := count, ratingTotal := total, ratingAvg := q.ratingAvg)
  {
    p.(ratingCount := count, ratingTotal := total, ratingAvg := GuardedAverage(total, count))
  }

  /** `afterSave('Review')`. A review that becomes Published (created so, or its
      status changed to Published) adds one to the count and its rating to the
      total; a Published review moved to Pending or Banned takes them away again.
      Nothing else, a rating edit included, touches the listing; a missing listing
      makes the trigger give up. `before` is the status the review had before the
      save. */
  function AfterSaveReview(store: Store, rv: Review, existed: bool, before: ReviewStatus): (s: Store)
    ensures s.packages == store.packages && s.entitlements == store.entitlements && s.reviews == store.reviews
    ensures s.places.Keys == store.places.Keys
    ensures forall k :: k in store.places && k != rv.place ==> s.places[k] == store.places[k]
    ensures rv.place in store.places ==>
              var p := store.places[rv.place];
              var q := s.places[rv.place];
              if rv.status == Published && (!existed || before != Published) then
                q == WithAggregates(p, p.ratingCount + 1, p.ratingTotal + rv.rating)
              else if existed && before == Published && rv.status != Published then
                q == WithAggregates(p, p.ratingCount - 1, p.ratingTotal - rv.rating)
              else q == p
  {
    if rv.place !in store.places then store
    else
      var p := store.places[rv.place];
      if rv.status == Published && (!existed || before != Published) then
        store.(places := store.places[rv.place := WithAggregates(p, p.ratingCount + 1, p.ratingTotal + rv.rating)])
      else if existed && before == Published && rv.status != Published then
        store.(places := store.places[rv.place := WithAggregates(p, p.ratingCount - 1, p.ratingTotal - rv.rating)])
      else store
  }

  /** A review save end to end: the trigger's checks, the write, then the aggregates. */
  function PutReview(caller: Caller, config: Option<AppConfig>, store: Store, rv: Review): (r: Reply<Review>)
    ensures r.result.Err? ==> r.store == store
    ensures r.result == SaveReview(caller, config, store, rv, rv.id in store.reviews)
    ensures r.result.Ok? ==> rv.id in r.store.reviews && r.store.reviews == store.reviews[rv.id := r.result.value]
    ensures r.store.places.Keys == store.places.Keys
    ensures r.result.Ok? ==> forall k :: k in store.places && k != rv.place ==> r.store.places[k] == store.places[k]
  {
    var existed := rv.id in store.reviews;
    match SaveReview(caller, config, store, rv, existed)
    case Err(f) => Reply(store, Err(f))
    case Ok(saved) =>
      var before := if existed then store.reviews[rv.id].status else ReviewPending;
      Reply(AfterSaveReview(store.(reviews := store.reviews[rv.id := saved]), saved, existed, before), Ok(saved))
  }

  /** The master key alone cannot create a review: the trigger throws while
      granting write access to the missing user, and nothing is stored. */
  lemma MasterKeyAloneCannotCreateReview(config: Option<AppConfig>, store: Store, rv: Review)
    requires rv.id !in store.reviews
    ensures PutReview(Caller(None, true), config, store, rv) == Reply(store, Err(Crash))
  {
  }

  /** `afterDelete('Review')` as written: deleting a Published review takes it out
      of the aggregates and sets the average to `Math.round(total / count)` with no
      guard, so deleting the last one stores NaN. */
  function DeleteReview(store: Store, id: Id): (r: Reply<()>)
    ensures id !in store.reviews ==> r == Reply(store, Err(ObjectNotFound))
    ensures id in store.reviews ==> r.result.Ok? && r.store.reviews == store.reviews - {id}
    ensures r.store.places.Keys == store.places.Keys
    ensures r.result.Ok? ==> forall k :: k in store.places && k != store.reviews[id].place ==> r.store.places[k] == store.places[k]
    ensures r.result.Ok? && store.reviews[id].status == Published && store.reviews[id].place in store.places ==>
              var rv := store.reviews[id];
              var p := store.places[rv.place];
              r.store.places[rv.place] == p.(ratingCount := p.ratingCount - 1, ratingTotal := p.ratingTotal - rv.rating,
                                             ratingAvg := RoundDiv(p.ratingTotal - rv.rating, p.ratingCount - 1))
    ensures r.result.Ok? && (store.reviews[id].status != Published || store.reviews[id].place !in store.places) ==>
              r.store.places == store.places
  {
    if id !in store.reviews then Reply(store, Err(ObjectNotFound))
    else
      var rv := store.reviews[id];
      var reviews := store.reviews - {id};
      if rv.status == Published && rv.place in store.places then
        var p := store.places[rv.place];
        var q := p.(ratingCount := p.ratingCount - 1, ratingTotal := p.ratingTotal - rv.rating,
                    ratingAvg := RoundDiv(p.ratingTotal - rv.rating, p.ratingCount - 1));
        Reply(store.(reviews := reviews, places := store.places[rv.place := q]), Ok(()))
      else
        Reply(store.(reviews := reviews), Ok(()))
  }

  /** Creating or updating a review keeps a listing's average consistent with its
      aggregates. */
  lemma PutReviewKeepsAverage(caller: Caller, config: Option<AppConfig>, store: Store, rv: Review, place: Id)
    requires place in store.places && AvgConsistent(store.places[place])
    ensures place in PutReview(caller, config, store, rv).store.places
    ensures AvgConsistent(PutReview(caller, config, store, rv).store.places[place])
  {
  }

  /** Deleting the only Published review of a listing leaves it with NaN as its
      average, where the save trigger would have written 0. */
  lemma DeletingLastReviewStoresNaN(store: Store, id: Id)
    requires id in store.reviews && store.reviews[id].status == Published
    requires var rv := store.reviews[id];
             rv.place in store.places && store.places[rv.place].ratingCount == 1
             && store.places[rv.place].ratingTotal == rv.rating
    ensures var p := DeleteReview(store, id).store.places[store.reviews[id].place];
            p.ratingAvg == NaN && !AvgConsistent(p)
  {
  }

  /** `afterDelete('Review')` with the same guard as the save trigger. */
  function DeleteReviewGuarded(store: Store, id: Id): (r: Reply<()>)
    ensures id !in store.reviews ==> r == Reply(store, Err(ObjectNotFound))
    ensures id in store.reviews ==> r.result.Ok? && r.store.reviews == store.reviews - {id}
    ensures r.store.places.Keys == store.places.Keys
    ensures forall k :: k in store.places && AvgConsistent(store.places[k]) ==> AvgConsistent(r.store.places[k])
    ensures forall k :: k in r.store.places ==> r.store.places[k].ratingAvg.Finite? || r.store.places[k] == store.places[k]
  {
    if id !in store.reviews then Reply(store, Err(ObjectNotFound))
    else
      var rv := store.reviews[id];
      var reviews := store.reviews - {id};
      if rv.status == Published && rv.place in store.places then
        var p := store.places[rv.place];
        Reply(store.(reviews := reviews,
                     places := store.places[rv.place := WithAggregates(p, p.ratingCount - 1, p.ratingTotal - rv.rating)]), Ok(()))
      else
        Reply(store.(reviews := reviews), Ok(()))
  }

  /** Outside the last-review case the guarded and the unguarded trigger agree. */
  lemma GuardedDeleteAgreesWhileReviewsRemain(store: Store, id: Id)
    requires id in store.reviews
    requires var rv := store.reviews[id];
             rv.place in store.places ==>
               store.places[rv.place].ratingCount - 1 != 0 && store.places[rv.place].ratingTotal - rv.rating != 0
    ensures DeleteReviewGuarded(store, id) == DeleteReview(store, id)
  {
  }

  // ----- The aggregates count the Published reviews -----

  datatype Measure = Count | Total

  /** What one review contributes to a listing's count or total. */
  function Weight(rv: Review, place: Id, m: Measure): int {
    if rv.place == place && rv.status == Published then (if m == Count then 1 else rv.rating) else 0
  }

  /** The sum of the contributions of the reviews stored under `keys`. */
  ghost function TallyOver(reviews: map<Id, Review>, keys: set<Id>, place: Id, m: Measure): int
    requires keys <= reviews.Keys
    decreases keys
  {
    if keys == {} then 0
    else
      var k :| k in keys;
      Weight(reviews[k], place, m) + TallyOver(reviews, keys - {k}, place, m)
  }

  /** The sum of the contributions of all stored reviews. */
  ghost function Tally(reviews: map<Id, Review>, place: Id, m: Measure): int {
    TallyOver(reviews, reviews.Keys, place, m)
  }

  /** The sum can be split at any key, not only the one its definition picks. */
  lemma {:induction false} TallyOverWithout(reviews: map<Id, Review>, keys: set<Id>, place: Id, m: Measure, k: Id)
    requires keys <= reviews.Keys && k in keys
    ensures TallyOver(reviews, keys, place, m) == Weight(reviews[k], place, m) + TallyOver(reviews, keys - {k}, place, m)
    decreases keys
  {
    var j :| j in keys && TallyOver(reviews, keys, place, m) == Weight(reviews[j], place, m) + TallyOver(reviews, keys - {j}, place, m);
    if j != k {
      TallyOverWithout(reviews, keys - {j}, place, m, k);
      TallyOverWithout(reviews, keys - {k}, place, m, j);
      assert keys - {j} - {k} == keys - {k} - {j};
    }
  }

  /** The sum only depends on the reviews under the keys it adds up. */
  lemma {:induction false} TallyOverFrame(a: map<Id, Review>, b: map<Id, Review>, keys: set<Id>, place: Id, m: Measure)
    requires keys <= a.Keys && keys <= b.Keys
    requires forall k :: k in keys ==> a[k] == b[k]
    ensures TallyOver(a, keys, place, m) == TallyOver(b, keys, place, m)
    decreases keys
  {
    if keys != {} {
      var k :| k in keys;
      TallyOverWithout(a, keys, place, m, k);
      TallyOverWithout(b, keys, place, m, k);
      TallyOverFrame(a, b, keys - {k}, place, m);
    }
  }

  /** Removing one stored review takes exactly its contribution out of the tally. */
  lemma TallyWithout(reviews: map<Id, Review>, place: Id, m: Measure, k: Id)
    requires k in reviews
    ensures Tally(reviews, place, m) == Weight(reviews[k], place, m) + Tally(reviews - {k}, place, m)
  {
    var rest := reviews - {k};
    assert rest.Keys == reviews.Keys - {k};
    TallyOverWithout(reviews, reviews.Keys, place, m, k);
    TallyOverFrame(reviews, rest, rest.Keys, place, m);
  }

  /** Writing one review changes the tally by the difference of its contributions. */
  lemma TallyUpdate(reviews: map<Id, Review>, place: Id, m: Measure, k: Id, rv: Review)
    ensures Tally(reviews[k := rv], place, m) ==
              Tally(reviews, place, m) - (if k in reviews then Weight(reviews[k], place, m) else 0) + Weight(rv, place, m)
  {
    var updated := reviews[k := rv];
    var others := reviews.Keys - {k};
    assert updated.Keys - {k} == others;
    TallyOverWithout(updated, updated.Keys, place, m, k);
    TallyOverFrame(updated, reviews, others, place, m);
    if k in reviews {
      TallyOverWithout(reviews, reviews.Keys, place, m, k);
    } else {
      assert others == reviews.Keys;
    }
  }

  /** The listing's count and total are those of its Published reviews. */
  ghost predicate Tallied(store: Store, place: Id) {
    place in store.places
    && store.places[place].ratingCount == Tally(store.reviews, place, Count)
    && store.places[place].ratingTotal == Tally(store.reviews, place, Total)
  }

  /** A save that does not change a stored review's listing or rating keeps every
      listing's aggregates equal to the tally of its Published reviews. */
  lemma PutReviewKeepsTally(caller: Caller, config: Option<AppConfig>, store: Store, rv: Review, place: Id)
    requires Tallied(store, place)
    requires rv.id in store.reviews ==> store.reviews[rv.id].place == rv.place && store.reviews[rv.id].rating == rv.rating
    ensures Tallied(PutReview(caller, config, store, rv).store, place)
  {
    var r := PutReview(caller, config, store, rv);
    if r.result.Ok? {
      var saved := r.result.value;
      TallyUpdate(store.reviews, place, Count, rv.id, saved);
      TallyUpdate(store.reviews, place, Total, rv.id, saved);
    }
  }

  /** Deleting a review keeps the count and total equal to the tally. */
  lemma DeleteReviewKeepsTally(store: Store, id: Id, place: Id)
    requires Tallied(store, place)
    ensures Tallied(DeleteReview(store, id).store, place)
  {
    if id in store.reviews {
      TallyWithout(store.reviews, place, Count, id);
      TallyWithout(store.reviews, place, Total, id);
    }
  }

  /** Editing the rating of a Published review leaves the aggregates alone, so they
      stop matching the Published reviews. */
  lemma RatingEditLeavesAggregates(caller: Caller, config: Option<AppConfig>, store: Store, rv: Review)
    requires !caller.Anonymous() && rv.id in store.reviews && rv.place in store.places
    requires store.reviews[rv.id].status == Published && rv.status == Published
    requires store.reviews[rv.id].place == rv.place && 1 <= rv.rating <= 5 && rv.rating != store.reviews[rv.id].rating
    requires Tallied(store, rv.place)
    ensures PutReview(caller, config, store, rv).store.places == store.places
    ensures !Tallied(PutReview(caller, config, store, rv).store, rv.place)
  {
    TallyUpdate(store.reviews, rv.place, Total, rv.id, rv);
  }

  // ----- Finding: the duplicate check only sees Published reviews -----

  /** With one review per user, a user whose first review still awaits approval can
      write a second one. */
  lemma PendingReviewDoesNotBlockSecond(caller: Caller, config: Option<AppConfig>, store: Store, first: Id, rv: Review)
    requires caller.user.Some? && !ReviewsOff(config) && !MultiplePerUser(config) && !AutoPublish(config)
    requires forall k :: k in store.reviews ==> store.reviews[k].status != Published
    requires first in store.reviews && store.reviews[first].author == AuthorOf(caller)
    requires store.reviews[first].place == rv.place && rv.id !in store.reviews && 1 <= rv.rating <= 5
    ensures SaveReview(caller, config, store, rv, false).Ok?
  {
  }

  /** Any review of the place by the author, whatever its status. */
  predicate HasAnyReview(store: Store, author: Option<Id>, place: Id) {
    exists k :: k in store.reviews && store.reviews[k].author == author && store.reviews[k].place == place
  }

  /** The duplicate check as evidently intended: a review of any status counts. */
  function SaveReviewChecked(caller: Caller, config: Option<AppConfig>, store: Store, rv: Review, existed: bool): (r: Result<Review>)
    ensures r.Ok? && !existed && !MultiplePerUser(config) ==> !HasAnyReview(store, AuthorOf(caller), rv.place)
    ensures r.Ok? ==> r == SaveReview(caller, config, store, rv, existed)
  {
    if caller.user.Some? && !existed && !ReviewsOff(config) && !MultiplePerUser(config)
       && HasAnyReview(store, AuthorOf(caller), rv.place)
    then Err(AlreadyReviewed)
    else SaveReview(caller, config, store, rv, existed)
  }

  /** With the intended check, one review per user and place stays one. */
  lemma CheckedSaveKeepsOneReviewPerAuthor(caller: Caller, config: Option<AppConfig>, store: Store, rv: Review)
    requires !MultiplePerUser(config) && rv.id !in store.reviews
    requires forall i, j :: i in store.reviews && j in store.reviews && i != j ==>
               !(store.reviews[i].author == store.reviews[j].author && store.reviews[i].place == store.reviews[j].place)
    requires SaveReviewChecked(caller, config, store, rv, false).Ok?
    ensures var reviews := store.reviews[rv.id := SaveReviewChecked(caller, config, store, rv, false).value];
            forall i, j :: i in reviews && j in reviews && i != j ==>
              !(reviews[i].author == reviews[j].author && reviews[i].place == reviews[j].place)
  {
  }
}

=== FILE: records.dfy ===
/** The records of the directory and the store that holds them: catalog packages,
    the entitlements users buy from them, listings ("places"), reviews, and the
    application configuration. Descriptive fields a rule never reads (address,
    phone, images, social links, ...) are not carried. */
module Records {
  import opened Common

  // ----- Catalog -----

  datatype PackageType = PaidListing | PromoteListing | Untyped
  datatype PackageStatus = Active | Inactive

  /** A catalog package. `listingLimit` and `listingDuration` are optional numbers
      whose absence and 0 read alike (the code tests them for truthiness). */
  datatype Package = Package(
    id: Id,
    name: string,
    canonical: string,
    price: real,
    salePrice: Option<real>,
    finalPrice: real,
    listingLimit: Option<int>,
    listingDuration: Option<int>,
    disableMultiplePurchases: bool,
    autoApproveListing: bool,
    markListingAsFeatured: bool,
    kind: PackageType,
    status: PackageStatus,
    deleted: bool)

  // ----- Ledger -----

  datatype PaymentStatus = Unpaid | Paid

  /** One purchase of a package by a user: it embeds a snapshot of the package as it
      was when bought, counts the listings it has funded, and records the charge
      once the payment has gone through. */
  datatype UserPackage = UserPackage(
    id: Id,
    user: Id,
    pkg: Package,
    status: PaymentStatus,
    usage: int,
    isLimitReached: bool,
    charge: Option<string>,
    deleted: bool)

  // ----- Listings -----

  datatype PlaceStatus = Pending | PendingApproval | Approved | Rejected | Expired

  /** A date field of a Parse object: never set, explicitly null, or a time. */
  datatype Stamp = Unset | Null | At(time: int)

  datatype Point = Point(lat: real, lng: real)

  /** The coordinates `Parse.GeoPoint` accepts: latitude within ±90 and longitude
      within ±180 degrees. Its constructor throws for any other point. */
  predicate OnGlobe(p: Point) {
    -90.0 <= p.lat <= 90.0 && -180.0 <= p.lng <= 180.0
  }

  datatype Place = Place(
    id: Id,
    owner: Id,
    title: string,
    canonical: string,
    categories: seq<Id>,
    tags: seq<string>,
    location: Point,
    status: PlaceStatus,
    isFeatured: bool,
    expiresAt: Stamp,
    featuredExpiresAt: Stamp,
    ratingCount: int,
    ratingTotal: int,
    ratingAvg: Num,
    likes: set<Id>,
    likeCount: int,
    userPackage: Option<Id>,
    createdAt: int,
    deleted: bool)

  // ----- Reviews -----

  datatype ReviewStatus = ReviewPending | Published | Banned

  datatype Review = Review(id: Id, place: Id, author: Option<Id>, rating: int, status: ReviewStatus)

  // ----- Configuration -----

  datatype PlacesConfig = PlacesConfig(enablePaidListings: bool, autoApprove: bool, searchRadius: real)
  datatype ReviewsConfig = ReviewsConfig(disabled: bool, autoApprove: bool, multiplePerUser: bool)

  /** The single `AppConfig` row; each section may be missing. */
  datatype AppConfig = AppConfig(places: Option<PlacesConfig>, reviews: Option<ReviewsConfig>)

  /** The places section of the configuration row, when both exist. */
  function PlacesSettings(config: Option<AppConfig>): Option<PlacesConfig> {
    if config.Some? then config.value.places else None
  }

  /** `config.places.enablePaidListings`, false when anything on the way is missing. */
  predicate PaidListingsEnabled(config: Option<AppConfig>) {
    PlacesSettings(config).Some? && PlacesSettings(config).value.enablePaidListings
  }

  // ----- Store -----

  datatype Store = Store(
    packages: map<Id, Package>,
    entitlements: map<Id, UserPackage>,
    places: map<Id, Place>,
    reviews: map<Id, Review>)

  /** The result of a request that may have written to the store before failing. */
  datatype Reply<+T> = Reply(store: Store, result: Result<T>)
}

=== FILE: shuffle.dfy ===
/** The shuffle of the listing search and the home page: every element is paired
    with a random key, the pairs are sorted by key with a stable sort, and the keys
    are dropped. Randomness is the parameter `draw`: the key of the i-th element. */
module Shuffle {

  predicate SortedByKey<T>(s: seq<(real, T)>) {
    forall i, j :: 0 <= i < j < |s| ==> s[i].0 <= s[j].0
  }

  function Values<T>(s: seq<(real, T)>): (r: seq<T>)
    ensures |r| == |s|
    ensures forall i :: 0 <= i < |s| ==> r[i] == s[i].1
  {
    if s == [] then [] else [s[0].1] + Values(s[1..])
  }

  /** Puts `p` in front of the first pair whose key is not smaller, so that pairs
      with equal keys keep their order. */
  function Insert<T>(p: (real, T), s: seq<(real, T)>): (r: seq<(real, T)>)
    ensures |r| == |s| + 1
  {
    if s == [] || p.0 <= s[0].0 then [p] + s else [s[0]] + Insert(p, s[1..])
  }

  /** Inserting adds exactly the inserted element. */
  lemma {:induction false} InsertAddsOne<T>(p: (real, T), s: seq<(real, T)>)
    ensures multiset(Values(Insert(p, s))) == multiset(Values(s)) + multiset{p.1}
  {
    if s == [] || p.0 <= s[0].0 {
      ValuesCons(p, s);
    } else {
      var rest := Insert(p, s[1..]);
      assert Insert(p, s) == [s[0]] + rest;
      assert s == [s[0]] + s[1..];
      ValuesCons(s[0], rest);
      ValuesCons(s[0], s[1..]);
      InsertAddsOne(p, s[1..]);
      var a := Values(rest);
      var b := Values(s[1..]);
      assert multiset([s[0].1] + a) == multiset{s[0].1} + multiset(a);
      assert multiset([s[0].1] + b) == multiset{s[0].1} + multiset(b);
    }
  }

  lemma ValuesCons<T>(x: (real, T), s: seq<(real, T)>)
    ensures Values([x] + s) == [x.1] + Values(s)
  {
    assert ([x] + s)[1..] == s;
  }

  lemma {:induction false} InsertKeepsLowerBound<T>(p: (real, T), s: seq<(real, T)>, k: real)
    requires k <= p.0
    requires forall i :: 0 <= i < |s| ==> k <= s[i].0
    ensures forall i :: 0 <= i < |Insert(p, s)| ==> k <= Insert(p, s)[i].0
  {
    if s != [] && s[0].0 < p.0 {
      InsertKeepsLowerBound(p, s[1..], k);
    }
  }

  lemma {:induction false} InsertKeepsOrder<T>(p: (real, T), s: seq<(real, T)>)
    requires SortedByKey(s)
    ensures SortedByKey(Insert(p, s))
  {
    if s != [] && s[0].0 < p.0 {
      var t := Insert(p, s[1..]);
      assert SortedByKey(s[1..]);
      InsertKeepsOrder(p, s[1..]);
      assert forall i :: 0 <= i < |s[1..]| ==> s[0].0 <= s[1..][i].0;
      InsertKeepsLowerBound(p, s[1..], s[0].0);
      var r := [s[0]] + t;
      assert r == Insert(p, s);
      forall i, j | 0 <= i < j < |r|
        ensures r[i].0 <= r[j].0
      {
        assert r[j] == t[j - 1];
        if i > 0 {
          assert r[i] == t[i - 1];
        }
      }
    } else {
      var r := [p] + s;
      assert r == Insert(p, s);
      forall i, j | 0 <= i < j < |r|
        ensures r[i].0 <= r[j].0
      {
        assert r[j] == s[j - 1];
        if i > 0 {
          assert r[i] == s[i - 1];
        }
      }
    }
  }

  function SortByKey<T>(s: seq<(real, T)>): (r: seq<(real, T)>)
    ensures |r| == |s|
    ensures SortedByKey(r)
    ensures multiset(Values(r)) == multiset(Values(s))
  {
    if s == [] then []
    else
      assert Values(s) == [s[0].1] + Values(s[1..]);
      InsertKeepsOrder(s[0], SortByKey(s[1..]));
      InsertAddsOne(s[0], SortByKey(s[1..]));
      Insert(s[0], SortByKey(s[1..]))
  }

  function Tag<T>(arr: seq<T>, draw: nat -> real): (s: seq<(real, T)>)
    ensures Values(s) == arr
  {
    seq(|arr|, i requires 0 <= i < |arr| => (draw(i), arr[i]))
  }

  /** The shuffle of the listing searches: each element is paired with a random
      key, the pairs are sorted by key, and the keys are dropped again. */
  function Shuffle<T>(arr: seq<T>, draw: nat -> real): (r: seq<T>)
    ensures |r| == |arr|
    ensures multiset(r) == multiset(arr)
  {
    Values(SortByKey(Tag(arr, draw)))
  }

  /** Whatever keys are drawn, the shuffle returns the same elements, each as
      often as before; so two runs agree as unordered collections. */
  lemma ShuffleRunsAgreeAsMultisets<T>(arr: seq<T>, draw1: nat -> real, draw2: nat -> real)
    ensures multiset(Shuffle(arr, draw1)) == multiset(Shuffle(arr, draw2))
    ensures forall x :: x in Shuffle(arr, draw1) <==> x in arr
  {
    assert forall x :: x in Shuffle(arr, draw1) <==> x in multiset(Shuffle(arr, draw1));
  }
}

=== FILE: users.dfy ===
/** User accounts (cloud/user.js): the save trigger's defaults and search key,
    the administrators' user management functions, and the dashboard's login gate. */
module Users {
  import opened Common
  import Canonical
  import Paging

  /** The fields of a user the model reads or writes; missing ones are `None`.
      `inAdminRole` is membership of the Admin role, kept apart from `kind`
      (the `type` field). */
  datatype User = User(
    id: Id,
    name: Option<string>,
    username: Option<string>,
    email: Option<string>,
    kind: Option<UserType>,
    canonical: Option<string>,
    inAdminRole: bool)

  /** How a new user signs up. For a social login the profile the provider's API
      returns is given here: the name and, for Facebook, the account id. */
  datatype SignUp = WithPassword | Facebook(profileName: string, profileId: string) | Google(profileName: string) | OtherProvider

  /** JavaScript string concatenation of a possibly missing value. */
  function JsText(s: Option<string>): string {
    if s.Some? then s.value else "undefined"
  }

  /** `haystack.includes(needle)`, the `contains` query constraint. */
  predicate Contains(haystack: string, needle: string) {
    exists i :: 0 <= i <= |haystack| && needle <= haystack[i..]
  }

  /** The search key of a user who signs in with a password: name, user name and,
      if present, e-mail, separated by spaces and lower-cased. */
  function PasswordUserKey(u: User): string {
    Canonical.Lower(JsText(u.name) + " " + JsText(u.username) + (if TruthyString(u.email) then " " + u.email.value else ""))
  }

  /** `beforeSave(Parse.User)`. A new user without a type becomes a customer. A new
      user signing up through Facebook or Google takes name (and, for Facebook, user
      name) from the provider's profile, and its search key is the lower-cased name;
      a new user through another provider is left as it is. Every other save
      recomputes the search key from name, user name and e-mail. */
  function BeforeSaveUser(u: User, existed: bool, how: SignUp): (r: User)
    ensures r.id == u.id && r.email == u.email && r.inAdminRole == u.inAdminRole
    ensures !existed ==> r.kind == (if u.kind.Some? then u.kind else Some(Customer))
    ensures existed ==> r.kind == u.kind
    ensures !existed && how.Facebook? ==>
              r.name == Some(how.profileName) && r.username == Some(how.profileId) &&
              r.canonical == Some(Canonical.Lower(how.profileName))
    ensures !existed && how.Google? ==>
              r.name == Some(how.profileName) && r.username == u.username &&
              r.canonical == Some(Canonical.Lower(how.profileName))
    ensures !existed && how == OtherProvider ==> r == u.(kind := r.kind)
    ensures existed || how == WithPassword ==> r == u.(kind := r.kind, canonical := Some(PasswordUserKey(u)))
  {
    var typed := if !existed then u.(kind := if u.kind.Some? then u.kind else Some(Customer)) else u;
    if !existed && how != WithPassword then
      match how
      case Facebook(n, fid) => typed.(name := Some(n), username := Some(fid), canonical := Some(Canonical.Lower(n)))
      case Google(n) => typed.(name := Some(n), canonical := Some(Canonical.Lower(n)))
      case _ => typed
    else
      typed.(canonical := Some(PasswordUserKey(u)))
  }

  /** A substring of the lower-cased name, user name or e-mail of a user who signs
      in with a password finds that user by its search key. */
  lemma SearchKeyHoldsEachPart(u: User, existed: bool, part: string)
    requires existed
    requires (u.name.Some? && part == u.name.value) || (u.username.Some? && part == u.username.value)
             || (TruthyString(u.email) && part == u.email.value)
    ensures BeforeSaveUser(u, existed, WithPassword).canonical.Some?
    ensures Contains(BeforeSaveUser(u, existed, WithPassword).canonical.value, Canonical.Lower(part))
  {
    var a := JsText(u.name);
    var b := JsText(u.username);
    var c := if TruthyString(u.email) then " " + u.email.value else "";
    if u.name.Some? && part == u.name.value {
      KeyHoldsPart(a + " " + b + c, "", part, " " + b + c);
    } else if u.username.Some? && part == u.username.value {
      KeyHoldsPart(a + " " + b + c, a + " ", part, c);
    } else {
      KeyHoldsPart(a + " " + b + c, a + " " + b + " ", part, "");
    }
  }

  lemma KeyHoldsPart(whole: string, pre: string, part: string, post: string)
    requires whole == pre + part + post
    ensures Contains(Canonical.Lower(whole), Canonical.Lower(part))
  {
    assert whole == pre + (part + post);
    Canonical.LowerAppend(pre, part + post);
    Canonical.LowerAppend(part, post);
    var l, m, r := Canonical.Lower(pre), Canonical.Lower(part), Canonical.Lower(post);
    assert Canonical.Lower(whole) == l + (m + r);
    ContainsMiddle(l, m, r);
  }

  /** A string occurs in any string that has it in the middle. */
  lemma ContainsMiddle(pre: string, x: string, post: string)
    ensures Contains(pre + (x + post), x)
  {
    assert (pre + (x + post))[|pre|..] == x + post;
  }

  /** Parameters of `getUsers`; missing ones are `None`. */
  datatype UserQuery = UserQuery(
    canonical: Option<string>,
    kind: Option<UserType>,
    exclude: Option<seq<Id>>,
    limit: Option<nat>,
    page: Option<int>)

  predicate Matches(q: UserQuery, u: User) {
    && (TruthyString(q.canonical) ==> u.canonical.Some? && Contains(u.canonical.value, q.canonical.value))
    && (q.kind.Some? ==> u.kind == q.kind)
    && (q.exclude.Some? ==> u.id !in q.exclude.value)
  }

  /** The users matching the filters, in the store's order. */
  function Matching(q: UserQuery, users: seq<User>): (r: seq<User>)
    ensures forall u :: u in r <==> u in users && Matches(q, u)
  {
    Filter(users, u => Matches(q, u))
  }

  /** The 1-based skip is negative exactly for a page below 1 with a positive limit. */
  lemma NegativeSkip(page: int, limit: int)
    requires limit >= 0
    ensures page * limit - limit < 0 <==> limit > 0 && page < 1
  {
    assert page * limit - limit == (page - 1) * limit;
    if limit > 0 && page < 1 {
      assert (1 - page) * limit >= limit;
    }
  }

  lemma WindowKeepsMatches(q: UserQuery, users: seq<User>, skip: nat, limit: nat)
    ensures forall u :: u in Paging.Window(Matching(q, users), skip, limit) ==> u in users && Matches(q, u)
  {
    var matching := Matching(q, users);
    var w := Paging.Window(matching, skip, limit);
    forall u | u in w ensures u in matching {
      var i :| 0 <= i < |w| && w[i] == u;
      assert u == matching[skip + i];
    }
  }

  /** One page of users and the number of users matching the filters. */
  datatype UserPage = UserPage(users: seq<User>, total: nat)

  /** `getUsers`, for members of the Admin role. `users` are the stored users in
      the order the query sorts them. The limit and the 1-based page are applied
      unguarded: a missing limit, or a page below 1 with a positive limit (a
      negative skip), makes the query builder throw. A missing page makes the skip
      NaN, which the builder accepts and never sends, so the first page comes
      back. The total counts every matching user. */
  function GetUsers(caller: Caller, q: UserQuery, users: seq<User>): (r: Result<UserPage>)
    ensures r == Err(NotAuthorized) <==> !caller.IsAdmin()
    ensures r == Err(Crash) <==>
              caller.IsAdmin() && (q.limit.None? || (q.page.Some? && q.limit.value > 0 && q.page.value < 1))
    ensures r.Ok? ==> r.value.total == |Matching(q, users)|
    ensures r.Ok? ==> |r.value.users| <= q.limit.value
    ensures r.Ok? ==> forall u :: u in r.value.users ==> u in users && Matches(q, u)
    ensures r.Ok? && q.page.None? ==> r.value.users == Paging.Window(Matching(q, users), 0, q.limit.value)
    ensures r.Ok? && q.page.Some? && q.limit.value > 0 ==>
              r.value.users == Paging.Window(Matching(q, users), (q.page.value - 1) * q.limit.value, q.limit.value)
  {
    if !caller.IsAdmin() then Err(NotAuthorized)
    else if q.limit.None? then Err(Crash)
    else if q.page.None? then Ok(PageAt(q, users, 0, q.limit.value))
    else
      var skip := q.page.value * q.limit.value - q.limit.value;
      NegativeSkip(q.page.value, q.limit.value);
      if skip < 0 then Err(Crash)
      else
        assert skip == (q.page.value - 1) * q.limit.value;
        Ok(PageAt(q, users, skip, q.limit.value))
  }

  /** Leaving the page out is asking for page 1. */
  lemma OmittedPageIsFirstPage(caller: Caller, q: UserQuery, users: seq<User>)
    requires q.page.None?
    ensures GetUsers(caller, q, users) == GetUsers(caller, q.(page := Some(1)), users)
  {
    var p := q.(page := Some(1));
    FilterAgrees(users, u => Matches(p, u), u => Matches(q, u));
  }

  /** The window of the matching users starting at `skip`, with their total. */
  function PageAt(q: UserQuery, users: seq<User>, skip: nat, limit: nat): (r: UserPage)
    ensures r.total == |Matching(q, users)| && |r.users| <= limit
    ensures forall u :: u in r.users ==> u in users && Matches(q, u)
    ensures r.users == Paging.Window(Matching(q, users), skip, limit)
  {
    WindowKeepsMatches(q, users, skip, limit);
    UserPage(Paging.Window(Matching(q, users), skip, limit), |Matching(q, users)|)
  }

  /** An excluded user is never listed, whatever the other parameters. */
  lemma ExcludedUsersAreNeverListed(caller: Caller, q: UserQuery, users: seq<User>, id: Id)
    requires q.exclude.Some? && id in q.exclude.value
    requires GetUsers(caller, q, users).Ok?
    ensures forall u :: u in GetUsers(caller, q, users).value.users ==> u.id != id
  {
  }

  /** Parameters of `createUser`; missing ones are `None`. */
  datatype NewUser = NewUser(name: Option<string>, username: Option<string>, email: Option<string>,
                             password: Option<string>, kind: Option<UserType>)

  /** The sign-up rejections: the client library refuses an empty user name or
      password before sending anything (code -1); the store refuses a user name or
      e-mail already taken (202, 203). */
  const UsernameMissing: Failure := Coded(-1, "Cannot sign up user with an empty username.")
  const PasswordMissing: Failure := Coded(-1, "Cannot sign up user with an empty password.")
  const UsernameTaken: Failure := Coded(202, "Account already exists for this username.")
  const EmailTaken: Failure := Coded(203, "Account already exists for this email address.")

  /** `createUser`, for members of the Admin role: signs up a user whose type
      defaults to admin, runs the save trigger on it, and adds it to the Admin role.
      The result is the stored user; the directory afterwards maps `newId` to it. */
  function CreateUser(caller: Caller, users: map<Id, User>, params: NewUser, newId: Id): (r: Result<User>)
    requires newId !in users
    ensures r == Err(NotAuthorized) <==> !caller.IsAdmin()
    ensures r == Err(UsernameMissing) <==> caller.IsAdmin() && !TruthyString(params.username)
    ensures r == Err(PasswordMissing) <==>
              caller.IsAdmin() && TruthyString(params.username) && !TruthyString(params.password)
    ensures r == Err(UsernameTaken) <==>
              && caller.IsAdmin() && TruthyString(params.username) && TruthyString(params.password)
              && exists k :: k in users && users[k].username == params.username
    ensures r == Err(EmailTaken) <==>
              && caller.IsAdmin() && TruthyString(params.username) && TruthyString(params.password)
              && (forall k :: k in users ==> users[k].username != params.username)
              && TruthyString(params.email) && exists k :: k in users && users[k].email == params.email
    ensures r.Ok? <==>
              && caller.IsAdmin() && TruthyString(params.username) && TruthyString(params.password)
              && (forall k :: k in users ==> users[k].username != params.username)
              && (TruthyString(params.email) ==> forall k :: k in users ==> users[k].email != params.email)
    ensures r.Ok? ==>
              && r.value.id == newId && r.value.inAdminRole
              && r.value.kind == (if params.kind.Some? then params.kind else Some(Admin))
              && r.value.username == params.username && r.value.name == params.name
              && r.value.canonical == Some(PasswordUserKey(r.value))
  {
    if !caller.IsAdmin() then Err(NotAuthorized)
    else if !TruthyString(params.username) then Err(UsernameMissing)
    else if !TruthyString(params.password) then Err(PasswordMissing)
    else if exists k :: k in users && users[k].username == params.username then Err(UsernameTaken)
    else if TruthyString(params.email) && exists k :: k in users && users[k].email == params.email then Err(EmailTaken)
    else
      var email := if TruthyString(params.email) then params.email else None;
      var draft := User(newId, params.name, params.username, email,
                        if params.kind.Some? then params.kind else Some(Admin), None, false);
      var saved := BeforeSaveUser(draft, false, WithPassword);
      Ok(saved.(inAdminRole := true))
  }

  /** `destroyUser`, for members of the Admin role: removes the user with the
      given id, unless it is missing or is the caller. */
  function DestroyUser(caller: Caller, users: map<Id, User>, id: Id): (r: Result<map<Id, User>>)
    ensures r == Err(NotAuthorized) <==> !caller.IsAdmin()
    ensures r == Err(Thrown("User not found")) <==> caller.IsAdmin() && id !in users
    ensures r == Err(Thrown("Cannot delete this user")) <==> caller.IsAdmin() && id in users && caller.user.value.id == id
    ensures r.Ok? ==> r.value == users - {id} && id in users
  {
    if !caller.IsAdmin() then Err(NotAuthorized)
    else if id !in users then Err(Thrown("User not found"))
    else if caller.user.value.id == id then Err(Thrown("Cannot delete this user"))
    else Ok(users - {id})
  }

  /** No administrator can remove their own account, and a removal takes exactly
      one user away. */
  lemma DestroyNeverRemovesCaller(caller: Caller, users: map<Id, User>, id: Id)
    requires caller.user.Some? && caller.user.value.id in users
    ensures var r := DestroyUser(caller, users, id);
            r.Ok? ==> caller.user.value.id in r.value && |r.value| == |users| - 1
  {
    var r := DestroyUser(caller, users, id);
    if r.Ok? {
      assert users.Keys == r.value.Keys + {id};
    }
  }

  /** Whether the or-query of `canLogin` matches `u`: its user name or its e-mail
      is `login`. A missing login is a query for an absent field. */
  predicate Answers(u: User, login: Option<string>) {
    u.username == login || u.email == login
  }

  /** The first user, in the store's order, whose user name or e-mail is `login`.
      A missing login finds the first user without a user name or without an
      e-mail. */
  function FirstWithLogin(users: seq<User>, login: Option<string>): (r: Option<User>)
    ensures r.None? <==> forall i :: 0 <= i < |users| ==> !Answers(users[i], login)
    ensures r.Some? ==> exists i :: && 0 <= i < |users| && users[i] == r.value && Answers(users[i], login)
                                    && forall j :: 0 <= j < i ==> !Answers(users[j], login)
  {
    if users == [] then None
    else if Answers(users[0], login) then Some(users[0])
    else
      var rest := FirstWithLogin(users[1..], login);
      if rest.Some? then
        var i :| && 0 <= i < |users[1..]| && users[1..][i] == rest.value && Answers(users[1..][i], login)
                 && forall j :: 0 <= j < i ==> !Answers(users[1..][j], login);
        assert users[i + 1] == rest.value;
        rest
      else
        rest
  }

  /** The user types that may sign in to the dashboard. */
  predicate IsStaffType(kind: Option<UserType>) {
    kind == Some(SuperAdmin) || kind == Some(Admin)
  }

  /** `canLogin`: whether the dashboard accepts `login`, a user name or an e-mail,
      or no login at all. */
  function CanLogin(users: seq<User>, login: Option<string>): (r: Result<bool>)
    ensures r.Ok? ==> r.value
    ensures r == Err(Coded(5000, "User not found")) <==> FirstWithLogin(users, login).None?
    ensures r.Ok? <==> FirstWithLogin(users, login).Some? && IsStaffType(FirstWithLogin(users, login).value.kind)
    ensures r.Err? ==> r == Err(Coded(5000, "User not found")) || r == Err(Coded(5001, "User not authorized"))
  {
    var found := FirstWithLogin(users, login);
    if found.None? then Err(Coded(5000, "User not found"))
    else if !IsStaffType(found.value.kind) then Err(Coded(5001, "User not authorized"))
    else Ok(true)
  }

  /** A login that no earlier user answers to finds the user it names. */
  lemma {:induction false} FirstWithLoginAfter(others: seq<User>, u: User, login: Option<string>)
    requires u.username == login || u.email == login
    requires forall i :: 0 <= i < |others| ==> others[i].username != login && others[i].email != login
    ensures FirstWithLogin(others + [u], login) == Some(u)
  {
    if others != [] {
      assert (others + [u])[1..] == others[1..] + [u];
      FirstWithLoginAfter(others[1..], u, login);
    }
  }

  /** A user created by an administrator with the customer type is put in the
      Admin role, yet the dashboard turns it away; one created without a type is
      accepted. */
  lemma CreatedUserLogsInIffStaffType(caller: Caller, users: map<Id, User>, params: NewUser, newId: Id, others: seq<User>)
    requires newId !in users
    requires CreateUser(caller, users, params, newId).Ok?
    requires forall i :: 0 <= i < |others| ==> others[i].username != params.username && others[i].email != params.username
    ensures var u := CreateUser(caller, users, params, newId).value;
            && u.inAdminRole
            && (CanLogin(others + [u], params.username).Ok? <==> params.kind != Some(Customer))
  {
    var u := CreateUser(caller, users, params, newId).value;
    FirstWithLoginAfter(others, u, params.username);
    if params.kind.Some? && params.kind != Some(Customer) {
      assert params.kind.value.Admin? || params.kind.value.SuperAdmin?;
    }
  }

  /** A request without a login is answered by the first user who has no e-mail,
      which `createUser` allows: a staff user without an e-mail is let through. */
  lemma MissingLoginFindsUserWithoutEmail(others: seq<User>, u: User)
    requires u.email.None? && IsStaffType(u.kind)
    requires forall i :: 0 <= i < |others| ==> others[i].username.Some? && others[i].email.Some?
    ensures CanLogin(others + [u], None) == Ok(true)
  {
    FirstWithLoginAfter(others, u, None);
  }
}

=== FILE: webhook.dfy ===
/** The payment gateway's webhook (controllers/stripe.js): a confirmed payment for an
    entitlement pays it and applies the package's effects to the listing it was
    bought for. The signature check is an abstract verdict carried by the delivery. */
module PaymentWebhook {
  import opened Common
  import opened Records
  import Clock
  import Entitlements
  import Listings

  const PaymentSucceeded: string := "payment_intent.succeeded"

  /** The fields of an event the handler reads; missing ones are `None`.
      `charges` is the list of charges of the payment intent. */
  datatype Event = Event(kind: string, charges: Option<seq<string>>, userPackageId: Option<Id>, placeId: Option<Id>)

  /** One delivery: the event and whether its signature checks out against the
      configured secret. */
  datatype Delivery = Delivery(event: Event, signatureValid: bool)

  /** What the handler sends back: 400, `{received: true}`, or nothing at all. */
  datatype Response = BadRequest | Received | NoResponse

  datatype Handled = Handled(store: Store, response: Response)

  /** The listing after a payment: approved if the package approves automatically,
      featured if it features or promotes, and given an expiry (for a paid listing)
      or a featured expiry (for a promotion) at the start of the UTC day
      `listingDuration` days from now. The listing's own save trigger then runs. */
  function PaidPlace(p: Place, pkg: Package, now: int): (q: Place)
    ensures q.status == (if pkg.autoApproveListing then Approved else p.status)
    ensures q.isFeatured == (p.isFeatured || pkg.markListingAsFeatured || pkg.kind == PromoteListing)
    ensures TruthyInt(pkg.listingDuration) && pkg.kind == PaidListing ==>
              q.expiresAt == At(Clock.StartOfUtcDay(Clock.AddDays(now, pkg.listingDuration.value)))
    ensures !(TruthyInt(pkg.listingDuration) && pkg.kind == PaidListing) ==> q.expiresAt == p.expiresAt
    ensures TruthyInt(pkg.listingDuration) && pkg.kind == PromoteListing ==>
              q.featuredExpiresAt == At(Clock.StartOfUtcDay(Clock.AddDays(now, pkg.listingDuration.value)))
    ensures !(TruthyInt(pkg.listingDuration) && pkg.kind == PromoteListing) ==> q.featuredExpiresAt == p.featuredExpiresAt
    ensures q.expiresAt.At? && q.expiresAt != p.expiresAt ==> q.expiresAt.time % Clock.DayMs == 0
    ensures q == p.(status := q.status, isFeatured := q.isFeatured, expiresAt := q.expiresAt,
                    featuredExpiresAt := q.featuredExpiresAt, canonical := q.canonical)
  {
    var approved := if pkg.autoApproveListing then p.(status := Approved) else p;
    var featured := if pkg.markListingAsFeatured || pkg.kind == PromoteListing then approved.(isFeatured := true) else approved;
    var expiry := At(Clock.StartOfUtcDay(Clock.AddDays(now, pkg.listingDuration.GetOr(0))));
    var timed :=
      if !TruthyInt(pkg.listingDuration) then featured
      else if pkg.kind == PaidListing then featured.(expiresAt := expiry)
      else if pkg.kind == PromoteListing then featured.(featuredExpiresAt := expiry)
      else featured;
    var expiryWritten := TruthyInt(pkg.listingDuration) && pkg.kind == PaidListing;
    Listings.SavePlace(Caller(None, true), timed, true, true, expiryWritten).value
  }

  /** The entitlement after a payment: paid, with the first charge stored, one more
      use counted, and the limit flag recomputed by its save trigger. */
  function PaidEntitlement(up: UserPackage, charges: seq<string>): (u: UserPackage)
    ensures u.status == Paid && u.usage == up.usage + 1
    ensures u.charge == (if |charges| > 0 then Some(charges[0]) else None)
    ensures Entitlements.FlagConsistent(u)
    ensures u == up.(status := Paid, charge := u.charge, usage := up.usage + 1, isLimitReached := u.isLimitReached)
  {
    var paid := up.(status := Paid, charge := if |charges| > 0 then Some(charges[0]) else None, usage := up.usage + 1);
    Entitlements.SaveEntitlement(paid, false, true, true).value
  }

  /** What the handler does once it holds the event. Only a succeeded payment
      intent is acted on, and every other event type is left without any response;
      a missing field or record answers 400, in which case nothing has been
      written. The listing is saved before the entitlement, and nothing stops the
      same payment from being applied twice. */
  function ActOn(e: Event, store: Store, now: int): (h: Handled)
    ensures h.response != Received ==> h.store == store
    ensures h.response == NoResponse <==> e.kind != PaymentSucceeded
    ensures h.response == Received <==>
              && e.kind == PaymentSucceeded && e.charges.Some? && e.userPackageId.Some? && e.placeId.Some?
              && e.userPackageId.value in store.entitlements && e.placeId.value in store.places
    ensures h.response == Received ==>
              var up := store.entitlements[e.userPackageId.value];
              h.store == store.(places := store.places[e.placeId.value := PaidPlace(store.places[e.placeId.value], up.pkg, now)],
                                entitlements := store.entitlements[e.userPackageId.value := PaidEntitlement(up, e.charges.value)])
  {
    if e.kind != PaymentSucceeded then Handled(store, NoResponse)
    else if e.charges.None? || e.userPackageId.None? || e.placeId.None? then Handled(store, BadRequest)
    else if e.userPackageId.value !in store.entitlements || e.placeId.value !in store.places then Handled(store, BadRequest)
    else
      var up := store.entitlements[e.userPackageId.value];
      var p := store.places[e.placeId.value];
      var placed := store.(places := store.places[e.placeId.value := PaidPlace(p, up.pkg, now)]);
      Handled(placed.(entitlements := placed.entitlements[e.userPackageId.value := PaidEntitlement(up, e.charges.value)]),
              Received)
  }

  /** The webhook handler. The route reads the body as raw bytes. With a secret
      configured, a delivery whose signature does not check out is refused with 400
      before anything is read, and a verified one is decoded and acted on. Without
      a secret the handler reads the event type off the raw bytes, where there is
      none, so the delivery is neither acted on nor answered. */
  function HandleWebhook(secretConfigured: bool, delivery: Delivery, store: Store, now: int): (h: Handled)
    ensures secretConfigured && !delivery.signatureValid ==> h == Handled(store, BadRequest)
    ensures !secretConfigured ==> h == Handled(store, NoResponse)
    ensures h.response != Received ==> h.store == store
    ensures h.response == NoResponse <==> !secretConfigured || (delivery.signatureValid && delivery.event.kind != PaymentSucceeded)
    ensures h.response == Received <==>
              && secretConfigured && delivery.signatureValid && delivery.event.kind == PaymentSucceeded
              && delivery.event.charges.Some? && delivery.event.userPackageId.Some? && delivery.event.placeId.Some?
              && delivery.event.userPackageId.value in store.entitlements && delivery.event.placeId.value in store.places
    ensures h.response == Received ==>
              var e := delivery.event;
              var up := store.entitlements[e.userPackageId.value];
              h.store == store.(places := store.places[e.placeId.value := PaidPlace(store.places[e.placeId.value], up.pkg, now)],
                                entitlements := store.entitlements[e.userPackageId.value := PaidEntitlement(up, e.charges.value)])
  {
    if secretConfigured && !delivery.signatureValid then Handled(store, BadRequest)
    else if !secretConfigured then Handled(store, NoResponse)
    else ActOn(delivery.event, store, now)
  }

  /** Only the listing and the entitlement named by the event change. */
  lemma WebhookTouchesOnlyItsRecords(secretConfigured: bool, delivery: Delivery, store: Store, now: int)
    ensures var h := HandleWebhook(secretConfigured, delivery, store, now);
            && h.store.packages == store.packages && h.store.reviews == store.reviews
            && h.store.places.Keys == store.places.Keys && h.store.entitlements.Keys == store.entitlements.Keys
            && (forall k :: k in store.places && Some(k) != delivery.event.placeId ==> h.store.places[k] == store.places[k])
            && (forall k :: k in store.entitlements && Some(k) != delivery.event.userPackageId ==>
                  h.store.entitlements[k] == store.entitlements[k])
  {
  }

  /** The same confirmed payment delivered twice counts two uses. */
  lemma RepeatedDeliveryCountsTwice(secretConfigured: bool, delivery: Delivery, store: Store, now: int, later: int)
    requires HandleWebhook(secretConfigured, delivery, store, now).response == Received
    ensures var once := HandleWebhook(secretConfigured, delivery, store, now);
            var twice := HandleWebhook(secretConfigured, delivery, once.store, later);
            var id := delivery.event.userPackageId.value;
            twice.response == Received && twice.store.entitlements[id].usage == store.entitlements[id].usage + 2
  {
  }

  /** With a listing limit of one, the second delivery of the payment for a fresh
      unpaid entitlement lowers the limit flag again, and the entitlement then funds
      listings without end. */
  lemma RepeatedDeliveryReopensEntitlement(delivery: Delivery, store: Store, now: int)
    requires delivery.signatureValid && delivery.event.kind == PaymentSucceeded && delivery.event.charges.Some?
    requires delivery.event.userPackageId.Some? && delivery.event.placeId.Some?
    requires delivery.event.placeId.value in store.places && delivery.event.userPackageId.value in store.entitlements
    requires var up := store.entitlements[delivery.event.userPackageId.value];
             up.status == Unpaid && up.usage == 0 && up.pkg.listingLimit == Some(1)
    ensures var once := HandleWebhook(true, delivery, store, now);
            var twice := HandleWebhook(true, delivery, once.store, now);
            var id := delivery.event.userPackageId.value;
            && once.store.entitlements[id].isLimitReached
            && Entitlements.Consume(once.store.entitlements[id]).Err?
            && !twice.store.entitlements[id].isLimitReached
            && Entitlements.Consume(twice.store.entitlements[id]).Ok?
  {
  }

  // ----- Finding: without a secret the event is never read -----

  /** The handler with the evidently intended unsigned mode: without a secret the
      body is decoded as the event and acted on as a verified one would be. */
  function HandleWebhookParsed(secretConfigured: bool, delivery: Delivery, store: Store, now: int): (h: Handled)
    ensures secretConfigured && !delivery.signatureValid ==> h == Handled(store, BadRequest)
    ensures h.response != Received ==> h.store == store
    ensures h.response == NoResponse <==>
              (!secretConfigured || delivery.signatureValid) && delivery.event.kind != PaymentSucceeded
    ensures h.response == Received <==>
              && (!secretConfigured || delivery.signatureValid) && delivery.event.kind == PaymentSucceeded
              && delivery.event.charges.Some? && delivery.event.userPackageId.Some? && delivery.event.placeId.Some?
              && delivery.event.userPackageId.value in store.entitlements && delivery.event.placeId.value in store.places
    ensures secretConfigured ==> h == HandleWebhook(secretConfigured, delivery, store, now)
  {
    if secretConfigured && !delivery.signatureValid then Handled(store, BadRequest)
    else ActOn(delivery.event, store, now)
  }

  /** As written, an unsigned payment confirmation for a stored entitlement and
      listing writes nothing and gets no answer; the corrected handler pays both. */
  lemma UnsignedPaymentIsIgnored(delivery: Delivery, store: Store, now: int)
    requires delivery.event.kind == PaymentSucceeded && delivery.event.charges.Some?
    requires delivery.event.userPackageId.Some? && delivery.event.userPackageId.value in store.entitlements
    requires delivery.event.placeId.Some? && delivery.event.placeId.value in store.places
    ensures HandleWebhook(false, delivery, store, now) == Handled(store, NoResponse)
    ensures HandleWebhookParsed(false, delivery, store, now).response == Received
    ensures HandleWebhookParsed(false, delivery, store, now).store.entitlements[delivery.event.userPackageId.value].status == Paid
  {
  }

  // ----- Finding: other event types get no response -----

  /** The handler with the evidently intended acknowledgement: every verified event
      is answered, and events of other types still change nothing. */
  function HandleWebhookAcknowledged(secretConfigured: bool, delivery: Delivery, store: Store, now: int): (h: Handled)
    ensures h.response != NoResponse
    ensures delivery.event.kind != PaymentSucceeded ==> h.store == store
    ensures (!secretConfigured || delivery.signatureValid) && delivery.event.kind != PaymentSucceeded ==>
              h.response == Received
    ensures h.response == Received || HandleWebhookParsed(secretConfigured, delivery, store, now).response == BadRequest
  {
    var h := HandleWebhookParsed(secretConfigured, delivery, store, now);
    if h.response == NoResponse then Handled(store, Received) else h
  }

  /** As written, a verified event of any other type is never answered. */
  lemma OtherEventsGetNoResponse(store: Store, now: int)
    ensures HandleWebhook(true, Delivery(Event("charge.refunded", None, None, None), true), store, now).response == NoResponse
    ensures HandleWebhookAcknowledged(true, Delivery(Event("charge.refunded", None, None, None), true), store, now).response == Received
  {
  }
}
